=== FILE: README.md ===
# Video platform backend — a Dafny model of its controllers

This project models the request handlers of a video-sharing backend in Dafny. The backend is Express on MongoDB. Users publish videos, comment, post tweets, like content, subscribe to channels, keep playlists and build up a watch history.

The model covers the likes, subscriptions, videos, playlists, users, comments, tweets and dashboard controllers. It also covers the playlist schema and the expression that turns a stored media URL into the media service's public id.

How the store is represented:

- The database is one immutable value, `Records.Db`, with one sequence per collection in insertion order.
- `findById`/`findOne` are "first document that matches" (`Seqs.IndexWhere`).
- A `$match` is `Seqs.Filter`, and a `$lookup` followed by `$size` is `Seqs.Count`.

How handlers are represented:

- The three like endpoints share one toggle, `Likes.ToggleLike`, and differ only in the kind of target.
- Each handler is a pure function from the database and the request to `Result<…>`, holding the new database and the payload.
- A failure is either an `ApiError(status, message)` or a `Thrown(kind)`. `Thrown` stands for the exceptions the code does not raise itself: a `TypeError` on a `null` document, a Mongo or schema error.
- The wrapper every handler is registered through answers any failure with status 500 (`Handler.Respond`). The statuses the contracts mention are those of the `ApiError` the code throws.

Parameters replace the outside world:

- the identifier the database gives a new document;
- the tokens a login or refresh signs;
- the verdict of verifying a refresh token;
- whether a password matched;
- the URL an upload produced;
- whether the media service acknowledged a delete;
- the relevance-scored hits of the search index.

The model follows the code as written. Three places where the code evidently does not do what it was written for are logged under "## Findings", each with a corrected version:

- `getVideoById` checks `if(!video)` to answer 404 (src/controllers/video.controller.js:262), but the aggregation always yields an array, so an unknown id is never refused.
- On a repeat view, the id is spliced to the front of the history (src/controllers/video.controller.js:280-281), but the document is not saved afterwards.
- The dashboard figure named `subscribersCount` (src/controllers/dashboard.controller.js:49) counts users, not subscriptions.

## Model

| member | source | states |
|---|---|---|
| Handler.Respond | src/utils/asyncHandler.js:1-10 | any failure, whatever status its `ApiError` carries, is answered with 500 and `success: false`; success uses the handler's own status |
| Ownership.VerifyOwner | src/controllers/video.controller.js:10-18 | the ownership guard passes exactly when the caller is the owner, and otherwise fails with 401 "Unauthorized request" |
| Paging.AggregatePage | src/controllers/comment.controller.js:148 | aggregate `skip((page-1)*limit).limit(limit)` fails for a negative skip or a non-positive limit; otherwise it yields at most `limit` consecutive items starting at `(page-1)*limit`, and fewer than `limit` exactly when the collection runs out |
| Paging.FindPage | src/controllers/video.controller.js:347 | `find().skip().limit()`: a negative skip fails; limit 0 means no limit; otherwise the result is a consecutive run from the offset of at most the limit's absolute value, and shorter exactly when the collection runs out |
| Paging.FindPageAgreesWithAggregate | src/controllers/video.controller.js:345-347 | with a positive limit, `find` paging and aggregate paging give the same page |
| Paging.NegativeLimitIsAbsolute | src/controllers/video.controller.js:347 | a negative limit `-l` on page `p` gives the page `2 - p` of size `l`, which is the aggregate page `2 - p` whenever the skip is not negative |
| Paging.PagesTile | src/controllers/comment.controller.js:98-148 | pages 1..n of size `limit`, put together, are exactly the first `n*limit` items: no item is skipped or repeated |
| Records.OwnerCard | src/controllers/subscription.controller.js:55-101 | the projected user card exists exactly when some user has the id, and it is that user's card |
| Records.ChannelCardOf | src/controllers/subscription.controller.js:110-126 | the channel card `{fullName, avatar, _id}` exists exactly when some user has the id, and carries the fields of the first such user |
| Records.ChannelCardDropsUsername | src/controllers/subscription.controller.js:119-125 | the channel card is the subscriber card of the same user with the username left out |
| Records.PublicViewHidesSecrets | src/controllers/user.controller.js:61-63 | the view read with `select("-password -refreshToken")` depends on nothing but the other fields: two users have the same view exactly when they differ at most in password and refresh token |
| Records.SubscribedImpliesCounted | src/controllers/user.controller.js:353-367 | if the viewer is among a channel's subscribers, the channel's subscriber count is at least 1 |
| Assets.PublicId | src/utils/cloudinary.js:30 | the public id has neither '/' nor '.', and it is a prefix of the URL's last path segment |
| Assets.PublicIdIsTheSplitExpression | src/utils/cloudinary.js:30 | `PublicId(url)` equals `url.split("/").slice(-1)[0].split(".")[0]`, with `split` modelled separately |
| Assets.StoredUrlId | src/utils/cloudinary.js:41 | for a URL `folders/name.ext` whose name has no '/' or '.', the public id is `name` |
| Assets.PlainNameIsItsOwnId | src/utils/cloudinary.js:30 | a string with no '/' and no '.' is its own public id |
| Assets.PublicIds | src/utils/cloudinary.js:30 | `urls.map(...)` keeps the length and maps each URL to its own public id |
| Text.Trim | src/controllers/video.controller.js:300 | `trim` removes only white space, from both ends, and leaves a result that neither starts nor ends with white space |
| Text.TrimBlank | src/controllers/user.controller.js:28-30 | a string trims to "" exactly when it is all white space |
| Text.TrimIdempotent | src/controllers/user.controller.js:326-333 | trimming twice is trimming once |
| Text.ToLower | src/controllers/user.controller.js:333 | lower-casing keeps the length, maps each character on its own, and leaves no upper-case ASCII letter |
| Likes.ToggleLike | src/controllers/like.controller.js:10-51 | an existing like by the caller on the target is removed and answers `null`; otherwise a missing target is 400 and an existing one gains exactly one new like by the caller |
| Likes.ToggleTwiceRestores | src/controllers/like.controller.js:10-51 | liking then unliking a target gives back the original database |
| Likes.ToggleTwiceFromLiked | src/controllers/like.controller.js:10-51 | unliking then liking again leaves every target with the same like count and every (user, target) pair with the same liked status as before |
| Likes.RemoveLikeEffect | src/controllers/like.controller.js:41-42 | removing a like lowers the target's count by one and changes no other target's count nor any other (user, target) pair; one like per pair is kept |
| Likes.AddLikeEffect | src/controllers/like.controller.js:27-30 | adding a like raises only that target's count, by one, marks the pair as liked, and keeps one like per pair |
| Likes.ToggleTouchesOnlyThePair | src/controllers/like.controller.js:10-51 | a toggle changes the liked status of the caller's pair and of no other (user, target) pair |
| Likes.GetLikedVideos | src/controllers/like.controller.js:139-180 | every stored video the caller has liked is listed, and every entry is the `{_id, title, description, thumbnail}` projection of such a video |
| Likes.LikedVideosOnePerLike | src/controllers/like.controller.js:140-157 | with unique video ids, the join has one video per like of the caller on a stored video, in the order of the likes, and entry k is the video the k-th such like points at |
| Likes.LikedVideosListing | src/controllers/like.controller.js:139-180 | with unique video ids, the listing has exactly one entry per like of the caller on a stored video, in like order, each the projection of the video that like points at |
| Subscriptions.ToggleSubscription | src/controllers/subscription.controller.js:8-53 | an existing subscription is removed; otherwise 400 for an unknown channel, then 400 for the caller's own channel, else exactly one subscription is added |
| Subscriptions.NoSelfSubscription | src/controllers/subscription.controller.js:24-26 | a caller who is not yet subscribed can never subscribe to themselves, when the route carries the caller's id in lower-case hex (see "Left out") |
| Subscriptions.TogglePreservesWellFormed | src/controllers/subscription.controller.js:8-53 | a toggle keeps the relation free of duplicate pairs and of self-subscriptions, when route ids are in lower-case hex (see "Left out") |
| Subscriptions.ToggleTwiceRestores | src/controllers/subscription.controller.js:8-53 | subscribing and then unsubscribing gives back the original database |
| Subscriptions.GetUserChannelSubscribers | src/controllers/subscription.controller.js:55-101 | with defaults page 1 and limit 50, the page is the aggregate window of the channel's subscriptions, each mapped to its subscriber's card |
| Subscriptions.GetSubscribedChannels | src/controllers/subscription.controller.js:103-146 | one entry per subscription the caller holds, in collection order, each the `{fullName, avatar, _id}` card of its channel, or the empty object when the channel is gone |
| Subscriptions.SubscribedChannelsAreSubscriptions | src/controllers/subscription.controller.js:103-146 | every card listed is a channel the caller subscribes to, and every existing channel the caller subscribes to is listed |
| Videos.TogglePublishStatus | src/controllers/video.controller.js:107-132 | 404 for an unknown video, 401 for a non-owner; otherwise only the publish flag of that video flips |
| Videos.TogglePublishTwice | src/controllers/video.controller.js:107-132 | toggling twice gives back the original database |
| Videos.UpdateVideo | src/controllers/video.controller.js:134-180 | 400 when nothing is given; truthy title and description replace the old ones; a new thumbnail must upload (else 500), then replaces the old one, whose public id is queued for deletion; nothing else in the video changes |
| Videos.UpdateTextIdempotent | src/controllers/video.controller.js:134-180 | repeating a text-only update changes nothing further |
| Videos.DeleteVideo | src/controllers/video.controller.js:72-105 | 404 for an unknown video, 401 for a non-owner; otherwise exactly that video is removed and the public ids of its thumbnail and file are queued for deletion |
| Videos.DeleteLeavesReferences | src/controllers/video.controller.js:72-105 | deleting a video leaves likes, comments, playlists and histories that refer to it untouched |
| Videos.Details | src/controllers/video.controller.js:185-261 | one detail per video with the id, published or not, each with its like count and its owner's projection: subscriber count and whether the viewer subscribes |
| Videos.GetVideoById | src/controllers/video.controller.js:182-294 | succeeds exactly when the viewer is a user, whether or not the video exists; answers the details as they were before the view |
| Videos.ViewerAfterView | src/controllers/video.controller.js:270-278 | after a first view, the video id heads the viewer's history, followed by the old history |
| Videos.SecondViewChangesNothing | src/controllers/video.controller.js:279-282 | a repeat view changes nothing that is persisted |
| Videos.ViewsRiseOnce | src/controllers/video.controller.js:271-276 | a first view adds exactly one view to the first video with the id and leaves every other field unchanged |
| Videos.HistoryStaysDuplicateFree | src/controllers/video.controller.js:270-282 | a duplicate-free history stays duplicate-free |
| Videos.RecordView | src/controllers/video.controller.js:269-282 | a viewer who is not a user is a TypeError; a first view bumps the views and puts the id at the front of the history; a repeat view persists nothing |
| Videos.RepeatViewNotSaved | src/controllers/video.controller.js:279-282 | with history [1, 7], viewing 7 leaves [1, 7] stored; the saved reorder would give [7, 1] |
| Videos.RecordViewSaved | src/controllers/video.controller.js:270-282 | with the reorder saved, the viewed id heads the history and the history keeps the same ids |
| Videos.MoveToFrontNoDuplicates | src/controllers/video.controller.js:280-281 | moving an id to the front keeps a history duplicate-free |
| Videos.MoveToFrontKeepsIds | src/controllers/video.controller.js:280-281 | moving an id to the front keeps exactly the same set of ids |
| Videos.MissingVideoRecorded | src/controllers/video.controller.js:262-278 | viewing an id that no video has succeeds with an empty list and stores the id in the viewer's history |
| Videos.GetVideoByIdChecked | src/controllers/video.controller.js:262-267 | with the existence check, an unknown video is 404, and a success always carries at least one detail |
| Videos.CheckedViewKeepsHistoryResolved | src/controllers/video.controller.js:262-282 | with the check, a history whose ids all name videos keeps that property |
| Videos.SortByScore | src/controllers/video.controller.js:345 | search hits are ordered by descending score, as a permutation of the hits |
| Videos.InsertByScorePermutes | src/controllers/video.controller.js:345 | inserting a hit into the sorted hits adds exactly that hit and loses none |
| Videos.SearchPage | src/controllers/video.controller.js:302-345 | the search page is the window of the score-sorted hits; it fails on bad pagination and otherwise has at most `limit` items with descending scores |
| Videos.GetVideos | src/controllers/video.controller.js:296-366 | defaults page 1, limit 1 and query ""; a query that trims to something searches, anything else lists plain videos through `find` paging |
| Videos.SearchResultsAreHits | src/controllers/video.controller.js:302-345 | every listed search result is one of the index's hits, with its score |
| Playlists.SchemaAllowsDuplicates | src/models/playlist.model.js:3-28 | the schema only requires a name and admits a playlist that lists a video twice |
| Playlists.CreatePlaylist | src/controllers/playlist.controller.js:17-41 | 400 without a truthy name; otherwise exactly one playlist, owned by the caller and with no videos, is added |
| Playlists.NewPlaylistIsPrivate | src/controllers/playlist.controller.js:17-41 | a playlist created without a visibility is private and empty |
| Playlists.OwnedPlaylist | src/controllers/playlist.controller.js:7-15 | 404 when no playlist has the id, 401 when the caller does not own it, else its index |
| Playlists.AddToFront | src/controllers/playlist.controller.js:59-63 | for a route id in lower-case hex, a video already listed is 400; otherwise it is put in front of the others (see "Left out") |
| Playlists.RemoveAll | src/controllers/playlist.controller.js:91-97 | for a route id in lower-case hex, a video not listed is 400; otherwise every occurrence goes and the rest keep their order (see "Left out") |
| Playlists.AddVideoToPlaylist | src/controllers/playlist.controller.js:43-75 | the guard's failure, then 400 for a listed video; otherwise only that playlist's list changes |
| Playlists.RemoveVideoFromPlaylist | src/controllers/playlist.controller.js:77-109 | the guard's failure, then 400 for an unlisted video; otherwise only that playlist's list changes |
| Playlists.AddThenRemoveRestores | src/controllers/playlist.controller.js:43-109 | for a route id in lower-case hex, adding a video and then removing it gives back the original list |
| Playlists.AddThenRemoveVideo | src/controllers/playlist.controller.js:43-109 | for a route id in lower-case hex, the same round trip through the handlers gives back the original database |
| Playlists.AddKeepsNoDuplicates | src/controllers/playlist.controller.js:59-63 | for a route id in lower-case hex, adding keeps a duplicate-free list duplicate-free |
| Playlists.RemoveKeepsNoDuplicates | src/controllers/playlist.controller.js:91-97 | removing keeps a duplicate-free list duplicate-free |
| Playlists.RemoveKeepsOrder | src/controllers/playlist.controller.js:95-97 | removing distributes over concatenation, so the others keep their relative order |
| Playlists.UpdatePlaylist | src/controllers/playlist.controller.js:111-145 | 400 when nothing is given; the guard's failure; otherwise truthy name and description replace the old ones, a given visibility is set, and nothing else changes |
| Playlists.WritesKeepPlaylistsValid | src/controllers/playlist.controller.js:17-145 | add, remove and update keep every stored playlist valid for the schema |
| Playlists.UpdateIdempotent | src/controllers/playlist.controller.js:111-145 | applying the same update twice is applying it once |
| Playlists.DeletePlaylist | src/controllers/playlist.controller.js:248-273 | the guard's failure; otherwise exactly that playlist is removed |
| Playlists.GuardStatuses | src/controllers/playlist.controller.js:7-15 | the guard fails only with 404 or 401 |
| Playlists.ListedFor | src/controllers/playlist.controller.js:147-246 | the listed playlists are the user's, restricted to the visible ones unless the caller is that user and the route carries the id in lower-case hex (see "Left out") |
| Playlists.GetUserPlaylists | src/controllers/playlist.controller.js:147-246 | one summary per listed playlist; visibility is shown only on the caller's own |
| Playlists.ListingVisibility | src/controllers/playlist.controller.js:147-246 | someone else sees only visible playlists and never their visibility flag |
| Playlists.FirstThumbnail | src/controllers/playlist.controller.js:176-182 | a thumbnail exists exactly when some stored video is listed in the playlist |
| Playlists.PublishedIn | src/controllers/playlist.controller.js:288-329 | the shown videos are exactly the published stored videos the playlist lists |
| Playlists.ViewOf | src/controllers/playlist.controller.js:282-350 | the detail carries the published listed videos, their number, and a thumbnail exactly when that number is positive |
| Playlists.GetPlaylistById | src/controllers/playlist.controller.js:275-368 | 404 when no playlist has the id; 401 when the first match is private and the caller does not own it; otherwise one view per playlist with the id, in collection order, so every match is shown and nothing else |
| Playlists.PrivatePlaylistsAndDrafts | src/controllers/playlist.controller.js:296-357 | only the owner reads a private playlist, and an unpublished video never appears in a detail |
| Comments.AddComment | src/controllers/comment.controller.js:17-42 | 400 without a truthy content or a video id; otherwise exactly one comment by the caller is appended |
| Comments.OwnedComment | src/controllers/comment.controller.js:7-15 | 404 for an unknown comment, 401 for a non-owner, else its index |
| Comments.UpdateComment | src/controllers/comment.controller.js:67-94 | 400 without content, then the guard; otherwise only the content of that comment changes |
| Comments.DeleteComment | src/controllers/comment.controller.js:44-65 | the guard's failure; otherwise exactly that comment is removed |
| Comments.AddedCommentListedLast | src/controllers/comment.controller.js:17-42 | a new comment is listed last among the video's comments, and other videos' comments are unchanged |
| Comments.DeleteCommentCounts | src/controllers/comment.controller.js:44-65 | a delete lowers the comment count of that comment's video by one and leaves every like, including those on the deleted comment, in place |
| Comments.UpdateCommentIdempotent | src/controllers/comment.controller.js:67-94 | repeating an update changes nothing further |
| Comments.GetVideoComments | src/controllers/comment.controller.js:96-159 | with defaults page 1 and limit 10, the aggregate window of the video's comments, each with its like count and author |
| Comments.ListedCommentsBelong | src/controllers/comment.controller.js:96-159 | every listed comment is a stored comment on that video |
| Tweets.CreateTweet | src/controllers/tweet.controller.js:17-48 | 400 without a truthy content; otherwise exactly one tweet by the caller is appended |
| Tweets.OwnedTweet | src/controllers/tweet.controller.js:61-73 | an unknown tweet is 500 "Tweet does not exist", a non-owner 401, else its index |
| Tweets.UpdateTweet | src/controllers/tweet.controller.js:50-87 | 400 without content, then the guard; otherwise only that tweet's content changes |
| Tweets.DeleteTweet | src/controllers/tweet.controller.js:160-198 | the guard's failure; otherwise exactly that tweet is removed |
| Tweets.TweetFailureStatuses | src/controllers/tweet.controller.js:50-198 | update fails only with 400, 401 or 500, and delete only with 401 or 500 |
| Tweets.DeleteTweetRemovesOne | src/controllers/tweet.controller.js:160-198 | a delete removes exactly one tweet, one of the caller's, and changes nothing outside the tweets |
| Tweets.UpdateTweetIdempotent | src/controllers/tweet.controller.js:50-87 | repeating an update changes nothing further |
| Tweets.GetUserTweets | src/controllers/tweet.controller.js:89-158 | one view per tweet of the user, each with its like count |
| Tweets.CreatedTweetListedLast | src/controllers/tweet.controller.js:17-48 | a new tweet is listed last among its author's tweets |
| Dashboard.GetChannelStats | src/controllers/dashboard.controller.js:8-69 | per-video figures for each owned video; the totals are the sums of views, likes and comments over them; the subscriber figure counts users whose `channel` is the caller |
| Dashboard.EmptyChannelTotals | src/controllers/dashboard.controller.js:44-48 | a channel without videos has all three totals at 0 |
| Dashboard.SumOfAppend | src/controllers/dashboard.controller.js:46-48 | a sum over a concatenation is the sum of the sums |
| Dashboard.OneMoreLike | src/controllers/dashboard.controller.js:9-47 | with unique video ids, one more like on an owned video raises `totalLikes` by exactly one |
| Dashboard.LikeLeavesOtherTotals | src/controllers/dashboard.controller.js:46-48 | a new like leaves `totalViews` and `totalComments` unchanged |
| Dashboard.ForeignLikeNotCounted | src/controllers/dashboard.controller.js:9-47 | a like on a video the caller does not own leaves `totalLikes` unchanged |
| Dashboard.SubscriberNotCounted | src/controllers/dashboard.controller.js:49 | with the `channel` filter kept (`strictQuery` off), a channel with one subscriber reports 0 subscribers as written, and 1 when corrected |
| Dashboard.GetChannelStatsCorrected | src/controllers/dashboard.controller.js:49 | the corrected figure is the number of the channel's subscriptions, at least 1 when anyone subscribes; every other figure is as written |
| Dashboard.GetChannelVideos | src/controllers/dashboard.controller.js:71-162 | one entry per owned video with its like count and its comments, each with its own like count and commenter |
| Dashboard.DashboardViewsAgree | src/controllers/dashboard.controller.js:8-162 | both dashboard views cover the same videos in the same order, with the same like counts |
| Users.IssueTokens | src/controllers/user.controller.js:10-23 | an unknown user is 500; otherwise the user's one stored refresh token becomes the newly issued one |
| Users.IssuedTokenStored | src/controllers/user.controller.js:10-23 | issuing changes only that user's refresh token |
| Users.RegisterUser | src/controllers/user.controller.js:25-70 | 400 for a blank field, 409 for a username already stored as given, a TypeError without a username; success exactly when every field is sent and non-blank and the name is free; the stored user is lower-cased, with "" for a missing image, and has no token or history; the answer is the created user read back by id, without password and refresh token, and it is that very user when the id is fresh |
| Users.CreatedUserReadBack | src/controllers/user.controller.js:61-67 | reading back a user just created always finds one, so the 500 "Something went wrong" is never answered, and it finds that user when its id is fresh |
| Users.CaseVariantPassesCheck | src/controllers/user.controller.js:34-55 | the duplicate check compares the raw name while the stored name is lowered, so a case variant of a stored name passes and yields a second user with the same stored name, provided the user schema neither lower-cases nor uniquely indexes `username` |
| Users.LoginUser | src/controllers/user.controller.js:72-120 | 400 for a missing field, 404 when no user has the username or email, 401 for a wrong password; else the tokens are issued and the user in the answer is the view, without password and refresh token, that the user had before the login |
| Users.LoginStoresToken | src/controllers/user.controller.js:72-120 | a matching login succeeds and leaves the user holding exactly the new refresh token |
| Users.LogoutUser | src/controllers/user.controller.js:122-148 | the caller's stored refresh token is cleared and nothing else changes |
| Users.Rethrow401 | src/controllers/user.controller.js:189-191 | whatever the refresh body throws comes out as a 401 |
| Users.RefreshAccessToken | src/controllers/user.controller.js:150-192 | success exactly when a token came in, it verifies to an existing user's id and equals that user's stored token; new tokens are then issued; every failure is 401 |
| Users.LogoutEndsSession | src/controllers/user.controller.js:122-192 | after logout, no refresh for that user succeeds, given that logout clears the stored token as modelled (see "Left out") |
| Users.RotatedTokenRefused | src/controllers/user.controller.js:150-192 | a refresh token once used is refused from then on |
| Users.LoginThenRefresh | src/controllers/user.controller.js:72-192 | the refresh token a login issued buys a new pair |
| Users.ChangePassword | src/controllers/user.controller.js:194-219 | 401 for an unknown caller, 400 for a wrong old password; otherwise only the password changes |
| Users.ChangePasswordKeepsSession | src/controllers/user.controller.js:194-219 | a password change revokes no session: a refresh succeeds after the change exactly when it would have before |
| Users.UpdateAccountDetails | src/controllers/user.controller.js:233-255 | 400 when neither name nor email is given; otherwise each truthy one replaces the old value and nothing else changes |
| Users.UpdateAccountDetailsIdempotent | src/controllers/user.controller.js:233-255 | sending the same details again changes nothing further |
| Users.ImagesToDelete | src/controllers/user.controller.js:280-300 | an image's previous file is queued for deletion exactly when its new upload produced a result |
| Users.UpdateUserImages | src/controllers/user.controller.js:257-321 | 401 without a user, 400 without a file, 500 naming the images when the delete is not acknowledged; otherwise each image URL becomes the new truthy URL or stays, the old public ids are queued, and the answer is the updated user without password and refresh token |
| Users.FailedUploadsKeepImages | src/controllers/user.controller.js:257-321 | when every attempted upload fails, nothing is deleted and the database is unchanged |
| Users.AvatarOnlyChange | src/controllers/user.controller.js:280-310 | an avatar-only change deletes only the old avatar and keeps the cover image |
| Users.GetUserChannelProfile | src/controllers/user.controller.js:323-397 | 400 for a blank handle; a profile exactly when some user is stored under the trimmed, lower-cased handle, else 404; the profile is that of the first such user in collection order (`channel[0]`) |
| Users.ProfileOf | src/controllers/user.controller.js:338-380 | the profile's counts are the channel's subscribers and subscriptions, and `isSubscribed` holds exactly when the viewer subscribes |
| Users.HandleIgnoresPadding | src/controllers/user.controller.js:326-333 | surrounding white space in the handle does not change the answer |
| Users.HandleIgnoresCase | src/controllers/user.controller.js:326-333 | letter case in the handle does not change the answer |
| Users.TrimOfLower | src/controllers/user.controller.js:333 | trimming and lower-casing commute |
| Users.ProfileAgreesWithSubscriptions | src/controllers/user.controller.js:338-369 | the profile's figures are the subscription counts, and a subscribed viewer implies at least one subscriber |

## Left out

- publishVideo (src/controllers/video.controller.js:20-70) is not modelled. It is upload plumbing: two uploads, a duration read from the media service, and one insert.
- getCurrentUser is not modelled. It echoes the user the authentication middleware attached.
- getWatchHistory is not modelled. Its result depends on the order a `$lookup` returns the videos of an id list, which the database does not specify.
- Routes and the authentication middleware are left out. The caller is a parameter.
- Signing and verifying tokens, hashing and checking passwords, and the media service are left out. Their answers are parameters.
- Upload and delete I/O, logging and durations are left out.
- Timestamps are left out. Documents carry no `createdAt` or `updatedAt`, so projections that include them leave them out too; in the liked-video entry that is `createdAt` (src/controllers/like.controller.js:164).
- Users.UpdateAccountDetails answers with the updated record as the authentication middleware attached it. The middleware and src/models/user.model.js are outside the modelled sources, so the fields it leaves out are unknown here; the model returns the whole record.
- Dashboard.GetChannelStats counts users whose `channel` field is the caller (src/controllers/dashboard.controller.js:49), which keeps the filter on a path the user schema may not declare. Whether the filter is kept depends on the library's `strictQuery` setting: with `strictQuery` false (the default in Mongoose 5, 7 and 8) the filter stays and the count is 0, as modelled; under Mongoose 6's default the path is dropped and every user is counted. src/models/user.model.js and the library version are outside the modelled sources.
- Subscriptions.ToggleSubscription: the self check `channelId == req.user._id` (src/controllers/subscription.controller.js:24) compares the route's text with the lower-case hex string of the caller's ObjectId. The model compares ids as values. The caller's own id written in upper-case hex still names the caller for `findById`, but the text differs, so the handler stores a self-subscription that the model refuses.
- Subscriptions.NoSelfSubscription holds only when the route carries the caller's id in lower-case hex, for the reason given for Subscriptions.ToggleSubscription.
- Subscriptions.TogglePreservesWellFormed holds only when every route id is in lower-case hex. An upper-case spelling of the caller's own id stores a self-subscription.
- Playlists.GetUserPlaylists: the owner check `userId == req.user._id` (src/controllers/playlist.controller.js:154) is the same textual comparison. An owner who spells their own id in upper-case hex is served the visible-only listing, without visibility flags. The model treats them as the owner.
- Playlists.ListedFor shows the owner their private playlists only when the route carries their id in lower-case hex, for the reason given for Playlists.GetUserPlaylists.
- Playlists.AddToFront: the duplicate check `playlist.videos.includes(videoId)` (src/controllers/playlist.controller.js:59) compares the route's text with each stored id's lower-case hex string. `unshift` at :63 casts the text to an id. The model compares ids as values. An upper-case spelling of an id already listed therefore passes the 400 check in the program, and the id is stored a second time.
- Playlists.RemoveAll: the check `includes(videoId)` at src/controllers/playlist.controller.js:91 is the same textual comparison, while the filter `video.equals(videoId)` at :95-97 ignores case. An upper-case spelling of a listed id is answered 400 "Video not found in playlist" by the program; the model removes it.
- Playlists.AddKeepsNoDuplicates holds only for route ids in lower-case hex. An upper-case spelling of a listed id makes the program store a duplicate.
- Playlists.AddThenRemoveRestores and Playlists.AddThenRemoveVideo hold only for route ids in lower-case hex. With an upper-case spelling the program's remove answers 400, so the round trip does not complete.
- Concurrent requests are not modelled. Each handler is one step on one database value.
- The checks that a route parameter is present or a valid ObjectId are not modelled. Ids are abstract values.
- Query strings that are not numbers are left out. `Number("x")` is NaN and Mongo rejects it; page and limit are integers here.
- JavaScript number precision is not modelled. The sums and counts are unbounded integers.
- The user schema (src/models/user.model.js) is not part of this model. A missing email, password or name at registration is taken as a schema rejection. Unique indexes on `username` or `email`, and any `lowercase` setter on `username`, are not modelled. A unique index would turn the second registration of Users.CaseVariantPassesCheck into a duplicate-key error. A `lowercase` setter is also applied to query values, so it would make the duplicate check see the lowered name.
- Users.CaseVariantPassesCheck holds only if the user schema neither lower-cases `username` nor indexes it as unique. Either would stop the second user with the same stored name.
- Users.RegisterUser: the lookup with an absent username is taken to match no stored user.
- Users.LogoutUser: `$set: { refreshToken: undefined }` is modelled as clearing the token. Whether the driver stores null or drops the key depends on the library version, and src/models/user.model.js and the library version are outside the modelled sources. If the key is dropped, the `$set` is empty and the stored token survives logout. A refresh with that token then still succeeds.
- Users.LogoutEndsSession holds only if logout clears the stored token, as modelled. If the driver drops the key instead, the old refresh token still buys a new pair after logout.
- Users.ChangePassword: the save is not awaited in the code. The model applies it and cannot report a failed save.
- Text.ToLower lower-cases ASCII letters only. `toLowerCase` also maps other scripts.
- Videos.SortByScore keeps hits with equal scores in their index order. The database does not promise an order for ties.
- Playlists.FirstThumbnail takes the first referenced video in collection order. `$first` after a `$lookup` does not specify which one.
- Playlists.PublishedIn lists the looked-up videos in collection order. The `$lookup` at src/controllers/playlist.controller.js:288-329 does not promise an order.
- Playlists.ViewOf inherits that order from Playlists.PublishedIn, both for its video list and for the video whose thumbnail it shows.

## Findings

| source | as written | input that shows it | evidently intended | confidence | as-written member | corrected member |
|---|---|---|---|---|---|---|
| src/controllers/video.controller.js:262 | the aggregation returns an array, so `!video` is never true and a missing video is not 404; the view bookkeeping then stores the unknown id in the history | no videos and one user with an empty history; viewing id 9 answers 200 with `[]` and stores 9 | 404 "Video not found" when no video has the id, before anything is recorded | high (not executed) | Videos.MissingVideoRecorded | Videos.GetVideoByIdChecked |
| src/controllers/video.controller.js:279-282 | on a repeat view the id is moved to the front in memory, but the document is never saved | history [1, 7], viewing 7: the stored history stays [1, 7] | the reordered history [7, 1] is saved | high (not executed) | Videos.RepeatViewNotSaved | Videos.RecordViewSaved |
| src/controllers/dashboard.controller.js:49 | `subscribersCount` counts users whose `channel` field is the caller, not subscriptions; with `strictQuery` off, as modelled, no user matches | one user subscribed to the caller: the figure is 0 (with `strictQuery` on, under Mongoose 6, it is the number of all users instead) | the number of subscriptions to the caller's channel | medium (not executed) | Dashboard.SubscriberNotCounted | Dashboard.GetChannelStatsCorrected |

=== FILE: assets.dfy ===
/** How a stored media URL is turned into the public id the media service
    deletes by: `url.split("/").slice(-1)[0].split(".")[0]` — the last
    "/"-separated segment of the URL, cut at its first ".". The upload and
    delete calls themselves are foreign I/O and are not modelled here; their
    outcomes reach the controllers as parameters. */
module Assets {

  /** The text after the last '/' (the whole string when it has none). */
  function LastSegment(url: string): (r: string)
    ensures '/' !in r
    ensures |r| <= |url| && r == url[|url| - |r|..]
    decreases |url|
  {
    if '/' in url then LastSegment(url[1..]) else url
  }

  /** The text before the first '.' (the whole string when it has none). */
  function BeforeDot(s: string): (r: string)
    ensures '.' !in r
    ensures |r| <= |s| && r == s[..|r|]
    decreases |s|
  {
    if |s| == 0 || s[0] == '.' then "" else [s[0]] + BeforeDot(s[1..])
  }

  /** The public id `deleteFromCloudinary` and `deleteVideoFromCloudinary`
      compute for a URL. */
  function PublicId(url: string): (r: string)
    ensures '/' !in r && '.' !in r
    ensures var seg := LastSegment(url); |r| <= |seg| && r == seg[..|r|]
  {
    var seg := LastSegment(url);
    var r := BeforeDot(seg);
    assert forall c :: c in r ==> c in seg by {
      forall c | c in r ensures c in seg {
        var k :| 0 <= k < |r| && r[k] == c;
        assert seg[k] == c;
      }
    }
    r
  }

  /** `deleteFromCloudinary(urls)` asks for one public id per URL, in order. */
  function PublicIds(urls: seq<string>): (r: seq<string>)
    ensures |r| == |urls|
    ensures forall i :: 0 <= i < |r| ==> r[i] == PublicId(urls[i])
  {
    seq(|urls|, i requires 0 <= i < |urls| => PublicId(urls[i]))
  }

  lemma PublicIdsOne(url: string)
    ensures PublicIds([url]) == [PublicId(url)]
  {
  }

  /** `String.prototype.split` with a one-character separator: the pieces
      between separators, always at least one. */
  function Split(s: string, sep: char): (r: seq<string>)
    ensures |r| >= 1
    decreases |s|
  {
    if |s| == 0 then [""]
    else
      var rest := Split(s[1..], sep);
      if s[0] == sep then [""] + rest
      else [[s[0]] + rest[0]] + rest[1..]
  }

  /** A string splits into a single piece, itself, exactly when it does not
      contain the separator. */
  lemma {:induction false} SplitSingle(s: string, sep: char)
    ensures (|Split(s, sep)| == 1) <==> sep !in s
    ensures sep !in s ==> Split(s, sep) == [s]
    decreases |s|
  {
    if |s| > 0 {
      SplitSingle(s[1..], sep);
      assert s == [s[0]] + s[1..];
    }
  }

  lemma {:induction false} LastSegmentIsLastPiece(s: string)
    ensures LastSegment(s) == Split(s, '/')[|Split(s, '/')| - 1]
    decreases |s|
  {
    if |s| > 0 {
      var tail := s[1..];
      var rest := Split(tail, '/');
      LastSegmentIsLastPiece(tail);
      SplitSingle(tail, '/');
      assert s == [s[0]] + tail;
      if s[0] == '/' {
        assert LastSegment(s) == LastSegment(tail);
        assert Split(s, '/') == [""] + rest;
      } else if '/' in tail {
        var k :| 0 <= k < |tail| && tail[k] == '/';
        assert s[k + 1] == '/';
        assert LastSegment(s) == LastSegment(tail);
        assert |rest| >= 2;
        assert Split(s, '/') == [[s[0]] + rest[0]] + rest[1..];
      } else {
        assert '/' !in s;
        assert rest == [tail];
        assert Split(s, '/') == [s];
      }
    }
  }


  lemma {:induction false} BeforeDotIsFirstPiece(s: string)
    ensures BeforeDot(s) == Split(s, '.')[0]
    decreases |s|
  {
    if |s| > 0 {
      BeforeDotIsFirstPiece(s[1..]);
    }
  }

  /** `PublicId` is the JavaScript expression the source evaluates. */
  lemma PublicIdIsTheSplitExpression(url: string)
    ensures var pieces := Split(url, '/');
      PublicId(url) == Split(pieces[|pieces| - 1], '.')[0]
  {
    LastSegmentIsLastPiece(url);
    BeforeDotIsFirstPiece(LastSegment(url));
  }

  /** A bare name without '/' or '.' is its own public id. */
  lemma PlainNameIsItsOwnId(s: string)
    requires '/' !in s && '.' !in s
    ensures PublicId(s) == s
  {
    assert LastSegment(s) == s;
    NoDotKept(s);
  }

  lemma {:induction false} NoDotKept(s: string)
    requires '.' !in s
    ensures BeforeDot(s) == s
    decreases |s|
  {
    if |s| > 0 {
      assert '.' !in s[1..] by {
        forall k | 0 <= k < |s[1..]| ensures s[1..][k] != '.' {
          assert s[1..][k] == s[k + 1];
        }
      }
      NoDotKept(s[1..]);
      assert s == [s[0]] + s[1..];
    }
  }

  /** Whatever precedes the last '/' is ignored. */
  lemma {:induction false} LastSegmentAfterSlash(prefix: string, name: string)
    requires '/' !in name
    ensures LastSegment(prefix + "/" + name) == name
    decreases |prefix|
  {
    var url := prefix + "/" + name;
    assert url[|prefix|] == '/';
    if |prefix| == 0 {
      assert url[1..] == name;
    } else {
      assert url[1..] == prefix[1..] + "/" + name;
      LastSegmentAfterSlash(prefix[1..], name);
    }
  }

  /** Whatever follows the first '.' is ignored. */
  lemma {:induction false} BeforeDotOfName(name: string, ext: string)
    requires '.' !in name
    ensures BeforeDot(name + "." + ext) == name
    decreases |name|
  {
    var s := name + "." + ext;
    if |name| > 0 {
      assert s[0] == name[0] && s[1..] == name[1..] + "." + ext;
      assert '.' !in name[1..] by {
        forall k | 0 <= k < |name[1..]| ensures name[1..][k] != '.' {
          assert name[1..][k] == name[k + 1];
        }
      }
      BeforeDotOfName(name[1..], ext);
      assert name == [name[0]] + name[1..];
    }
  }

  /** The shape of a stored media URL, `<folders>/<name>.<extension>`: its
      public id is `<name>`. */
  lemma StoredUrlId(folders: string, name: string, ext: string)
    requires '/' !in name && '.' !in name && '/' !in ext
    ensures PublicId(folders + "/" + name + "." + ext) == name
  {
    var file := name + "." + ext;
    assert '/' !in file;
    assert folders + "/" + name + "." + ext == folders + "/" + file;
    LastSegmentAfterSlash(folders, file);
    BeforeDotOfName(name, ext);
  }
}

=== FILE: comments.dfy ===
/** The comment controller: create, update and delete a comment, and the
    paged comment listing of a video with like counts. */
module Comments {
  import opened Wrappers
  import opened Seqs
  import opened Records
  import opened Paging
  import opened Ownership

  const ContentAndVideoRequired := ApiError(400, "Content and videoId is required")
  const ContentRequired := ApiError(400, "Content is required")
  const CommentMissing := ApiError(404, "Comment does not exist")

  /** `addComment`: content and video id both required (400); the comment
      is owned by the caller. Whether the video exists is not checked. */
  function AddComment(s: Db, caller: Id, content: Option<string>, videoId: Option<Id>, newId: Id)
    : (r: Result<(Db, Comment)>)
    ensures !Truthy(content) || videoId.None? ==> r == Err(ContentAndVideoRequired)
    ensures Truthy(content) && videoId.Some? ==>
      && r.Ok?
      && r.value.1 == Comment(newId, videoId.value, caller, content.value)
      && r.value.0 == s.(comments := s.comments + [r.value.1])
  {
    if !Truthy(content) || videoId.None? then Err(ContentAndVideoRequired)
    else
      var c := Comment(newId, videoId.value, caller, content.value);
      Ok((s.(comments := s.comments + [c]), c))
  }

  /** 404 for a missing comment, then 401 unless the caller wrote it. */
  function OwnedComment(s: Db, caller: Id, commentId: Id): (r: Result<nat>)
    ensures FindComment(s.comments, commentId).None? ==> r == Err(CommentMissing)
    ensures FindComment(s.comments, commentId).Some? ==>
      var i := FindComment(s.comments, commentId).value;
      && (s.comments[i].owner != caller ==> r == Err(Unauthorized))
      && (s.comments[i].owner == caller ==> r == Ok(i))
    ensures r.Ok? ==> r.value < |s.comments| && s.comments[r.value].id == commentId
  {
    match FindComment(s.comments, commentId)
    case None => Err(CommentMissing)
    case Some(i) =>
      match VerifyOwner(caller, s.comments[i].owner)
      case Some(e) => Err(e)
      case None => Ok(i)
  }

  /** `updateComment`: 400 without content (before the lookup), then 404,
      then 401; only `content` changes. */
  function UpdateComment(s: Db, caller: Id, commentId: Id, content: Option<string>): (r: Result<(Db, Comment)>)
    ensures !Truthy(content) ==> r == Err(ContentRequired)
    ensures Truthy(content) && OwnedComment(s, caller, commentId).Err? ==>
      r == Err(OwnedComment(s, caller, commentId).failure)
    ensures Truthy(content) && OwnedComment(s, caller, commentId).Ok? ==>
      var i := OwnedComment(s, caller, commentId).value;
      && r.Ok?
      && r.value.1 == s.comments[i].(content := content.value)
      && r.value.0 == s.(comments := s.comments[i := r.value.1])
  {
    if !Truthy(content) then Err(ContentRequired)
    else
      var i :- OwnedComment(s, caller, commentId);
      var c := s.comments[i].(content := content.value);
      Ok((s.(comments := s.comments[i := c]), c))
  }

  /** `deleteComment`: 404, then 401, then the comment document is removed.
      Likes on it are left in place. */
  function DeleteComment(s: Db, caller: Id, commentId: Id): (r: Result<Db>)
    ensures OwnedComment(s, caller, commentId).Err? ==> r == Err(OwnedComment(s, caller, commentId).failure)
    ensures OwnedComment(s, caller, commentId).Ok? ==>
      r == Ok(s.(comments := RemoveAt(s.comments, OwnedComment(s, caller, commentId).value)))
  {
    var i :- OwnedComment(s, caller, commentId);
    Ok(s.(comments := RemoveAt(s.comments, i)))
  }

  /** The comments of a video, in collection order. */
  function CommentsOn(comments: seq<Comment>, videoId: Id): (r: seq<Comment>)
    ensures forall c :: c in r <==> c in comments && c.video == videoId
  {
    Filter(comments, (c: Comment) => c.video == videoId)
  }

  /** A new comment is listed last among its video's comments, and the
      listings of other videos do not change. */
  lemma AddedCommentListedLast(s: Db, caller: Id, content: Option<string>, videoId: Option<Id>, newId: Id, other: Id)
    requires AddComment(s, caller, content, videoId, newId).Ok?
    ensures var s1 := AddComment(s, caller, content, videoId, newId).value.0;
      && CommentsOn(s1.comments, videoId.value) ==
           CommentsOn(s.comments, videoId.value) + [AddComment(s, caller, content, videoId, newId).value.1]
      && (other != videoId.value ==> CommentsOn(s1.comments, other) == CommentsOn(s.comments, other))
  {
    var c := AddComment(s, caller, content, videoId, newId).value.1;
    FilterAppend(s.comments, [c], (x: Comment) => x.video == videoId.value);
    FilterAppend(s.comments, [c], (x: Comment) => x.video == other);
  }

  /** Deleting a comment removes exactly one from its video's count; the
      likes on it are still counted. */
  lemma DeleteCommentCounts(s: Db, caller: Id, commentId: Id)
    requires DeleteComment(s, caller, commentId).Ok?
    ensures var i := OwnedComment(s, caller, commentId).value;
      var s1 := DeleteComment(s, caller, commentId).value;
      && |CommentsOn(s1.comments, s.comments[i].video)| + 1 == |CommentsOn(s.comments, s.comments[i].video)|
      && s1.likes == s.likes
      && LikesOn(s1.likes, OnComment(commentId)) == LikesOn(s.likes, OnComment(commentId))
  {
    var i := OwnedComment(s, caller, commentId).value;
    CountRemoveAt(s.comments, i, (x: Comment) => x.video == s.comments[i].video);
  }

  /** Updating a comment twice with the same content is updating it once. */
  lemma UpdateCommentIdempotent(s: Db, caller: Id, commentId: Id, content: Option<string>)
    requires UpdateComment(s, caller, commentId, content).Ok?
    ensures var s1 := UpdateComment(s, caller, commentId, content).value.0;
      UpdateComment(s1, caller, commentId, content) == UpdateComment(s, caller, commentId, content)
  {
    var i := OwnedComment(s, caller, commentId).value;
    var r := UpdateComment(s, caller, commentId, content).value;
    IndexWhereAt(r.0.comments, (c: Comment) => c.id == commentId, i);
    assert r.0.comments[i := r.1] == r.0.comments;
  }

  // ---- getVideoComments ----

  datatype CommentView = CommentView(id: Id, content: string, likesCount: nat, owner: Option<Author>)

  function ViewOf(s: Db, c: Comment): (r: CommentView)
    ensures r.id == c.id && r.content == c.content
    ensures r.likesCount == LikesOn(s.likes, OnComment(c.id))
    ensures r.owner == AuthorOf(s.users, c.owner)
  {
    CommentView(c.id, c.content, LikesOn(s.likes, OnComment(c.id)), AuthorOf(s.users, c.owner))
  }

  function ViewsOf(s: Db, cs: seq<Comment>): (r: seq<CommentView>)
    ensures |r| == |cs|
    ensures forall k :: 0 <= k < |r| ==> r[k] == ViewOf(s, cs[k])
  {
    seq(|cs|, k requires 0 <= k < |cs| => ViewOf(s, cs[k]))
  }

  /** `getVideoComments`, defaults page 1 and limit 10: the video's
      comments with their like counts, paged on the aggregation path. */
  function GetVideoComments(s: Db, videoId: Id, page: Option<int>, limit: Option<int>): (r: Result<seq<CommentView>>)
    ensures var p := QueryInt(page, 1); var l := QueryInt(limit, 10);
      && (r.Ok? <==> Offset(p, l) >= 0 && l > 0)
      && (r.Err? ==> r.failure == BadPagination)
      && (r.Ok? ==> |r.value| <= l && r.value == Window(ViewsOf(s, CommentsOn(s.comments, videoId)), Offset(p, l), l))
  {
    AggregatePage(ViewsOf(s, CommentsOn(s.comments, videoId)), QueryInt(page, 1), QueryInt(limit, 10))
  }

  /** Every listed comment belongs to the video and carries the number of
      likes on it. */
  lemma ListedCommentsBelong(s: Db, videoId: Id, page: Option<int>, limit: Option<int>)
    requires GetVideoComments(s, videoId, page, limit).Ok?
    ensures forall cv :: cv in GetVideoComments(s, videoId, page, limit).value ==>
      exists c :: c in s.comments && c.video == videoId && cv.id == c.id
             && cv.likesCount == LikesOn(s.likes, OnComment(c.id))
  {
    var cs := CommentsOn(s.comments, videoId);
    var vs := ViewsOf(s, cs);
    var p := QueryInt(page, 1);
    var l := QueryInt(limit, 10);
    var w := GetVideoComments(s, videoId, page, limit).value;
    WindowWithin(vs, Offset(p, l), l);
    forall cv | cv in w
      ensures exists c :: c in s.comments && c.video == videoId && cv.id == c.id
                       && cv.likesCount == LikesOn(s.likes, OnComment(c.id))
    {
      var j :| 0 <= j < |vs| && vs[j] == cv;
      var c := cs[j];
      assert c in cs;
    }
  }
}

=== FILE: dashboard.dfy ===
/** The channel dashboard: per-video statistics with totals, and the
    channel's videos with their comments. Both cover every video the caller
    owns, published or not. */
module Dashboard {
  import opened Wrappers
  import opened Seqs
  import opened Records
  import opened Subscriptions

  /** The caller's videos, in collection order. */
  function Owned(videos: seq<Video>, caller: Id): (r: seq<Video>)
    ensures forall v :: v in r <==> v in videos && v.owner == caller
  {
    Filter(videos, (v: Video) => v.owner == caller)
  }

  function CommentCount(comments: seq<Comment>, videoId: Id): nat
  {
    Count(comments, (c: Comment) => c.video == videoId)
  }

  datatype VideoStats = VideoStats(
    id: Id,
    title: string,
    thumbnail: string,
    views: nat,
    isPublished: bool,
    likesCount: nat,
    commentsCount: nat)

  function StatsOf(s: Db, v: Video): (r: VideoStats)
    ensures r.id == v.id && r.views == v.views && r.isPublished == v.isPublished
    ensures r.likesCount == LikesOn(s.likes, OnVideo(v.id))
    ensures r.commentsCount == CommentCount(s.comments, v.id)
  {
    VideoStats(v.id, v.title, v.thumbnail, v.views, v.isPublished,
               LikesOn(s.likes, OnVideo(v.id)), CommentCount(s.comments, v.id))
  }

  function StatsList(s: Db, vs: seq<Video>): (r: seq<VideoStats>)
    ensures |r| == |vs|
    ensures forall k :: 0 <= k < |r| ==> r[k] == StatsOf(s, vs[k])
  {
    seq(|vs|, k requires 0 <= k < |vs| => StatsOf(s, vs[k]))
  }

  /** `xs.reduce((acc, x) => acc + f(x), 0)`: a left-to-right sum. */
  function SumOf(xs: seq<VideoStats>, f: VideoStats -> nat): nat
  {
    if |xs| == 0 then 0 else SumOf(xs[..|xs| - 1], f) + f(xs[|xs| - 1])
  }

  datatype ChannelStats = ChannelStats(
    videos: seq<VideoStats>,
    totalViews: nat,
    totalLikes: nat,
    totalComments: nat,
    subscribersCount: nat)

  /** `countDocuments({ channel: caller })` on the users collection, with
      the filter on `channel` kept as given (`strictQuery` off). */
  function UsersNamingChannel(users: seq<User>, caller: Id): nat
  {
    Count(users, (u: User) => u.channel == Some(caller))
  }

  /** `getChannelStats` as written: per-video figures for every video the
      caller owns, the three sums over them, and a subscriber figure read
      from the users collection. */
  function GetChannelStats(s: Db, caller: Id): (r: ChannelStats)
    ensures var owned := Owned(s.videos, caller);
      && r.videos == StatsList(s, owned)
      && r.totalViews == SumOf(r.videos, (x: VideoStats) => x.views)
      && r.totalLikes == SumOf(r.videos, (x: VideoStats) => x.likesCount)
      && r.totalComments == SumOf(r.videos, (x: VideoStats) => x.commentsCount)
      && r.subscribersCount == UsersNamingChannel(s.users, caller)
  {
    var stats := StatsList(s, Owned(s.videos, caller));
    ChannelStats(stats,
                 SumOf(stats, (x: VideoStats) => x.views),
                 SumOf(stats, (x: VideoStats) => x.likesCount),
                 SumOf(stats, (x: VideoStats) => x.commentsCount),
                 UsersNamingChannel(s.users, caller))
  }

  /** A channel without videos has all three totals at 0. */
  lemma EmptyChannelTotals(s: Db, caller: Id)
    requires forall v :: v in s.videos ==> v.owner != caller
    ensures var st := GetChannelStats(s, caller);
      st.videos == [] && st.totalViews == 0 && st.totalLikes == 0 && st.totalComments == 0
  {
    CountPositive(s.videos, (v: Video) => v.owner == caller);
  }

  // ---- sums ----

  lemma {:induction false} SumOfAppend(a: seq<VideoStats>, b: seq<VideoStats>, f: VideoStats -> nat)
    ensures SumOf(a + b, f) == SumOf(a, f) + SumOf(b, f)
    decreases |b|
  {
    if |b| == 0 {
      assert a + b == a;
    } else {
      assert (a + b)[..|a + b| - 1] == a + b[..|b| - 1];
      SumOfAppend(a, b[..|b| - 1], f);
    }
  }

  lemma {:induction false} SumOfSame(a: seq<VideoStats>, b: seq<VideoStats>, f: VideoStats -> nat)
    requires |a| == |b| && forall k :: 0 <= k < |a| ==> f(a[k]) == f(b[k])
    ensures SumOf(a, f) == SumOf(b, f)
    decreases |a|
  {
    if |a| > 0 {
      SumOfSame(a[..|a| - 1], b[..|b| - 1], f);
    }
  }

  lemma StatsListAppend(s: Db, a: seq<Video>, b: seq<Video>)
    ensures StatsList(s, a + b) == StatsList(s, a) + StatsList(s, b)
  {
  }

  // ---- one more like ----

  predicate HasOwnedVideo(videos: seq<Video>, caller: Id, videoId: Id)
  {
    exists v :: v in videos && v.owner == caller && v.id == videoId
  }

  /** Summing over the owned videos of `pre + [last]` adds the last
      video's figure when the caller owns it. */
  lemma OwnedSumSnoc(s: Db, pre: seq<Video>, last: Video, caller: Id, f: VideoStats -> nat)
    ensures SumOf(StatsList(s, Owned(pre + [last], caller)), f)
      == SumOf(StatsList(s, Owned(pre, caller)), f) + (if last.owner == caller then f(StatsOf(s, last)) else 0)
  {
    var p := (v: Video) => v.owner == caller;
    FilterAppend(pre, [last], p);
    var tail := Filter([last], p);
    assert tail == if p(last) then [last] else [];
    StatsListAppend(s, Owned(pre, caller), tail);
    SumOfAppend(StatsList(s, Owned(pre, caller)), StatsList(s, tail), f);
    if p(last) {
      assert StatsList(s, tail) == [StatsOf(s, last)];
      assert SumOf([StatsOf(s, last)], f) == f(StatsOf(s, last)) by {
        assert [StatsOf(s, last)][..0] == [];
      }
    } else {
      assert StatsList(s, tail) == [];
    }
  }

  lemma HasOwnedSnoc(pre: seq<Video>, last: Video, caller: Id, videoId: Id)
    ensures HasOwnedVideo(pre + [last], caller, videoId) <==>
      HasOwnedVideo(pre, caller, videoId) || (last.owner == caller && last.id == videoId)
  {
    var vs := pre + [last];
    forall v | v in vs ensures v in pre || v == last {
      var k :| 0 <= k < |vs| && vs[k] == v;
      if k < |pre| { assert pre[k] == v; }
    }
  }

  /** Over any prefix of the collection, a like on video `videoId` adds one
      to the summed like counts exactly when the caller owns a video with
      that id there. */
  lemma {:induction false} LikeSumStep(s: Db, vs: seq<Video>, caller: Id, l: Like)
    requires UniqueVideoIds(vs) && l.target.OnVideo?
    ensures var s1 := s.(likes := s.likes + [l]);
      var f := (x: VideoStats) => x.likesCount;
      SumOf(StatsList(s1, Owned(vs, caller)), f)
        == SumOf(StatsList(s, Owned(vs, caller)), f) + (if HasOwnedVideo(vs, caller, l.target.video) then 1 else 0)
    decreases |vs|
  {
    var s1 := s.(likes := s.likes + [l]);
    var f := (x: VideoStats) => x.likesCount;
    if |vs| > 0 {
      var pre := vs[..|vs| - 1];
      var last := vs[|vs| - 1];
      assert vs == pre + [last];
      assert UniqueVideoIds(pre);
      LikeSumStep(s, pre, caller, l);
      OwnedSumSnoc(s, pre, last, caller, f);
      OwnedSumSnoc(s1, pre, last, caller, f);
      HasOwnedSnoc(pre, last, caller, l.target.video);
      LikeOnOneVideo(s, last, l);
      assert f(StatsOf(s1, last)) == f(StatsOf(s, last)) + (if last.id == l.target.video then 1 else 0);
      if last.id == l.target.video {
        LastIdFresh(pre, last);
      }
    }
  }

  /** A new like adds one to the like count of the video it targets and
      leaves every other video's count alone. */
  lemma LikeOnOneVideo(s: Db, v: Video, l: Like)
    requires l.target.OnVideo?
    ensures StatsOf(s.(likes := s.likes + [l]), v).likesCount
      == StatsOf(s, v).likesCount + (if v.id == l.target.video then 1 else 0)
  {
    CountAppendOne(s.likes, l, (x: Like) => x.target == OnVideo(v.id));
  }

  lemma LastIdFresh(pre: seq<Video>, last: Video)
    requires UniqueVideoIds(pre + [last])
    ensures forall v :: v in pre ==> v.id != last.id
  {
    var vs := pre + [last];
    forall v | v in pre ensures v.id != last.id {
      var k :| 0 <= k < |pre| && pre[k] == v;
      assert vs[k] == v && vs[|pre|] == last;
    }
  }

  /** One more like on a video the caller owns raises `totalLikes` by
      exactly one. Video ids are unique, as the database's primary key makes
      them. */
  lemma OneMoreLike(s: Db, caller: Id, l: Like)
    requires UniqueVideoIds(s.videos)
    requires l.target.OnVideo? && HasOwnedVideo(s.videos, caller, l.target.video)
    ensures GetChannelStats(s.(likes := s.likes + [l]), caller).totalLikes == GetChannelStats(s, caller).totalLikes + 1
  {
    LikeSumStep(s, s.videos, caller, l);
  }

  /** A new like, wherever it lands, leaves `totalViews` and
      `totalComments` alone. */
  lemma LikeLeavesOtherTotals(s: Db, caller: Id, l: Like)
    ensures var before := GetChannelStats(s, caller);
      var after := GetChannelStats(s.(likes := s.likes + [l]), caller);
      after.totalViews == before.totalViews && after.totalComments == before.totalComments
  {
    var s1 := s.(likes := s.likes + [l]);
    var owned := Owned(s.videos, caller);
    var a := StatsList(s1, owned);
    var b := StatsList(s, owned);
    assert forall k :: 0 <= k < |a| ==> a[k].views == b[k].views && a[k].commentsCount == b[k].commentsCount;
    SumOfSame(a, b, (x: VideoStats) => x.views);
    SumOfSame(a, b, (x: VideoStats) => x.commentsCount);
  }

  /** The converse: a like on a video the caller does not own changes none
      of the totals. */
  lemma ForeignLikeNotCounted(s: Db, caller: Id, l: Like)
    requires UniqueVideoIds(s.videos)
    requires l.target.OnVideo? && !HasOwnedVideo(s.videos, caller, l.target.video)
    ensures GetChannelStats(s.(likes := s.likes + [l]), caller).totalLikes == GetChannelStats(s, caller).totalLikes
  {
    LikeSumStep(s, s.videos, caller, l);
  }

  // ---- the subscriber figure ----

  /** The figure the statistics evidently mean: the channel's subscriptions,
      the same number the channel profile reports. */
  function GetChannelStatsCorrected(s: Db, caller: Id): (r: ChannelStats)
    ensures r.(subscribersCount := GetChannelStats(s, caller).subscribersCount) == GetChannelStats(s, caller)
    ensures r.subscribersCount == |Incoming(s.subscriptions, caller)|
    ensures forall viewer :: IsSubscribed(s.subscriptions, viewer, caller) ==> r.subscribersCount >= 1
  {
    forall viewer | IsSubscribed(s.subscriptions, viewer, caller) ensures SubscribersOf(s.subscriptions, caller) >= 1 {
      SubscribedImpliesCounted(s.subscriptions, viewer, caller);
    }
    GetChannelStats(s, caller).(subscribersCount := SubscribersOf(s.subscriptions, caller))
  }

  /** As written, a channel with a subscriber reports none: users created by
      the account code carry no `channel` attribute. */
  lemma SubscriberNotCounted()
    ensures var u := User(1, "viewer", "v@x", "V", "", "", "p", None, [], None);
      var s := Db([u], [], [], [], [], [Subscription(3, 1, 2)], []);
      && GetChannelStats(s, 2).subscribersCount == 0
      && GetChannelStatsCorrected(s, 2).subscribersCount == 1
  {
    var u := User(1, "viewer", "v@x", "V", "", "", "p", None, [], None);
    var s := Db([u], [], [], [], [], [Subscription(3, 1, 2)], []);
    assert Filter(s.users, (x: User) => x.channel == Some(2)) == [] by {
      assert [u][1..] == [];
    }
    assert Filter(s.subscriptions, (x: Subscription) => x.channel == 2) == s.subscriptions by {
      assert s.subscriptions[1..] == [];
    }
  }

  // ---- getChannelVidoes ----

  datatype Commenter = Commenter(id: Id, username: string, fullName: string, avatar: string)

  datatype ChannelComment = ChannelComment(id: Id, content: string, owner: Option<Commenter>, likesCount: nat)

  datatype ChannelVideo = ChannelVideo(
    id: Id,
    title: string,
    thumbnail: string,
    views: nat,
    isPublished: bool,
    likesCount: nat,
    comments: seq<ChannelComment>)

  function CommenterOf(users: seq<User>, id: Id): (r: Option<Commenter>)
    ensures r.Some? <==> FindUser(users, id).Some?
  {
    match FindUser(users, id)
    case None => None
    case Some(i) => Some(Commenter(users[i].id, users[i].username, users[i].fullName, users[i].avatar))
  }

  function ChannelCommentOf(s: Db, c: Comment): (r: ChannelComment)
    ensures r.id == c.id && r.likesCount == LikesOn(s.likes, OnComment(c.id))
  {
    ChannelComment(c.id, c.content, CommenterOf(s.users, c.owner), LikesOn(s.likes, OnComment(c.id)))
  }

  function ChannelVideoOf(s: Db, v: Video): (r: ChannelVideo)
    ensures r.id == v.id && r.likesCount == LikesOn(s.likes, OnVideo(v.id))
    ensures var cs := Filter(s.comments, (c: Comment) => c.video == v.id);
      && |r.comments| == |cs|
      && forall k :: 0 <= k < |cs| ==> r.comments[k] == ChannelCommentOf(s, cs[k])
  {
    var cs := Filter(s.comments, (c: Comment) => c.video == v.id);
    ChannelVideo(v.id, v.title, v.thumbnail, v.views, v.isPublished, LikesOn(s.likes, OnVideo(v.id)),
                 ChannelCommentsOf(s, cs))
  }

  function ChannelCommentsOf(s: Db, cs: seq<Comment>): (r: seq<ChannelComment>)
    ensures |r| == |cs| && forall k :: 0 <= k < |cs| ==> r[k] == ChannelCommentOf(s, cs[k])
  {
    seq(|cs|, k requires 0 <= k < |cs| => ChannelCommentOf(s, cs[k]))
  }

  /** `getChannelVidoes`: the owned videos, each with its like count and its
      comments, each comment with its own like count. */
  function GetChannelVideos(s: Db, caller: Id): (r: seq<ChannelVideo>)
    ensures var owned := Owned(s.videos, caller);
      && |r| == |owned|
      && forall k :: 0 <= k < |r| ==> r[k] == ChannelVideoOf(s, owned[k])
  {
    var owned := Owned(s.videos, caller);
    seq(|owned|, k requires 0 <= k < |owned| => ChannelVideoOf(s, owned[k]))
  }

  /** Both dashboard views cover the same videos, in the same order, with
      the same like counts, and the number of nested comments is the
      statistics' comment count. */
  lemma DashboardViewsAgree(s: Db, caller: Id)
    ensures var st := GetChannelStats(s, caller).videos;
      var cv := GetChannelVideos(s, caller);
      && |st| == |cv|
      && forall k :: 0 <= k < |st| ==>
           && st[k].id == cv[k].id
           && st[k].likesCount == cv[k].likesCount
           && st[k].commentsCount == |cv[k].comments|
  {
  }
}

=== FILE: likes.dfy ===
/** Like toggles on videos, comments and tweets, and the caller's liked-video
    listing.

    The three toggles share one shape: look up the caller's like on the
    target; if there is none, the target must exist (else 400) and a like is
    created and returned; if there is one, it is deleted and `null` is
    returned, without looking at the target. */
module Likes {
  import opened Wrappers
  import opened Seqs
  import opened Records

  predicate HasLiked(likes: seq<Like>, caller: Id, t: Target)
  {
    exists l :: l in likes && l.likedBy == caller && l.target == t
  }

  function FindLike(likes: seq<Like>, caller: Id, t: Target): Option<nat>
  {
    IndexWhere(likes, (l: Like) => l.likedBy == caller && l.target == t)
  }

  predicate TargetExists(s: Db, t: Target)
  {
    match t
    case OnVideo(id) => exists v :: v in s.videos && v.id == id
    case OnComment(id) => exists c :: c in s.comments && c.id == id
    case OnTweet(id) => exists w :: w in s.tweets && w.id == id
  }

  function MissingTarget(t: Target): Failure
  {
    match t
    case OnVideo(_) => ApiError(400, "Video does not exist")
    case OnComment(_) => ApiError(400, "Comment does not exist")
    case OnTweet(_) => ApiError(400, "Tweet does not exist")
  }

  /** The toggle every like endpoint performs. `newId` is the identifier the
      database gives a new like. The payload is the created like, or `None`
      for the `null` an unlike answers with. */
  function ToggleLike(s: Db, caller: Id, t: Target, newId: Id): (r: Result<(Db, Option<Like>)>)
    ensures !HasLiked(s.likes, caller, t) && !TargetExists(s, t) ==>
      r == Err(MissingTarget(t)) && StatusOf(r.failure) == 400
    ensures !HasLiked(s.likes, caller, t) && TargetExists(s, t) ==>
      r == Ok((s.(likes := s.likes + [Like(newId, caller, t)]), Some(Like(newId, caller, t))))
    ensures HasLiked(s.likes, caller, t) ==>
      && FindLike(s.likes, caller, t).Some?
      && var i := FindLike(s.likes, caller, t).value;
      && s.likes[i].likedBy == caller && s.likes[i].target == t
      && r == Ok((s.(likes := RemoveAt(s.likes, i)), None))
  {
    match FindLike(s.likes, caller, t)
    case Some(i) =>
      assert s.likes[i] in s.likes;
      Ok((s.(likes := RemoveAt(s.likes, i)), None))
    case None =>
      if !TargetExists(s, t) then Err(MissingTarget(t))
      else
        var like := Like(newId, caller, t);
        Ok((s.(likes := s.likes + [like]), Some(like)))
  }

  function ToggleVideoLike(s: Db, caller: Id, videoId: Id, newId: Id): Result<(Db, Option<Like>)>
  {
    ToggleLike(s, caller, OnVideo(videoId), newId)
  }

  function ToggleCommentLike(s: Db, caller: Id, commentId: Id, newId: Id): Result<(Db, Option<Like>)>
  {
    ToggleLike(s, caller, OnComment(commentId), newId)
  }

  function ToggleTweetLike(s: Db, caller: Id, tweetId: Id, newId: Id): Result<(Db, Option<Like>)>
  {
    ToggleLike(s, caller, OnTweet(tweetId), newId)
  }

  /** The first like of the pair (caller, t) sits at `k`. */
  lemma FindLikeAt(likes: seq<Like>, caller: Id, t: Target, k: nat)
    requires k < |likes| && likes[k].likedBy == caller && likes[k].target == t
    requires forall j :: 0 <= j < k ==> likes[j].likedBy != caller || likes[j].target != t
    ensures FindLike(likes, caller, t) == Some(k)
  {
    var r := FindLike(likes, caller, t);
    assert r.Some?;
  }

  /** Liking (target present, no like yet) and then unliking gives back the
      original database, and the unlike answers `null`. */
  lemma ToggleTwiceRestores(s: Db, caller: Id, t: Target, newId: Id, newId2: Id)
    requires !HasLiked(s.likes, caller, t) && TargetExists(s, t)
    ensures ToggleLike(s, caller, t, newId).Ok?
    ensures ToggleLike(ToggleLike(s, caller, t, newId).value.0, caller, t, newId2) == Ok((s, None))
  {
    var s1 := ToggleLike(s, caller, t, newId).value.0;
    var like := Like(newId, caller, t);
    assert s1.likes == s.likes + [like];
    forall j | 0 <= j < |s.likes|
      ensures s1.likes[j].likedBy != caller || s1.likes[j].target != t
    {
      assert s1.likes[j] == s.likes[j] && s.likes[j] in s.likes;
    }
    FindLikeAt(s1.likes, caller, t, |s.likes|);
    assert RemoveAt(s1.likes, |s.likes|) == s.likes;
  }

  /** The uniqueness the relation is meant to have: at most one like per
      (user, target) pair. */
  predicate OneLikePerPair(likes: seq<Like>)
  {
    forall i, j :: 0 <= i < j < |likes| ==>
      likes[i].likedBy != likes[j].likedBy || likes[i].target != likes[j].target
  }

  /** Deleting one like of the pair (caller, t): that target's count drops by
      one, other targets' counts and other pairs' liked status are kept, and
      with one like per pair the caller no longer likes the target. */
  lemma RemoveLikeEffect(likes: seq<Like>, i: nat, caller: Id, t: Target)
    requires i < |likes| && likes[i].likedBy == caller && likes[i].target == t
    ensures LikesOn(RemoveAt(likes, i), t) + 1 == LikesOn(likes, t)
    ensures forall t' :: t' != t ==> LikesOn(RemoveAt(likes, i), t') == LikesOn(likes, t')
    ensures forall u, t' :: (u != caller || t' != t) ==> HasLiked(RemoveAt(likes, i), u, t') == HasLiked(likes, u, t')
    ensures OneLikePerPair(likes) ==> !HasLiked(RemoveAt(likes, i), caller, t)
    ensures OneLikePerPair(likes) ==> OneLikePerPair(RemoveAt(likes, i))
  {
    var r := RemoveAt(likes, i);
    forall t'
      ensures LikesOn(r, t') + (if t == t' then 1 else 0) == LikesOn(likes, t')
    {
      CountRemoveAt(likes, i, (l: Like) => l.target == t');
    }
    forall u, t' | u != caller || t' != t
      ensures HasLiked(r, u, t') == HasLiked(likes, u, t')
    {
      OthersKept(likes, i, u, t');
    }
    if OneLikePerPair(likes) {
      forall k | 0 <= k < |r|
        ensures r[k].likedBy != caller || r[k].target != t
      {
        if k < i {
          assert r[k] == likes[k];
        } else {
          assert r[k] == likes[k + 1];
        }
      }
      forall a, b | 0 <= a < b < |r|
        ensures r[a].likedBy != r[b].likedBy || r[a].target != r[b].target
      {
        var a' := if a < i then a else a + 1;
        var b' := if b < i then b else b + 1;
        assert r[a] == likes[a'] && r[b] == likes[b'];
      }
    }
  }

  /** Appending a like: its target's count rises by one, other targets'
      counts and other pairs' liked status are kept; appending the first like
      of its pair keeps one like per pair. */
  lemma AddLikeEffect(likes: seq<Like>, like: Like)
    ensures LikesOn(likes + [like], like.target) == LikesOn(likes, like.target) + 1
    ensures forall t' :: t' != like.target ==> LikesOn(likes + [like], t') == LikesOn(likes, t')
    ensures HasLiked(likes + [like], like.likedBy, like.target)
    ensures forall u, t' :: (u != like.likedBy || t' != like.target) ==> HasLiked(likes + [like], u, t') == HasLiked(likes, u, t')
    ensures OneLikePerPair(likes) && !HasLiked(likes, like.likedBy, like.target) ==> OneLikePerPair(likes + [like])
  {
    var r := likes + [like];
    forall t'
      ensures LikesOn(r, t') == LikesOn(likes, t') + (if like.target == t' then 1 else 0)
    {
      CountAppendOne(likes, like, (l: Like) => l.target == t');
    }
    assert like in r;
    assert forall l :: l in r <==> l in likes || l == like;
    if OneLikePerPair(likes) && !HasLiked(likes, like.likedBy, like.target) {
      forall a, b | 0 <= a < b < |r|
        ensures r[a].likedBy != r[b].likedBy || r[a].target != r[b].target
      {
        assert r[a] == likes[a] && likes[a] in likes;
        if b < |likes| {
          assert r[b] == likes[b];
        }
      }
    }
  }

  /** Removing a like of another pair keeps the liked status of (u, t). */
  lemma OthersKept(likes: seq<Like>, i: nat, u: Id, t: Target)
    requires i < |likes|
    requires likes[i].likedBy != u || likes[i].target != t
    ensures HasLiked(RemoveAt(likes, i), u, t) == HasLiked(likes, u, t)
  {
    var r := RemoveAt(likes, i);
    if HasLiked(likes, u, t) {
      var l :| l in likes && l.likedBy == u && l.target == t;
      assert multiset(likes)[l] > 0;
      assert l != likes[i];
      assert multiset(r)[l] > 0;
    }
    if HasLiked(r, u, t) {
      var l :| l in r && l.likedBy == u && l.target == t;
      assert multiset(r)[l] > 0;
    }
  }

  /** A toggle touches the single (caller, t) record: the count on t moves
      by one (down for an unlike, up for a like), every other target's count
      and every other (user, target) pair's liked status are kept, nothing
      outside the likes collection changes, and the collection keeps one like
      per pair. This holds for toggles applied one after another: the lookup
      and the write are separate database calls, and nothing here speaks
      about two toggles that interleave. */
  lemma ToggleTouchesOnlyThePair(s: Db, caller: Id, t: Target, newId: Id)
    requires ToggleLike(s, caller, t, newId).Ok?
    ensures var s' := ToggleLike(s, caller, t, newId).value.0;
      && (HasLiked(s.likes, caller, t) ==> LikesOn(s'.likes, t) + 1 == LikesOn(s.likes, t))
      && (!HasLiked(s.likes, caller, t) ==> LikesOn(s'.likes, t) == LikesOn(s.likes, t) + 1)
      && (forall t' :: t' != t ==> LikesOn(s'.likes, t') == LikesOn(s.likes, t'))
      && (forall u, t' :: (u != caller || t' != t) ==> HasLiked(s'.likes, u, t') == HasLiked(s.likes, u, t'))
      && s'.(likes := s.likes) == s
      && (OneLikePerPair(s.likes) ==> OneLikePerPair(s'.likes))
      && (OneLikePerPair(s.likes) ==> HasLiked(s'.likes, caller, t) == !HasLiked(s.likes, caller, t))
  {
    if HasLiked(s.likes, caller, t) {
      var i := FindLike(s.likes, caller, t).value;
      RemoveLikeEffect(s.likes, i, caller, t);
    } else {
      AddLikeEffect(s.likes, Like(newId, caller, t));
    }
  }

  /** Unliking and liking again, with one like per pair, leaves every
      target's like count and every user's liked status where they were;
      only the like's identifier and its position in the collection change. */
  lemma ToggleTwiceFromLiked(s: Db, caller: Id, t: Target, newId: Id, newId2: Id)
    requires OneLikePerPair(s.likes)
    requires HasLiked(s.likes, caller, t) && TargetExists(s, t)
    ensures ToggleLike(s, caller, t, newId).Ok?
    ensures var s2 := ToggleLike(ToggleLike(s, caller, t, newId).value.0, caller, t, newId2);
      && s2.Ok?
      && (forall t' :: LikesOn(s2.value.0.likes, t') == LikesOn(s.likes, t'))
      && (forall u, t' :: HasLiked(s2.value.0.likes, u, t') == HasLiked(s.likes, u, t'))
  {
    var i := FindLike(s.likes, caller, t).value;
    var s1 := s.(likes := RemoveAt(s.likes, i));
    assert ToggleLike(s, caller, t, newId) == Ok((s1, None));
    RemoveLikeEffect(s.likes, i, caller, t);
    assert TargetExists(s1, t);
    var like := Like(newId2, caller, t);
    var s2 := s1.(likes := s1.likes + [like]);
    assert ToggleLike(s1, caller, t, newId2) == Ok((s2, Some(like)));
    RemoveThenAdd(s.likes, i, like);
  }

  /** Removing the one like of a pair and appending another like of the same
      pair keeps every count and every liked status. */
  lemma RemoveThenAdd(likes: seq<Like>, i: nat, like: Like)
    requires OneLikePerPair(likes)
    requires i < |likes| && likes[i].likedBy == like.likedBy && likes[i].target == like.target
    ensures forall t' :: LikesOn(RemoveAt(likes, i) + [like], t') == LikesOn(likes, t')
    ensures forall u, t' :: HasLiked(RemoveAt(likes, i) + [like], u, t') == HasLiked(likes, u, t')
  {
    var r := RemoveAt(likes, i);
    RemoveLikeEffect(likes, i, like.likedBy, like.target);
    AddLikeEffect(r, like);
    assert HasLiked(likes, like.likedBy, like.target) by {
      assert likes[i] in likes;
    }
    forall t' ensures LikesOn(r + [like], t') == LikesOn(likes, t') {
      if t' == like.target {
        assert LikesOn(r + [like], t') == LikesOn(r, t') + 1;
      }
    }
    forall u, t' ensures HasLiked(r + [like], u, t') == HasLiked(likes, u, t') {
      if u == like.likedBy && t' == like.target {
        assert HasLiked(r + [like], u, t');
      }
    }
  }

  // ---- getLikedVideos ----

  predicate LikedVideoBy(likes: seq<Like>, caller: Id, v: Video)
  {
    HasLiked(likes, caller, OnVideo(v.id))
  }

  /** The videos one like joins with: those with the like's video id when
      it is the caller's like on a video, none otherwise. */
  function Joined(videos: seq<Video>, caller: Id, l: Like): seq<Video>
  {
    if l.likedBy == caller && l.target.OnVideo?
    then Filter(videos, (v: Video) => v.id == l.target.video)
    else []
  }

  /** The caller's likes that carry a video reference, each joined with the
      videos of that id and unwound: a like whose video was deleted joins
      nothing and disappears. Output follows the order of the likes. */
  function LikedVideosOf(likes: seq<Like>, videos: seq<Video>, caller: Id): (r: seq<Video>)
    ensures forall v :: v in r <==> v in videos && LikedVideoBy(likes, caller, v)
    decreases |likes|
  {
    if |likes| == 0 then []
    else
      var rest := LikedVideosOf(likes[1..], videos, caller);
      assert forall x :: x in likes <==> x == likes[0] || x in likes[1..];
      Joined(videos, caller, likes[0]) + rest
  }

  /** One entry of the liked-video listing: the `_id`, `title`,
      `description` and `thumbnail` of the joined video. */
  datatype LikedVideo = LikedVideo(id: Id, title: string, description: string, thumbnail: string)

  function LikedEntry(v: Video): LikedVideo
  {
    LikedVideo(v.id, v.title, v.description, v.thumbnail)
  }

  /** `getLikedVideos`: the projected entry of every joined video. The
      aggregation always yields an array, so its 404 is never thrown. */
  function GetLikedVideos(s: Db, caller: Id): (r: seq<LikedVideo>)
    ensures forall v :: v in s.videos && LikedVideoBy(s.likes, caller, v) ==> LikedEntry(v) in r
    ensures forall k :: 0 <= k < |r| ==>
      exists v :: v in s.videos && LikedVideoBy(s.likes, caller, v) && r[k] == LikedEntry(v)
  {
    var joined := LikedVideosOf(s.likes, s.videos, caller);
    var r := EntriesOf(joined);
    assert forall k :: 0 <= k < |r| ==> joined[k] in joined;
    r
  }

  /** The projected entry of each video, in order. */
  function EntriesOf(vs: seq<Video>): (r: seq<LikedVideo>)
    ensures |r| == |vs| && forall k :: 0 <= k < |vs| ==> r[k] == LikedEntry(vs[k])
    ensures forall v :: v in vs ==> LikedEntry(v) in r
  {
    var r := seq(|vs|, k requires 0 <= k < |vs| => LikedEntry(vs[k]));
    assert forall v :: v in vs ==> LikedEntry(v) in r by {
      forall v | v in vs ensures LikedEntry(v) in r {
        var k :| 0 <= k < |vs| && vs[k] == v;
        assert r[k] == LikedEntry(v);
      }
    }
    r
  }

  /** A like of the caller on a video that is still stored. */
  predicate LiveVideoLike(videos: seq<Video>, caller: Id, l: Like)
  {
    l.likedBy == caller && l.target.OnVideo? && FindVideo(videos, l.target.video).Some?
  }

  /** The caller's likes on videos that still exist, in like order. */
  function LiveVideoLikes(likes: seq<Like>, videos: seq<Video>, caller: Id): (r: seq<Like>)
    ensures forall k :: 0 <= k < |r| ==> LiveVideoLike(videos, caller, r[k])
  {
    var r := Filter(likes, (l: Like) => LiveVideoLike(videos, caller, l));
    assert forall k :: 0 <= k < |r| ==> r[k] in r;
    r
  }

  lemma LiveVideoLikesCons(likes: seq<Like>, videos: seq<Video>, caller: Id)
    requires |likes| > 0
    ensures LiveVideoLikes(likes, videos, caller)
         == (if LiveVideoLike(videos, caller, likes[0]) then [likes[0]] else []) + LiveVideoLikes(likes[1..], videos, caller)
  {
  }

  /** With unique video ids, at most one video has a given id. */
  lemma {:induction false} AtMostOneWithId(videos: seq<Video>, id: Id)
    requires UniqueVideoIds(videos)
    ensures |Filter(videos, (v: Video) => v.id == id)| <= 1
    decreases |videos|
  {
    if |videos| > 0 {
      var tail := videos[1..];
      if videos[0].id == id {
        forall k | 0 <= k < |tail| ensures tail[k].id != id {
          assert tail[k] == videos[k + 1];
        }
        FilterHead(tail, (v: Video) => v.id == id);
      } else {
        assert UniqueVideoIds(tail) by {
          forall a, b | 0 <= a < b < |tail| ensures tail[a].id != tail[b].id {
            assert tail[a] == videos[a + 1] && tail[b] == videos[b + 1];
          }
        }
        AtMostOneWithId(tail, id);
      }
    }
  }

  /** With unique video ids a like joins exactly the one video it points at
      when that video is stored, and nothing otherwise. */
  lemma JoinedOne(videos: seq<Video>, caller: Id, l: Like)
    requires UniqueVideoIds(videos)
    ensures |Joined(videos, caller, l)| == if LiveVideoLike(videos, caller, l) then 1 else 0
    ensures forall v :: v in Joined(videos, caller, l) ==> v in videos && v.id == l.target.video
  {
    if l.likedBy == caller && l.target.OnVideo? {
      FilterHead(videos, (v: Video) => v.id == l.target.video);
      AtMostOneWithId(videos, l.target.video);
    }
  }

  /** The listing has one entry per like of the caller on a stored video,
      in the order of the likes: entry k is the video the k-th such like
      points at. */
  lemma {:induction false} LikedVideosOnePerLike(likes: seq<Like>, videos: seq<Video>, caller: Id)
    requires UniqueVideoIds(videos)
    ensures var r := LikedVideosOf(likes, videos, caller);
      var ls := LiveVideoLikes(likes, videos, caller);
      && |r| == |ls|
      && forall k :: 0 <= k < |r| ==> r[k] in videos && r[k].id == ls[k].target.video
    decreases |likes|
  {
    if |likes| > 0 {
      var l := likes[0];
      var j := Joined(videos, caller, l);
      var rest := LikedVideosOf(likes[1..], videos, caller);
      var ls' := LiveVideoLikes(likes[1..], videos, caller);
      LikedVideosOnePerLike(likes[1..], videos, caller);
      LiveVideoLikesCons(likes, videos, caller);
      JoinedOne(videos, caller, l);
      JoinStep(videos, l, LiveVideoLike(videos, caller, l), j, rest, ls');
    }
  }

  /** One step of the join: the head like's matches `j` (one video when
      the like is live, none otherwise) in front of the rest's matches. */
  lemma JoinStep(videos: seq<Video>, l: Like, live: bool, j: seq<Video>, rest: seq<Video>, ls': seq<Like>)
    requires |j| == (if live then 1 else 0)
    requires forall v :: v in j ==> v in videos && l.target.OnVideo? && v.id == l.target.video
    requires live ==> l.target.OnVideo?
    requires |rest| == |ls'|
    requires forall k :: 0 <= k < |rest| ==> rest[k] in videos && ls'[k].target.OnVideo? && rest[k].id == ls'[k].target.video
    ensures var r := j + rest;
      var ls := (if live then [l] else []) + ls';
      && |r| == |ls|
      && forall k :: 0 <= k < |r| ==> r[k] in videos && ls[k].target.OnVideo? && r[k].id == ls[k].target.video
  {
    var r := j + rest;
    var ls := (if live then [l] else []) + ls';
    forall k | 0 <= k < |r| ensures r[k] in videos && ls[k].target.OnVideo? && r[k].id == ls[k].target.video {
      if k < |j| {
        assert r[k] == j[k] && j[k] in j && ls[k] == l;
      } else {
        assert r[k] == rest[k - |j|] && ls[k] == ls'[k - |j|];
      }
    }
  }


  /** `getLikedVideos` in terms of the likes: one projected entry per like of
      the caller on a stored video, in like order. */
  lemma LikedVideosListing(s: Db, caller: Id)
    requires UniqueVideoIds(s.videos)
    ensures var r := GetLikedVideos(s, caller);
      var ls := LiveVideoLikes(s.likes, s.videos, caller);
      && |r| == |ls|
      && forall k :: 0 <= k < |r| ==>
           r[k].id == ls[k].target.video && exists v :: v in s.videos && r[k] == LikedEntry(v)
  {
    LikedVideosOnePerLike(s.likes, s.videos, caller);
    var joined := LikedVideosOf(s.likes, s.videos, caller);
    var r := GetLikedVideos(s, caller);
    assert |r| == |joined|;
    forall k | 0 <= k < |r| ensures exists v :: v in s.videos && r[k] == LikedEntry(v) {
      assert r[k] == LikedEntry(joined[k]);
    }
  }
}

=== FILE: ownership.dfy ===
/** The ownership guard the video, playlist, comment and tweet controllers
    each define a copy of (`verifyOwnerStatus`): the stored owner reference
    must equal the caller's id, otherwise the request is refused with 401. */
module Ownership {
  import opened Wrappers
  import opened Records

  const Unauthorized := ApiError(401, "Unauthorized request")

  /** `None` when the guard lets the caller through, else the error it throws. */
  function VerifyOwner(caller: Id, owner: Id): (r: Option<Failure>)
    ensures r.None? <==> owner == caller
    ensures r.Some? ==> r.value == Unauthorized && StatusOf(r.value) == 401
  {
    if owner == caller then None else Some(Unauthorized)
  }

}

=== FILE: paging.dfy ===
/** Offset pagination: `skip((page - 1) * limit).limit(limit)` with the page
    and limit read from the query string (absent values take the endpoint's
    default). Two different database paths are used and they treat the same
    numbers differently:

    - an aggregation pipeline (`aggregate(...).skip(..).limit(..)`) rejects a
      negative skip and a limit that is not positive;
    - a plain `find().skip(..).limit(..)` rejects a negative skip, treats a
      limit of 0 as "no limit" and a negative limit as its absolute value. */
module Paging {
  import opened Wrappers

  /** `const { page = d } = req.query` followed by `Number(page)`. */
  function QueryInt(q: Option<int>, default: int): (r: int)
    ensures q.Some? ==> r == q.value
    ensures q.None? ==> r == default
  {
    match q
    case Some(n) => n
    case None => default
  }

  function Offset(page: int, limit: int): int
  {
    (page - 1) * limit
  }

  function Abs(n: int): nat
  {
    if n < 0 then -n else n
  }

  function Min(a: nat, b: nat): nat
  {
    if a <= b then a else b
  }

  /** At most `take` elements of `xs` starting at position `skip`. */
  function Window<T>(xs: seq<T>, skip: nat, take: nat): (r: seq<T>)
    ensures |r| == if skip >= |xs| then 0 else Min(take, |xs| - skip)
    ensures forall k :: 0 <= k < |r| ==> r[k] == xs[skip + k]
  {
    if skip >= |xs| then [] else xs[skip..skip + Min(take, |xs| - skip)]
  }

  /** Whatever a window shows is in the collection. */
  lemma WindowWithin<T>(xs: seq<T>, skip: nat, take: nat)
    ensures forall x :: x in Window(xs, skip, take) ==> x in xs
  {
    var w := Window(xs, skip, take);
    forall x | x in w ensures x in xs {
      var k :| 0 <= k < |w| && w[k] == x;
      assert xs[skip + k] == x;
    }
  }

  /** Mongo's complaint about a pagination stage it cannot run. */
  const BadPagination := Thrown("MongoServerError")

  /** The aggregation path. */
  function AggregatePage<T>(xs: seq<T>, page: int, limit: int): (r: Result<seq<T>>)
    ensures r.Ok? <==> Offset(page, limit) >= 0 && limit > 0
    ensures r.Err? ==> r.failure == BadPagination
    ensures r.Ok? ==> r.value == Window(xs, Offset(page, limit), limit)
    ensures r.Ok? ==> |r.value| <= limit
    ensures r.Ok? && |r.value| > 0 ==> Offset(page, limit) + |r.value| <= |xs|
    ensures r.Ok? ==> forall k :: 0 <= k < |r.value| ==> r.value[k] == xs[Offset(page, limit) + k]
    ensures r.Ok? ==> (|r.value| < limit <==> Offset(page, limit) + limit > |xs|)
  {
    var skip := Offset(page, limit);
    if skip < 0 || limit <= 0 then Err(BadPagination)
    else Ok(Window(xs, skip, limit))
  }

  /** The plain `find()` path. */
  function FindPage<T>(xs: seq<T>, page: int, limit: int): (r: Result<seq<T>>)
    ensures r.Ok? <==> Offset(page, limit) >= 0
    ensures r.Err? ==> r.failure == BadPagination
    ensures r.Ok? && limit == 0 ==> r.value == if Offset(page, limit) >= |xs| then [] else xs[Offset(page, limit)..]
    ensures r.Ok? && limit != 0 ==> |r.value| <= Abs(limit)
    ensures r.Ok? && limit != 0 ==> (|r.value| < Abs(limit) <==> Offset(page, limit) + Abs(limit) > |xs|)
    ensures r.Ok? && |r.value| > 0 ==> Offset(page, limit) + |r.value| <= |xs|
    ensures r.Ok? ==> forall k :: 0 <= k < |r.value| ==> r.value[k] == xs[Offset(page, limit) + k]
  {
    var skip := Offset(page, limit);
    if skip < 0 then Err(BadPagination)
    else if limit == 0 then Ok(Window(xs, skip, |xs|))
    else Ok(Window(xs, skip, Abs(limit)))
  }

  /** With a positive limit the two paths agree. */
  lemma FindPageAgreesWithAggregate<T>(xs: seq<T>, page: int, limit: int)
    requires limit > 0
    ensures FindPage(xs, page, limit) == AggregatePage(xs, page, limit)
  {
  }

  /** A negative limit is its absolute value: `limit(-l)` on page `page`
      gives the items `limit(l)` gives on the page with the same skip,
      `2 - page`, and on the aggregation path when that skip is allowed. */
  lemma NegativeLimitIsAbsolute<T>(xs: seq<T>, page: int, l: int)
    requires l > 0
    ensures Offset(page, -l) == Offset(2 - page, l)
    ensures FindPage(xs, page, -l) == FindPage(xs, 2 - page, l)
    ensures Offset(page, -l) >= 0 ==> FindPage(xs, page, -l) == AggregatePage(xs, 2 - page, l)
  {
    assert (page - 1) * -l == (2 - page - 1) * l;
  }

  /** The first `n` pages of size `limit`, one after the other. */
  function FirstPages<T>(xs: seq<T>, n: nat, limit: nat): seq<T>
    requires limit > 0
  {
    if n == 0 then []
    else FirstPages(xs, n - 1, limit) + AggregatePage(xs, n, limit).value
  }

  /** Walking pages 1..n of a collection that does not change visits its
      first n*limit elements exactly once each, in order: no element is
      skipped or repeated across pages. */
  lemma {:induction false} PagesTile<T>(xs: seq<T>, n: nat, limit: nat)
    requires limit > 0
    ensures FirstPages(xs, n, limit) == xs[..Min(n * limit, |xs|)]
  {
    if n > 0 {
      PagesTile(xs, n - 1, limit);
      var lo := (n - 1) * limit;
      var hi := lo + limit;
      assert hi == n * limit;
      var page := AggregatePage(xs, n, limit).value;
      assert Offset(n, limit) == lo;
      if lo >= |xs| {
        assert page == [];
      } else {
        assert page == xs[lo..Min(hi, |xs|)];
        TakeThenSlice(xs, lo, Min(hi, |xs|));
      }
    }
  }

  lemma TakeThenSlice<T>(xs: seq<T>, a: nat, b: nat)
    requires a <= b <= |xs|
    ensures xs[..a] + xs[a..b] == xs[..b]
  {
  }
}

=== FILE: playlists.dfy ===
/** The playlist controller and the playlist document's shape.

    A playlist keeps an ordered list of video references. Videos are added at
    the front, a video already present is refused, and removing a video drops
    every occurrence of it. Whether a video id names an existing video is
    never checked. */
module Playlists {
  import opened Wrappers
  import opened Seqs
  import opened Records
  import opened Ownership

  const NameRequired := ApiError(400, "Playlist name is required")
  const PlaylistNotFound := ApiError(404, "Playlist not found")
  const AlreadyAdded := ApiError(400, "Video already added to playlist")
  const NotInPlaylist := ApiError(400, "Video not found in playlist")
  const NothingToUpdate := ApiError(400, "Name or description or visibility is required to be updated")

  /** What the schema demands of a stored playlist: a name. Nothing is
      demanded of `videos`, which may hold an id twice. */
  predicate ValidPlaylist(p: Playlist)
  {
    p.name != ""
  }

  /** The schema admits a playlist that lists one video twice: keeping
      `videos` duplicate-free is left entirely to the controller. */
  lemma SchemaAllowsDuplicates()
    ensures exists p :: ValidPlaylist(p) && !NoDuplicates(p.videos)
  {
    var p := Playlist(0, 0, [5, 5], "mix", "", false);
    assert p.videos[0] == p.videos[1];
    assert ValidPlaylist(p) && !NoDuplicates(p.videos);
  }

  // ---- createPlaylist ----

  /** `visibility` is the truthiness of the value sent, `false` when none
      was. */
  function CreatePlaylist(s: Db, caller: Id, name: Option<string>, description: Option<string>,
                          visibility: bool, newId: Id): (r: Result<(Db, Playlist)>)
    ensures !Truthy(name) ==> r == Err(NameRequired)
    ensures Truthy(name) ==>
      && r.Ok?
      && var p := r.value.1;
      && ValidPlaylist(p)
      && p == Playlist(newId, caller, [], name.value, OrElse(description, ""), visibility)
      && r.value.0 == s.(playlists := s.playlists + [p])
  {
    if !Truthy(name) then Err(NameRequired)
    else
      var p := Playlist(newId, caller, [], name.value, OrElse(description, ""), visibility);
      Ok((s.(playlists := s.playlists + [p]), p))
  }

  /** A playlist created without a visibility is private: only its owner
      can read it. */
  lemma NewPlaylistIsPrivate(s: Db, caller: Id, name: Option<string>, description: Option<string>, newId: Id)
    requires Truthy(name)
    ensures !CreatePlaylist(s, caller, name, description, false, newId).value.1.visibility
    ensures CreatePlaylist(s, caller, name, description, false, newId).value.1.videos == []
  {
  }

  // ---- shared guard ----

  /** The lookup and ownership check add, remove, update and delete begin
      with: 404 for a missing playlist, then 401 for a caller who does not
      own it; otherwise the index of the playlist. */
  function OwnedPlaylist(s: Db, caller: Id, playlistId: Id): (r: Result<nat>)
    ensures FindPlaylist(s.playlists, playlistId).None? ==> r == Err(PlaylistNotFound)
    ensures FindPlaylist(s.playlists, playlistId).Some? ==>
      var i := FindPlaylist(s.playlists, playlistId).value;
      && (s.playlists[i].owner != caller ==> r == Err(Unauthorized))
      && (s.playlists[i].owner == caller ==> r == Ok(i))
    ensures r.Ok? ==> r.value < |s.playlists| && s.playlists[r.value].id == playlistId
  {
    match FindPlaylist(s.playlists, playlistId)
    case None => Err(PlaylistNotFound)
    case Some(i) =>
      match VerifyOwner(caller, s.playlists[i].owner)
      case Some(e) => Err(e)
      case None => Ok(i)
  }

  // ---- addVideoToPlaylist / removeVideoFromPlaylist ----

  /** `videos.unshift(videoId)` after the `includes` check, for a route id
      in lower-case hex: the program's `includes` compares text. */
  function AddToFront(videos: seq<Id>, videoId: Id): (r: Result<seq<Id>>)
    ensures videoId in videos ==> r == Err(AlreadyAdded)
    ensures videoId !in videos ==> r.Ok? && r.value == [videoId] + videos && |r.value| == |videos| + 1
  {
    if videoId in videos then Err(AlreadyAdded) else Ok([videoId] + videos)
  }

  /** `videos.filter(video => !video.equals(videoId))` after the `includes`
      check, for a route id in lower-case hex: the program's `includes`
      compares text while `equals` ignores case. */
  function RemoveAll(videos: seq<Id>, videoId: Id): (r: Result<seq<Id>>)
    ensures videoId !in videos ==> r == Err(NotInPlaylist)
    ensures videoId in videos ==>
      && r.Ok?
      && videoId !in r.value
      && (forall x :: x in r.value <==> x in videos && x != videoId)
      && |r.value| < |videos|
      && r.value == Filter<Id>(videos, (x: Id) => x != videoId)
  {
    if videoId !in videos then Err(NotInPlaylist)
    else
      FilterDropsSome(videos, (x: Id) => x != videoId);
      Ok(Filter<Id>(videos, (x: Id) => x != videoId))
  }

  function SetVideos(s: Db, i: nat, videos: seq<Id>): (r: Db)
    requires i < |s.playlists|
    ensures r.playlists == s.playlists[i := s.playlists[i].(videos := videos)]
    ensures r.(playlists := s.playlists) == s
  {
    s.(playlists := s.playlists[i := s.playlists[i].(videos := videos)])
  }

  /** `addVideoToPlaylist`: 404, then 401, then 400 for a video already
      listed; otherwise the video goes to the front. */
  function AddVideoToPlaylist(s: Db, caller: Id, playlistId: Id, videoId: Id): (r: Result<(Db, Playlist)>)
    ensures OwnedPlaylist(s, caller, playlistId).Err? ==> r == Err(OwnedPlaylist(s, caller, playlistId).failure)
    ensures OwnedPlaylist(s, caller, playlistId).Ok? ==>
      var i := OwnedPlaylist(s, caller, playlistId).value;
      var p := s.playlists[i];
      && (videoId in p.videos ==> r == Err(AlreadyAdded))
      && (videoId !in p.videos ==>
            && r.Ok?
            && r.value.1 == p.(videos := [videoId] + p.videos)
            && r.value.0 == SetVideos(s, i, [videoId] + p.videos))
  {
    var i :- OwnedPlaylist(s, caller, playlistId);
    var p := s.playlists[i];
    var videos :- AddToFront(p.videos, videoId);
    Ok((SetVideos(s, i, videos), p.(videos := videos)))
  }

  /** `removeVideoFromPlaylist`: 404, then 401, then 400 for a video not
      listed; otherwise every occurrence of it is dropped. */
  function RemoveVideoFromPlaylist(s: Db, caller: Id, playlistId: Id, videoId: Id): (r: Result<(Db, Playlist)>)
    ensures OwnedPlaylist(s, caller, playlistId).Err? ==> r == Err(OwnedPlaylist(s, caller, playlistId).failure)
    ensures OwnedPlaylist(s, caller, playlistId).Ok? ==>
      var i := OwnedPlaylist(s, caller, playlistId).value;
      var p := s.playlists[i];
      && (videoId !in p.videos ==> r == Err(NotInPlaylist))
      && (videoId in p.videos ==>
            && r.Ok?
            && videoId !in r.value.1.videos
            && r.value.1 == p.(videos := Filter(p.videos, (x: Id) => x != videoId))
            && r.value.0 == SetVideos(s, i, r.value.1.videos))
  {
    var i :- OwnedPlaylist(s, caller, playlistId);
    var p := s.playlists[i];
    var videos :- RemoveAll(p.videos, videoId);
    Ok((SetVideos(s, i, videos), p.(videos := videos)))
  }

  /** Adding a video and then removing it gives back the original list (for
      a route id in lower-case hex). */
  lemma AddThenRemoveRestores(videos: seq<Id>, videoId: Id)
    requires videoId !in videos
    ensures RemoveAll(AddToFront(videos, videoId).value, videoId) == Ok(videos)
  {
    var added := [videoId] + videos;
    FilterKeepsAll(videos, (x: Id) => x != videoId);
    FilterAppend([videoId], videos, (x: Id) => x != videoId);
    assert Filter([videoId], (x: Id) => x != videoId) == [];
  }

  /** The same round trip through the controller: the database comes back
      unchanged (for a route id in lower-case hex). */
  lemma AddThenRemoveVideo(s: Db, caller: Id, playlistId: Id, videoId: Id)
    requires AddVideoToPlaylist(s, caller, playlistId, videoId).Ok?
    ensures var s1 := AddVideoToPlaylist(s, caller, playlistId, videoId).value.0;
      && RemoveVideoFromPlaylist(s1, caller, playlistId, videoId).Ok?
      && RemoveVideoFromPlaylist(s1, caller, playlistId, videoId).value.0 == s
  {
    var i := OwnedPlaylist(s, caller, playlistId).value;
    var p := s.playlists[i];
    var s1 := AddVideoToPlaylist(s, caller, playlistId, videoId).value.0;
    assert FindPlaylist(s1.playlists, playlistId) == Some(i) by {
      var q := (x: Playlist) => x.id == playlistId;
      assert q(s1.playlists[i]);
      assert forall j :: 0 <= j < i ==> s1.playlists[j] == s.playlists[j];
    }
    AddThenRemoveRestores(p.videos, videoId);
    assert s1.playlists[i].videos == [videoId] + p.videos;
    assert s.playlists[i := p] == s.playlists;
  }

  /** Adding keeps the list duplicate-free (for a route id in lower-case
      hex; an upper-case spelling passes the program's textual check). */
  lemma AddKeepsNoDuplicates(videos: seq<Id>, videoId: Id)
    requires NoDuplicates(videos) && AddToFront(videos, videoId).Ok?
    ensures NoDuplicates(AddToFront(videos, videoId).value)
  {
    var r := [videoId] + videos;
    forall a, b | 0 <= a < b < |r| ensures r[a] != r[b] {
      assert r[b] == videos[b - 1];
      if a == 0 {
        assert videos[b - 1] in videos;
      } else {
        assert r[a] == videos[a - 1];
      }
    }
  }

  /** Removing keeps the list duplicate-free. */
  lemma RemoveKeepsNoDuplicates(videos: seq<Id>, videoId: Id)
    requires NoDuplicates(videos) && RemoveAll(videos, videoId).Ok?
    ensures NoDuplicates(RemoveAll(videos, videoId).value)
  {
    FilterNoDuplicates(videos, (x: Id) => x != videoId);
  }

  /** Removing keeps the order of the other videos: removing from a
      concatenation is removing from each part. */
  lemma RemoveKeepsOrder(a: seq<Id>, b: seq<Id>, videoId: Id)
    requires videoId in a
    ensures RemoveAll(a + b, videoId).value == RemoveAll(a, videoId).value + Filter(b, (x: Id) => x != videoId)
  {
    FilterAppend(a, b, (x: Id) => x != videoId);
  }

  // ---- updatePlaylist ----

  /** An update request: `name` and `description` from the body, and the
      truthiness of `visibility` when one was sent. */
  datatype PlaylistEdit = PlaylistEdit(name: Option<string>, description: Option<string>, visibility: Option<bool>)

  /** 400 when no name, description or visibility is given (checked before
      the lookup), then 404, then 401. A falsy name or description keeps the
      stored one, visibility changes only when sent, and the owner and the
      videos are untouched. */
  function UpdatePlaylist(s: Db, caller: Id, playlistId: Id, e: PlaylistEdit): (r: Result<(Db, Playlist)>)
    ensures !Truthy(e.name) && !Truthy(e.description) && e.visibility.None? ==> r == Err(NothingToUpdate)
    ensures (Truthy(e.name) || Truthy(e.description) || e.visibility.Some?) ==>
      && (OwnedPlaylist(s, caller, playlistId).Err? ==> r == Err(OwnedPlaylist(s, caller, playlistId).failure))
      && (OwnedPlaylist(s, caller, playlistId).Ok? ==>
            var i := OwnedPlaylist(s, caller, playlistId).value;
            var p := s.playlists[i];
            && r.Ok?
            && var q := r.value.1;
            && q.id == p.id && q.owner == p.owner && q.videos == p.videos
            && q.name == (if Truthy(e.name) then e.name.value else p.name)
            && q.description == (if Truthy(e.description) then e.description.value else p.description)
            && q.visibility == (if e.visibility.Some? then e.visibility.value else p.visibility)
            && r.value.0 == s.(playlists := s.playlists[i := q]))
  {
    if !Truthy(e.name) && !Truthy(e.description) && e.visibility.None? then Err(NothingToUpdate)
    else
      var i :- OwnedPlaylist(s, caller, playlistId);
      var p := s.playlists[i];
      var q := p.(name := OrElse(e.name, p.name),
                  description := OrElse(e.description, p.description),
                  visibility := if e.visibility.Some? then e.visibility.value else p.visibility);
      Ok((s.(playlists := s.playlists[i := q]), q))
  }

  /** Every successful write keeps the stored playlist valid. */
  lemma WritesKeepPlaylistsValid(s: Db, caller: Id, playlistId: Id, videoId: Id, e: PlaylistEdit)
    requires forall p :: p in s.playlists ==> ValidPlaylist(p)
    ensures AddVideoToPlaylist(s, caller, playlistId, videoId).Ok? ==>
      forall p :: p in AddVideoToPlaylist(s, caller, playlistId, videoId).value.0.playlists ==> ValidPlaylist(p)
    ensures RemoveVideoFromPlaylist(s, caller, playlistId, videoId).Ok? ==>
      forall p :: p in RemoveVideoFromPlaylist(s, caller, playlistId, videoId).value.0.playlists ==> ValidPlaylist(p)
    ensures UpdatePlaylist(s, caller, playlistId, e).Ok? ==>
      forall p :: p in UpdatePlaylist(s, caller, playlistId, e).value.0.playlists ==> ValidPlaylist(p)
  {
    if OwnedPlaylist(s, caller, playlistId).Ok? {
      var i := OwnedPlaylist(s, caller, playlistId).value;
      assert s.playlists[i] in s.playlists;
    }
  }

  /** Applying the same update twice is applying it once. */
  lemma UpdateIdempotent(s: Db, caller: Id, playlistId: Id, e: PlaylistEdit)
    requires UpdatePlaylist(s, caller, playlistId, e).Ok?
    ensures var s1 := UpdatePlaylist(s, caller, playlistId, e).value.0;
      UpdatePlaylist(s1, caller, playlistId, e) == UpdatePlaylist(s, caller, playlistId, e)
  {
    var i := OwnedPlaylist(s, caller, playlistId).value;
    var r := UpdatePlaylist(s, caller, playlistId, e).value;
    var s1 := r.0;
    assert FindPlaylist(s1.playlists, playlistId) == Some(i) by {
      var q := (x: Playlist) => x.id == playlistId;
      assert q(s1.playlists[i]);
      assert forall j :: 0 <= j < i ==> s1.playlists[j] == s.playlists[j];
    }
    assert s1.playlists[i := r.1] == s1.playlists;
  }

  // ---- deletePlaylist ----

  /** 404, then 401, then the playlist document is removed. */
  function DeletePlaylist(s: Db, caller: Id, playlistId: Id): (r: Result<Db>)
    ensures OwnedPlaylist(s, caller, playlistId).Err? ==> r == Err(OwnedPlaylist(s, caller, playlistId).failure)
    ensures OwnedPlaylist(s, caller, playlistId).Ok? ==>
      && r.Ok?
      && var i := OwnedPlaylist(s, caller, playlistId).value;
      && r.value == s.(playlists := RemoveAt(s.playlists, i))
      && |r.value.playlists| == |s.playlists| - 1
      && multiset(r.value.playlists) == multiset(s.playlists) - multiset{s.playlists[i]}
  {
    var i :- OwnedPlaylist(s, caller, playlistId);
    Ok(s.(playlists := RemoveAt(s.playlists, i)))
  }

  /** Every playlist operation that fails has status 400, 401 or 404. */
  lemma GuardStatuses(s: Db, caller: Id, playlistId: Id)
    ensures OwnedPlaylist(s, caller, playlistId).Err? ==>
      StatusOf(OwnedPlaylist(s, caller, playlistId).failure) in {401, 404}
    ensures DeletePlaylist(s, caller, playlistId).Err? ==> OwnedPlaylist(s, caller, playlistId).Err?
  {
  }

  // ---- getUserPlaylists ----

  /** A listed playlist: its fields, `visibility` only on the owner's own
      listing, and the thumbnail of the first of its videos found. */
  datatype PlaylistSummary = PlaylistSummary(id: Id, name: string, description: string,
                                             visibility: Option<bool>, thumbnail: Option<string>)

  /** `$first` of the thumbnails of the videos the playlist references, in
      the collection's order. */
  function FirstThumbnail(videos: seq<Video>, ids: seq<Id>): (r: Option<string>)
    ensures r.Some? <==> exists v :: v in videos && v.id in ids
  {
    match IndexWhere(videos, (v: Video) => v.id in ids)
    case None => None
    case Some(k) => assert videos[k] in videos; Some(videos[k].thumbnail)
  }

  function SummaryOf(s: Db, p: Playlist, withVisibility: bool): (r: PlaylistSummary)
    ensures r.id == p.id && r.name == p.name && r.description == p.description
    ensures r.visibility == if withVisibility then Some(p.visibility) else None
  {
    PlaylistSummary(p.id, p.name, p.description,
                    if withVisibility then Some(p.visibility) else None,
                    FirstThumbnail(s.videos, p.videos))
  }

  /** The playlists `userId` owns, restricted to the visible ones unless
      `userId` is the caller. Ids are compared as values; the handler
      compares the route's text with the lower-case hex of the caller's id,
      so there an owner who spells their id in upper case sees only the
      visible ones. */
  function ListedFor(s: Db, caller: Id, userId: Id): (r: seq<Playlist>)
    ensures forall p :: p in r <==> p in s.playlists && p.owner == userId && (p.visibility || userId == caller)
  {
    if userId == caller then Filter(s.playlists, (p: Playlist) => p.owner == userId)
    else Filter(s.playlists, (p: Playlist) => p.owner == userId && p.visibility)
  }

  function GetUserPlaylists(s: Db, caller: Id, userId: Id): (r: seq<PlaylistSummary>)
    ensures var listed := ListedFor(s, caller, userId);
      && |r| == |listed|
      && forall k :: 0 <= k < |r| ==> r[k] == SummaryOf(s, listed[k], userId == caller)
  {
    var listed := ListedFor(s, caller, userId);
    seq(|listed|, k requires 0 <= k < |listed| => SummaryOf(s, listed[k], userId == caller))
  }

  /** A caller listing someone else's playlists sees only the visible ones,
      and without their visibility field; the owner sees every one. */
  lemma ListingVisibility(s: Db, caller: Id, userId: Id)
    ensures var listed := ListedFor(s, caller, userId);
      && (userId != caller ==> forall p :: p in listed ==> p.visibility)
      && (userId != caller ==> forall k :: 0 <= k < |GetUserPlaylists(s, caller, userId)| ==>
            GetUserPlaylists(s, caller, userId)[k].visibility.None?)
      && (userId == caller ==> forall p :: p in s.playlists && p.owner == userId ==> p in listed)
  {
  }

  // ---- getPlaylistById ----

  datatype OwnerName = OwnerName(id: Id, fullName: string)

  /** A video as the playlist detail shows it. */
  datatype PlaylistVideo = PlaylistVideo(id: Id, owner: Option<OwnerName>, title: string, thumbnail: string, views: nat)

  datatype PlaylistView = PlaylistView(
    id: Id,
    owner: Id,
    videos: seq<PlaylistVideo>,
    numberOfVideos: nat,
    thumbnail: Option<string>,
    visibility: bool)

  /** The published videos a playlist references, each once, in the
      collection's order. */
  function PublishedIn(videos: seq<Video>, ids: seq<Id>): (r: seq<Video>)
    ensures forall v :: v in r <==> v in videos && v.id in ids && v.isPublished
    ensures |r| == Count(videos, (v: Video) => v.id in ids && v.isPublished)
  {
    Filter(videos, (v: Video) => v.id in ids && v.isPublished)
  }

  function ShownVideo(users: seq<User>, v: Video): (r: PlaylistVideo)
    ensures r.id == v.id
  {
    var owner := match FindUser(users, v.owner)
      case None => None
      case Some(i) => Some(OwnerName(users[i].id, users[i].fullName));
    PlaylistVideo(v.id, owner, v.title, v.thumbnail, v.views)
  }

  function ViewOf(s: Db, p: Playlist): (r: PlaylistView)
    ensures r.id == p.id && r.owner == p.owner && r.visibility == p.visibility
    ensures var shown := PublishedIn(s.videos, p.videos);
      && |r.videos| == |shown| == r.numberOfVideos
      && forall k :: 0 <= k < |r.videos| ==> r.videos[k] == ShownVideo(s.users, shown[k])
    ensures r.thumbnail.Some? <==> r.numberOfVideos > 0
  {
    var shown := PublishedIn(s.videos, p.videos);
    var vs := seq(|shown|, k requires 0 <= k < |shown| => ShownVideo(s.users, shown[k]));
    PlaylistView(p.id, p.owner, vs, |vs|, if |shown| > 0 then Some(shown[0].thumbnail) else None, p.visibility)
  }

  /** Every playlist with the id, in collection order (the `$match` on
      `_id`). */
  function WithId(playlists: seq<Playlist>, playlistId: Id): (r: seq<Playlist>)
    ensures forall q :: q in r <==> q in playlists && q.id == playlistId
  {
    Filter(playlists, (x: Playlist) => x.id == playlistId)
  }

  /** The view of each playlist, in order. */
  function ViewsOf(s: Db, ps: seq<Playlist>): (r: seq<PlaylistView>)
    ensures |r| == |ps|
    ensures forall k :: 0 <= k < |ps| ==> r[k] == ViewOf(s, ps[k])
    ensures forall q :: q in ps ==> ViewOf(s, q) in r
  {
    var views := seq(|ps|, k requires 0 <= k < |ps| => ViewOf(s, ps[k]));
    assert forall q :: q in ps ==> ViewOf(s, q) in views by {
      forall q | q in ps ensures ViewOf(s, q) in views {
        var k :| 0 <= k < |ps| && ps[k] == q;
        assert views[k] == ViewOf(s, q);
      }
    }
    views
  }

  /** 404 when no playlist has the id; 401 when the first one is private
      and the caller does not own it; otherwise every playlist with the id,
      each with its published videos. */
  function GetPlaylistById(s: Db, caller: Id, playlistId: Id): (r: Result<seq<PlaylistView>>)
    ensures FindPlaylist(s.playlists, playlistId).None? ==> r == Err(PlaylistNotFound)
    ensures FindPlaylist(s.playlists, playlistId).Some? ==>
      var p := s.playlists[FindPlaylist(s.playlists, playlistId).value];
      && (!p.visibility && p.owner != caller ==> r == Err(Unauthorized))
      && ((p.visibility || p.owner == caller) ==>
            && r.Ok? && |r.value| >= 1
            && r.value[0] == ViewOf(s, p)
            && r.value[0].numberOfVideos == Count(s.videos, (v: Video) => v.id in p.videos && v.isPublished))
    ensures r.Ok? ==>
      var m := WithId(s.playlists, playlistId);
      && |r.value| == |m|
      && (forall k :: 0 <= k < |m| ==> r.value[k] == ViewOf(s, m[k]))
      && (forall q :: q in s.playlists && q.id == playlistId ==> ViewOf(s, q) in r.value)
  {
    var matching := WithId(s.playlists, playlistId);
    FilterHead(s.playlists, (x: Playlist) => x.id == playlistId);
    if |matching| == 0 then Err(PlaylistNotFound)
    else
      var first := matching[0];
      if !first.visibility && first.owner != caller then Err(Unauthorized)
      else Ok(ViewsOf(s, matching))
  }

  /** Only a playlist's owner can read it while it is private, and an
      unpublished video is never shown or counted. */
  lemma PrivatePlaylistsAndDrafts(s: Db, caller: Id, playlistId: Id)
    requires GetPlaylistById(s, caller, playlistId).Ok?
    ensures var p := s.playlists[FindPlaylist(s.playlists, playlistId).value];
      && (p.visibility || p.owner == caller)
      && forall v :: v in s.videos && !v.isPublished ==> v !in PublishedIn(s.videos, p.videos)
  {
  }
}

=== FILE: records.dfy ===
/** The documents the controllers read and write, and the abstract database
    that holds them: one sequence per collection, in natural order. Record
    identifiers are the database's ObjectIds, already cast. */
module Records {
  import opened Wrappers
  import opened Seqs

  type Id = nat

  /** What a like points at. A stored like carries exactly one of the three
      references `video`, `comment`, `tweet`; the tag says which. */
  datatype Target = OnVideo(video: Id) | OnComment(comment: Id) | OnTweet(tweet: Id)

  datatype Like = Like(id: Id, likedBy: Id, target: Target)

  datatype Subscription = Subscription(id: Id, subscriber: Id, channel: Id)

  datatype Video = Video(
    id: Id,
    owner: Id,
    title: string,
    description: string,
    thumbnail: string,
    videoFile: string,
    views: nat,
    isPublished: bool)

  datatype Comment = Comment(id: Id, video: Id, owner: Id, content: string)

  datatype Tweet = Tweet(id: Id, owner: Id, content: string)

  /** A playlist document: an owner reference, an ordered list of video
      references, a required name, an optional description and a visibility
      flag that is false unless set. */
  datatype Playlist = Playlist(
    id: Id,
    owner: Id,
    videos: seq<Id>,
    name: string,
    description: string,
    visibility: bool)

  /** A user document. `refreshToken` is the single stored refresh token
      (absent after logout); `watchHistory` lists watched video ids, most
      recent first. `channel` stands for a `channel` attribute that the code
      writing users never sets: it is `None` on every user this model creates,
      and it exists only because the channel statistics query filters users
      on it. */
  datatype User = User(
    id: Id,
    username: string,
    email: string,
    fullName: string,
    avatar: string,
    coverImage: string,
    password: string,
    refreshToken: Option<string>,
    watchHistory: seq<Id>,
    channel: Option<Id>)

  datatype Db = Db(
    users: seq<User>,
    videos: seq<Video>,
    comments: seq<Comment>,
    tweets: seq<Tweet>,
    likes: seq<Like>,
    subscriptions: seq<Subscription>,
    playlists: seq<Playlist>)

  /** The public projection of a user attached to listings by a `$lookup`. */
  datatype UserCard = UserCard(id: Id, username: string, fullName: string, avatar: string)

  function CardOf(u: User): UserCard
  {
    UserCard(u.id, u.username, u.fullName, u.avatar)
  }

  // ---- lookups by identifier (first match, as findById / findOne) ----

  function FindUser(users: seq<User>, id: Id): Option<nat>
  {
    IndexWhere(users, (u: User) => u.id == id)
  }

  function FindVideo(videos: seq<Video>, id: Id): Option<nat>
  {
    IndexWhere(videos, (v: Video) => v.id == id)
  }

  function FindComment(comments: seq<Comment>, id: Id): Option<nat>
  {
    IndexWhere(comments, (c: Comment) => c.id == id)
  }

  function FindTweet(tweets: seq<Tweet>, id: Id): Option<nat>
  {
    IndexWhere(tweets, (t: Tweet) => t.id == id)
  }

  function FindPlaylist(playlists: seq<Playlist>, id: Id): Option<nat>
  {
    IndexWhere(playlists, (p: Playlist) => p.id == id)
  }

  /** Rewriting documents without changing their ids leaves every lookup
      by id where it was. */
  lemma FindUserSameIds(a: seq<User>, b: seq<User>, id: Id)
    requires |a| == |b| && forall j :: 0 <= j < |a| ==> a[j].id == b[j].id
    ensures FindUser(a, id) == FindUser(b, id)
  {
    match FindUser(a, id)
    case Some(i) => IndexWhereAt(b, (u: User) => u.id == id, i);
    case None =>
  }

  lemma FindVideoSameIds(a: seq<Video>, b: seq<Video>, id: Id)
    requires |a| == |b| && forall j :: 0 <= j < |a| ==> a[j].id == b[j].id
    ensures FindVideo(a, id) == FindVideo(b, id)
  {
    match FindVideo(a, id)
    case Some(i) => IndexWhereAt(b, (v: Video) => v.id == id, i);
    case None =>
  }

  /** `$first` of a `$lookup` from a reference into the users collection:
      the card of the first user with that id, if any. */
  function OwnerCard(users: seq<User>, id: Id): (r: Option<UserCard>)
    ensures r.Some? <==> exists u :: u in users && u.id == id
    ensures r.Some? ==> r.value.id == id && exists u :: u in users && CardOf(u) == r.value
  {
    match FindUser(users, id)
    case None => None
    case Some(i) => assert users[i] in users; Some(CardOf(users[i]))
  }

  /** The author projection comments and tweets carry: `$first` of the
      users with the owner's id, keeping `username` and `avatar`. */
  datatype Author = Author(id: Id, username: string, avatar: string)

  function AuthorOf(users: seq<User>, id: Id): (r: Option<Author>)
    ensures r.Some? <==> FindUser(users, id).Some?
    ensures r.Some? ==> r.value.id == id
  {
    match FindUser(users, id)
    case None => None
    case Some(i) => Some(Author(users[i].id, users[i].username, users[i].avatar))
  }

  /** The channel projection of the subscribed-channels listing: `fullName`,
      `avatar` and `_id`, each the `$first` of the users with the channel's
      id. `None` stands for the empty object that projection gives when no
      user has the id. */
  datatype ChannelCard = ChannelCard(id: Id, fullName: string, avatar: string)

  function ChannelCardOf(users: seq<User>, id: Id): (r: Option<ChannelCard>)
    ensures r.Some? <==> exists u :: u in users && u.id == id
    ensures r.Some? ==>
      exists i :: && 0 <= i < |users| && users[i].id == id
                  && (forall j :: 0 <= j < i ==> users[j].id != id)
                  && r.value == ChannelCard(id, users[i].fullName, users[i].avatar)
  {
    match FindUser(users, id)
    case None => None
    case Some(i) => assert users[i] in users; Some(ChannelCard(id, users[i].fullName, users[i].avatar))
  }

  /** The channel card is the subscriber card of the same user without its
      username. */
  lemma ChannelCardDropsUsername(users: seq<User>, id: Id)
    ensures OwnerCard(users, id).None? <==> ChannelCardOf(users, id).None?
    ensures OwnerCard(users, id).Some? ==>
      var c := OwnerCard(users, id).value;
      ChannelCardOf(users, id) == Some(ChannelCard(c.id, c.fullName, c.avatar))
  {
  }

  /** A user document read with `select("-password -refreshToken")`: every
      field but the password hash and the refresh token. */
  datatype PublicUser = PublicUser(
    id: Id,
    username: string,
    email: string,
    fullName: string,
    avatar: string,
    coverImage: string,
    watchHistory: seq<Id>,
    channel: Option<Id>)

  function PublicView(u: User): PublicUser
  {
    PublicUser(u.id, u.username, u.email, u.fullName, u.avatar, u.coverImage, u.watchHistory, u.channel)
  }

  /** The view shows nothing of the two secrets: two users have the same view
      exactly when they differ at most in password and refresh token. */
  lemma PublicViewHidesSecrets(a: User, b: User)
    ensures PublicView(a) == PublicView(b) <==> a == b.(password := a.password, refreshToken := a.refreshToken)
  {
  }

  /** `findById(id).select("-password -refreshToken")`: the view of the
      first user with the id, or `null`. */
  function ViewById(users: seq<User>, id: Id): Option<PublicUser>
  {
    match FindUser(users, id)
    case None => None
    case Some(i) => Some(PublicView(users[i]))
  }

  /** Video ids are ObjectIds, unique in the collection. */
  predicate UniqueVideoIds(videos: seq<Video>)
  {
    forall i, j :: 0 <= i < j < |videos| ==> videos[i].id != videos[j].id
  }

  // ---- derived counts: a $lookup followed by $size ----

  function LikesOn(likes: seq<Like>, t: Target): nat
  {
    Count(likes, (l: Like) => l.target == t)
  }

  function SubscribersOf(subs: seq<Subscription>, channel: Id): nat
  {
    Count(subs, (s: Subscription) => s.channel == channel)
  }

  function SubscribedTo(subs: seq<Subscription>, subscriber: Id): nat
  {
    Count(subs, (s: Subscription) => s.subscriber == subscriber)
  }

  /** `$in: [viewer, "$subscribers.subscriber"]` over the channel's incoming
      subscriptions. */
  predicate IsSubscribed(subs: seq<Subscription>, viewer: Id, channel: Id)
  {
    exists s :: s in subs && s.subscriber == viewer && s.channel == channel
  }

  /** The subscriber count is positive when the viewer is subscribed. */
  lemma SubscribedImpliesCounted(subs: seq<Subscription>, viewer: Id, channel: Id)
    requires IsSubscribed(subs, viewer, channel)
    ensures SubscribersOf(subs, channel) >= 1
  {
    var s :| s in subs && s.subscriber == viewer && s.channel == channel;
    CountPositive(subs, (x: Subscription) => x.channel == channel);
  }
}

=== FILE: seqs.dfy ===
/** Sequence operations the abstract store is built from: a collection is a
    sequence of documents in natural (insertion) order, `findOne` is the first
    match, `$match` is a filter and `$size` of a `$lookup` is a filtered count. */
module Seqs {
  import opened Wrappers

  /** Index of the first element satisfying `p` (a `findOne` / `findById`). */
  function IndexWhere<T>(xs: seq<T>, p: T -> bool): (r: Option<nat>)
    ensures r.Some? ==> r.value < |xs| && p(xs[r.value])
    ensures r.Some? ==> forall j :: 0 <= j < r.value ==> !p(xs[j])
    ensures r.None? <==> forall j :: 0 <= j < |xs| ==> !p(xs[j])
    decreases |xs|
  {
    if |xs| == 0 then None
    else if p(xs[0]) then Some(0)
    else
      match IndexWhere(xs[1..], p)
      case None => None
      case Some(k) => Some(k + 1)
  }

  /** The elements satisfying `p`, in their original order (a `$match`). */
  function Filter<T(!new)>(xs: seq<T>, p: T -> bool): (r: seq<T>)
    ensures |r| <= |xs|
    ensures forall x :: x in r <==> x in xs && p(x)
    ensures forall x :: multiset(r)[x] == if p(x) then multiset(xs)[x] else 0
    decreases |xs|
  {
    if |xs| == 0 then []
    else
      assert xs == [xs[0]] + xs[1..];
      if p(xs[0]) then [xs[0]] + Filter(xs[1..], p) else Filter(xs[1..], p)
  }

  /** How many elements satisfy `p` (`$size` of a `$lookup`, `countDocuments`). */
  function Count<T(!new)>(xs: seq<T>, p: T -> bool): nat
  {
    |Filter(xs, p)|
  }

  /** `xs` without the element at `i`; the rest keep their order. */
  function RemoveAt<T>(xs: seq<T>, i: nat): (r: seq<T>)
    requires i < |xs|
    ensures |r| == |xs| - 1
    ensures forall j :: 0 <= j < i ==> r[j] == xs[j]
    ensures forall j :: i <= j < |r| ==> r[j] == xs[j + 1]
    ensures multiset(r) == multiset(xs) - multiset{xs[i]}
  {
    assert xs == xs[..i] + [xs[i]] + xs[i + 1..];
    xs[..i] + xs[i + 1..]
  }

  predicate NoDuplicates<T(==)>(xs: seq<T>)
  {
    forall i, j :: 0 <= i < j < |xs| ==> xs[i] != xs[j]
  }

  /** Filtering distributes over concatenation, which is what "keeps the
      relative order of the rest" means. */
  lemma {:induction false} FilterAppend<T(!new)>(a: seq<T>, b: seq<T>, p: T -> bool)
    ensures Filter(a + b, p) == Filter(a, p) + Filter(b, p)
    decreases |a|
  {
    if |a| == 0 {
      assert a + b == b;
    } else {
      assert (a + b)[1..] == a[1..] + b;
      FilterAppend(a[1..], b, p);
    }
  }

  lemma {:induction false} FilterKeepsAll<T(!new)>(xs: seq<T>, p: T -> bool)
    requires forall x :: x in xs ==> p(x)
    ensures Filter(xs, p) == xs
    decreases |xs|
  {
    if |xs| > 0 {
      FilterKeepsAll(xs[1..], p);
      assert xs == [xs[0]] + xs[1..];
    }
  }

  lemma CountAppendOne<T(!new)>(xs: seq<T>, x: T, p: T -> bool)
    ensures Count(xs + [x], p) == Count(xs, p) + (if p(x) then 1 else 0)
  {
    FilterAppend(xs, [x], p);
    assert Filter([x], p) == if p(x) then [x] else [];
  }

  lemma CountRemoveAt<T(!new)>(xs: seq<T>, i: nat, p: T -> bool)
    requires i < |xs|
    ensures Count(RemoveAt(xs, i), p) + (if p(xs[i]) then 1 else 0) == Count(xs, p)
  {
    assert xs == xs[..i] + ([xs[i]] + xs[i + 1..]);
    FilterAppend(xs[..i], [xs[i]] + xs[i + 1..], p);
    FilterAppend([xs[i]], xs[i + 1..], p);
    FilterAppend(xs[..i], xs[i + 1..], p);
    assert Filter([xs[i]], p) == if p(xs[i]) then [xs[i]] else [];
  }

  /** The count is positive exactly when some element satisfies `p`. */
  lemma CountPositive<T(!new)>(xs: seq<T>, p: T -> bool)
    ensures Count(xs, p) > 0 <==> exists x :: x in xs && p(x)
  {
    var f := Filter(xs, p);
    if |f| > 0 {
      assert f[0] in f;
    }
  }

  /** Removing every occurrence of a value keeps the sequence duplicate-free. */
  lemma {:induction false} FilterNoDuplicates<T(!new)>(xs: seq<T>, p: T -> bool)
    requires NoDuplicates(xs)
    ensures NoDuplicates(Filter(xs, p))
    decreases |xs|
  {
    if |xs| > 0 {
      FilterNoDuplicates(xs[1..], p);
      var rest := Filter(xs[1..], p);
      if p(xs[0]) {
        forall k | 0 <= k < |xs[1..]|
          ensures xs[1..][k] != xs[0]
        {
          assert xs[1..][k] == xs[k + 1];
        }
        assert xs[0] !in rest;
        var r := [xs[0]] + rest;
        forall i, j | 0 <= i < j < |r|
          ensures r[i] != r[j]
        {
          if i == 0 {
            assert r[j] in rest;
          } else {
            assert r[i] == rest[i - 1] && r[j] == rest[j - 1];
          }
        }
      }
    }
  }

  /** The first match is wherever the first element satisfying `p` is. */
  lemma IndexWhereAt<T>(xs: seq<T>, p: T -> bool, i: nat)
    requires i < |xs| && p(xs[i])
    requires forall j :: 0 <= j < i ==> !p(xs[j])
    ensures IndexWhere(xs, p) == Some(i)
  {
  }

  /** Removing one element of a duplicate-free sequence keeps it so. */
  lemma RemoveAtNoDuplicates<T>(xs: seq<T>, i: nat)
    requires i < |xs| && NoDuplicates(xs)
    ensures NoDuplicates(RemoveAt(xs, i))
    ensures forall j :: 0 <= j < |RemoveAt(xs, i)| ==> RemoveAt(xs, i)[j] != xs[i]
  {
    var r := RemoveAt(xs, i);
    forall a, b | 0 <= a < b < |r| ensures r[a] != r[b] {
      var a' := if a < i then a else a + 1;
      var b' := if b < i then b else b + 1;
      assert r[a] == xs[a'] && r[b] == xs[b'];
    }
    forall j | 0 <= j < |r| ensures r[j] != xs[i] {
      var j' := if j < i then j else j + 1;
      assert r[j] == xs[j'];
    }
  }

  /** The head of a filter is the first match. */
  lemma {:induction false} FilterHead<T(!new)>(xs: seq<T>, p: T -> bool)
    ensures IndexWhere(xs, p).None? <==> Filter(xs, p) == []
    ensures IndexWhere(xs, p).Some? ==> Filter(xs, p)[0] == xs[IndexWhere(xs, p).value]
    decreases |xs|
  {
    if |xs| > 0 && !p(xs[0]) {
      FilterHead(xs[1..], p);
    }
  }

  /** A filter that rejects some element is shorter than its input. */
  lemma {:induction false} FilterDropsSome<T(!new)>(xs: seq<T>, p: T -> bool)
    ensures (exists x :: x in xs && !p(x)) ==> |Filter(xs, p)| < |xs|
    decreases |xs|
  {
    if |xs| > 0 {
      FilterDropsSome(xs[1..], p);
      assert forall x :: x in xs ==> x == xs[0] || x in xs[1..];
    }
  }
}

=== FILE: subscriptions.dfy ===
/** The subscription toggle and the two subscription listings. */
module Subscriptions {
  import opened Wrappers
  import opened Seqs
  import opened Records
  import opened Paging

  function FindSubscription(subs: seq<Subscription>, subscriber: Id, channel: Id): Option<nat>
  {
    IndexWhere(subs, (x: Subscription) => x.subscriber == subscriber && x.channel == channel)
  }

  predicate UserExists(s: Db, id: Id)
  {
    exists u :: u in s.users && u.id == id
  }

  const ChannelMissing := ApiError(400, "Channel does not exist")
  const SelfSubscription := ApiError(400, "You cannot subscribe to yourself")

  /** Subscribe when the caller has no subscription to the channel, else
      unsubscribe. Subscribing first checks that the channel is a user (400
      otherwise), then that it is not the caller (400). Unsubscribing makes
      neither check. Ids are compared as values; the handler compares the
      route's text with the lower-case hex of the caller's id, so there the
      caller's own id spelled in upper-case hex passes the self check. */
  function ToggleSubscription(s: Db, caller: Id, channelId: Id, newId: Id): (r: Result<(Db, Option<Subscription>)>)
    ensures !IsSubscribed(s.subscriptions, caller, channelId) && !UserExists(s, channelId) ==>
      r == Err(ChannelMissing)
    ensures !IsSubscribed(s.subscriptions, caller, channelId) && UserExists(s, channelId) && channelId == caller ==>
      r == Err(SelfSubscription)
    ensures !IsSubscribed(s.subscriptions, caller, channelId) && UserExists(s, channelId) && channelId != caller ==>
      var sub := Subscription(newId, caller, channelId);
      r == Ok((s.(subscriptions := s.subscriptions + [sub]), Some(sub)))
    ensures IsSubscribed(s.subscriptions, caller, channelId) ==>
      && FindSubscription(s.subscriptions, caller, channelId).Some?
      && var i := FindSubscription(s.subscriptions, caller, channelId).value;
      && s.subscriptions[i].subscriber == caller && s.subscriptions[i].channel == channelId
      && r == Ok((s.(subscriptions := RemoveAt(s.subscriptions, i)), None))
    ensures r.Err? ==> StatusOf(r.failure) == 400 && r.failure.message in {ChannelMissing.message, SelfSubscription.message}
  {
    match FindSubscription(s.subscriptions, caller, channelId)
    case Some(i) =>
      assert s.subscriptions[i] in s.subscriptions;
      Ok((s.(subscriptions := RemoveAt(s.subscriptions, i)), None))
    case None =>
      if !UserExists(s, channelId) then Err(ChannelMissing)
      else if channelId == caller then Err(SelfSubscription)
      else
        var sub := Subscription(newId, caller, channelId);
        Ok((s.(subscriptions := s.subscriptions + [sub]), Some(sub)))
  }

  /** The invariants the relation is meant to have: one subscription per
      (subscriber, channel) pair, and nobody subscribed to themselves. */
  predicate WellFormed(subs: seq<Subscription>)
  {
    && (forall i :: 0 <= i < |subs| ==> subs[i].subscriber != subs[i].channel)
    && (forall i, j :: 0 <= i < j < |subs| ==>
          subs[i].subscriber != subs[j].subscriber || subs[i].channel != subs[j].channel)
  }

  /** Subscribing to yourself always fails with 400 and writes nothing,
      whichever of the two checks refuses it, when the route carries the
      caller's id in the lower-case hex it renders to. */
  lemma NoSelfSubscription(s: Db, caller: Id, newId: Id)
    requires WellFormed(s.subscriptions)
    ensures ToggleSubscription(s, caller, caller, newId).Err?
    ensures StatusOf(ToggleSubscription(s, caller, caller, newId).failure) == 400
  {
    forall x | x in s.subscriptions
      ensures x.subscriber != x.channel
    {
      var k :| 0 <= k < |s.subscriptions| && s.subscriptions[k] == x;
    }
    assert !IsSubscribed(s.subscriptions, caller, caller);
  }

  /** Toggles applied one after another keep the relation well formed, when
      every route id is in the lower-case hex ids render to. */
  lemma TogglePreservesWellFormed(s: Db, caller: Id, channelId: Id, newId: Id)
    requires WellFormed(s.subscriptions)
    requires ToggleSubscription(s, caller, channelId, newId).Ok?
    ensures WellFormed(ToggleSubscription(s, caller, channelId, newId).value.0.subscriptions)
  {
    var subs := s.subscriptions;
    if IsSubscribed(subs, caller, channelId) {
      var i := FindSubscription(subs, caller, channelId).value;
      var r := RemoveAt(subs, i);
      forall a, b | 0 <= a < b < |r|
        ensures r[a].subscriber != r[b].subscriber || r[a].channel != r[b].channel
      {
        var a' := if a < i then a else a + 1;
        var b' := if b < i then b else b + 1;
        assert r[a] == subs[a'] && r[b] == subs[b'];
      }
      forall a | 0 <= a < |r|
        ensures r[a].subscriber != r[a].channel
      {
        var a' := if a < i then a else a + 1;
        assert r[a] == subs[a'];
      }
    } else {
      var sub := Subscription(newId, caller, channelId);
      var r := subs + [sub];
      forall a, b | 0 <= a < b < |r|
        ensures r[a].subscriber != r[b].subscriber || r[a].channel != r[b].channel
      {
        assert r[a] == subs[a] && subs[a] in subs;
        if b < |subs| {
          assert r[b] == subs[b];
        }
      }
    }
  }

  /** Subscribing and then unsubscribing gives back the original database. */
  lemma ToggleTwiceRestores(s: Db, caller: Id, channelId: Id, newId: Id, newId2: Id)
    requires !IsSubscribed(s.subscriptions, caller, channelId)
    requires UserExists(s, channelId) && channelId != caller
    ensures ToggleSubscription(s, caller, channelId, newId).Ok?
    ensures ToggleSubscription(ToggleSubscription(s, caller, channelId, newId).value.0, caller, channelId, newId2)
            == Ok((s, None))
  {
    var sub := Subscription(newId, caller, channelId);
    var s1 := s.(subscriptions := s.subscriptions + [sub]);
    assert ToggleSubscription(s, caller, channelId, newId).value.0 == s1;
    forall j | 0 <= j < |s.subscriptions|
      ensures s1.subscriptions[j].subscriber != caller || s1.subscriptions[j].channel != channelId
    {
      assert s1.subscriptions[j] == s.subscriptions[j] && s.subscriptions[j] in s.subscriptions;
    }
    var k := FindSubscription(s1.subscriptions, caller, channelId);
    assert s1.subscriptions[|s.subscriptions|] == sub;
    assert k.Some?;
    assert k.value == |s.subscriptions|;
    assert RemoveAt(s1.subscriptions, |s.subscriptions|) == s.subscriptions;
  }

  /** Subscriptions pointing at the channel, in collection order. */
  function Incoming(subs: seq<Subscription>, channel: Id): (r: seq<Subscription>)
    ensures |r| == SubscribersOf(subs, channel)
    ensures forall x :: x in r <==> x in subs && x.channel == channel
  {
    Filter(subs, (x: Subscription) => x.channel == channel)
  }

  /** Subscriptions made by the subscriber, in collection order. */
  function Outgoing(subs: seq<Subscription>, subscriber: Id): (r: seq<Subscription>)
    ensures |r| == SubscribedTo(subs, subscriber)
    ensures forall x :: x in r <==> x in subs && x.subscriber == subscriber
  {
    Filter(subs, (x: Subscription) => x.subscriber == subscriber)
  }

  /** The card of each subscriber of `channel`, in collection order. */
  function SubscriberCards(s: Db, channel: Id): (r: seq<Option<UserCard>>)
    ensures var inc := Incoming(s.subscriptions, channel);
      && |r| == |inc|
      && forall k :: 0 <= k < |r| ==> inc[k].channel == channel && r[k] == OwnerCard(s.users, inc[k].subscriber)
  {
    var inc := Incoming(s.subscriptions, channel);
    assert forall k :: 0 <= k < |inc| ==> inc[k] in inc;
    seq(|inc|, k requires 0 <= k < |inc| => OwnerCard(s.users, inc[k].subscriber))
  }

  /** The caller's subscribers, each as the card of the subscribing user
      (`None` when that user no longer exists), paged with defaults page 1,
      limit 50. */
  function GetUserChannelSubscribers(s: Db, caller: Id, page: Option<int>, limit: Option<int>)
    : (r: Result<seq<Option<UserCard>>>)
    ensures var p := QueryInt(page, 1); var l := QueryInt(limit, 50);
      && (r.Ok? <==> Offset(p, l) >= 0 && l > 0)
      && (r.Ok? ==> r.value == Window(SubscriberCards(s, caller), Offset(p, l), l))
  {
    AggregatePage(SubscriberCards(s, caller), QueryInt(page, 1), QueryInt(limit, 50))
  }

  /** Every channel the caller subscribes to, as the channel's card
      (`fullName`, `avatar`, `_id`; `None` for the empty object a vanished
      channel gives), in collection order, unpaged. */
  function GetSubscribedChannels(s: Db, caller: Id): (r: seq<Option<ChannelCard>>)
    ensures |r| == SubscribedTo(s.subscriptions, caller)
    ensures var out := Outgoing(s.subscriptions, caller);
      forall k :: 0 <= k < |r| ==> out[k].subscriber == caller && r[k] == ChannelCardOf(s.users, out[k].channel)
  {
    var out := Outgoing(s.subscriptions, caller);
    assert forall k :: 0 <= k < |out| ==> out[k] in out;
    seq(|out|, k requires 0 <= k < |out| => ChannelCardOf(s.users, out[k].channel))
  }

  /** Each card in the listing is a channel the caller subscribes to, and
      every subscription of the caller to an existing channel is listed. */
  lemma SubscribedChannelsAreSubscriptions(s: Db, caller: Id)
    ensures var r := GetSubscribedChannels(s, caller);
      forall k :: 0 <= k < |r| && r[k].Some? ==> IsSubscribed(s.subscriptions, caller, r[k].value.id)
    ensures forall ch :: IsSubscribed(s.subscriptions, caller, ch) && UserExists(s, ch) ==>
      Some(ChannelCardOf(s.users, ch).value) in GetSubscribedChannels(s, caller)
  {
    var r := GetSubscribedChannels(s, caller);
    var out := Outgoing(s.subscriptions, caller);
    forall k | 0 <= k < |r| && r[k].Some?
      ensures IsSubscribed(s.subscriptions, caller, r[k].value.id)
    {
      assert out[k] in out;
    }
    forall ch | IsSubscribed(s.subscriptions, caller, ch) && UserExists(s, ch)
      ensures Some(ChannelCardOf(s.users, ch).value) in r
    {
      var x :| x in s.subscriptions && x.subscriber == caller && x.channel == ch;
      assert x in out;
      var k :| 0 <= k < |out| && out[k] == x;
      assert r[k] == ChannelCardOf(s.users, ch);
    }
  }
}

=== FILE: text.dfy ===
/** The two string operations the controllers apply to request text:
    JavaScript's `String.prototype.trim` and a lower-casing of handles. */
module Text {

  /** The characters `trim` removes: the ECMAScript WhiteSpace and
      LineTerminator code points. */
  predicate IsSpace(c: char)
  {
    var n := c as int;
    || n == 0x09 || n == 0x0A || n == 0x0B || n == 0x0C || n == 0x0D
    || n == 0x20 || n == 0xA0 || n == 0x1680
    || (0x2000 <= n <= 0x200A)
    || n == 0x2028 || n == 0x2029 || n == 0x202F || n == 0x205F
    || n == 0x3000 || n == 0xFEFF
  }

  predicate AllSpace(s: string)
  {
    forall k :: 0 <= k < |s| ==> IsSpace(s[k])
  }

  /** `s` without its leading white space. */
  function TrimStart(s: string): (r: string)
    ensures |r| <= |s| && r == s[|s| - |r|..]
    ensures AllSpace(s[..|s| - |r|])
    ensures |r| > 0 ==> !IsSpace(r[0])
    decreases |s|
  {
    if |s| > 0 && IsSpace(s[0]) then TrimStart(s[1..]) else s
  }

  /** `s` without its trailing white space. */
  function TrimEnd(s: string): (r: string)
    ensures |r| <= |s| && r == s[..|r|]
    ensures AllSpace(s[|r|..])
    ensures |r| > 0 ==> !IsSpace(r[|r| - 1])
    decreases |s|
  {
    if |s| > 0 && IsSpace(s[|s| - 1]) then TrimEnd(s[..|s| - 1]) else s
  }

  /** `s.trim()`: the longest middle part of `s` that neither starts nor
      ends with white space, with only white space cut on either side. */
  function Trim(s: string): (r: string)
    ensures exists a, b :: 0 <= a <= b <= |s| && r == s[a..b] && AllSpace(s[..a]) && AllSpace(s[b..])
    ensures |r| > 0 ==> !IsSpace(r[0]) && !IsSpace(r[|r| - 1])
  {
    var t := TrimStart(s);
    var r := TrimEnd(t);
    Middle(s, t, r);
    r
  }

  /** A suffix `t` of `s` behind white space, cut down to a prefix `r` with
      only white space after it, is a middle slice of `s` with only white
      space on either side. */
  lemma Middle(s: string, t: string, r: string)
    requires |t| <= |s| && t == s[|s| - |t|..] && AllSpace(s[..|s| - |t|])
    requires |r| <= |t| && r == t[..|r|] && AllSpace(t[|r|..])
    requires |t| > 0 ==> !IsSpace(t[0])
    requires |r| > 0 ==> !IsSpace(r[|r| - 1])
    ensures exists a, b :: 0 <= a <= b <= |s| && r == s[a..b] && AllSpace(s[..a]) && AllSpace(s[b..])
    ensures |r| > 0 ==> !IsSpace(r[0]) && !IsSpace(r[|r| - 1])
  {
    var a := |s| - |t|;
    assert s[a + |r|..] == t[|r|..];
    assert r == s[a..a + |r|];
    if |r| > 0 {
      assert r[0] == t[0];
    }
  }

  /** A string trims to "" exactly when it is all white space. */
  lemma TrimBlank(s: string)
    ensures Trim(s) == "" <==> AllSpace(s)
  {
    var a, b :| 0 <= a <= b <= |s| && Trim(s) == s[a..b] && AllSpace(s[..a]) && AllSpace(s[b..]);
    if Trim(s) == "" {
      assert a == b;
      forall k | 0 <= k < |s| ensures IsSpace(s[k]) {
        if k < a { assert s[..a][k] == s[k]; } else { assert s[b..][k - b] == s[k]; }
      }
    } else {
      assert !IsSpace(Trim(s)[0]) && Trim(s)[0] == s[a];
    }
  }

  /** Trimming twice is trimming once. */
  lemma TrimIdempotent(s: string)
    ensures Trim(Trim(s)) == Trim(s)
  {
    var t := Trim(s);
    if |t| > 0 {
      assert !IsSpace(t[0]) && !IsSpace(t[|t| - 1]);
    }
  }

  /** ASCII upper case to lower case; every other character is kept. */
  function LowerChar(c: char): (r: char)
  {
    if 'A' <= c <= 'Z' then (c as int + 32) as char else c
  }

  /** `s.toLowerCase()` on the ASCII letters. */
  function ToLower(s: string): (r: string)
    ensures |r| == |s|
    ensures forall k :: 0 <= k < |s| ==> r[k] == LowerChar(s[k])
    ensures forall k :: 0 <= k < |r| ==> !('A' <= r[k] <= 'Z')
  {
    seq(|s|, k requires 0 <= k < |s| => LowerChar(s[k]))
  }

  /** Lower-casing twice is lower-casing once. */
  lemma ToLowerIdempotent(s: string)
    ensures ToLower(ToLower(s)) == ToLower(s)
  {
  }
}

=== FILE: tweets.dfy ===
/** The tweet controller: create, update, delete and the per-user listing
    with like counts. A missing tweet is reported with status 500. */
module Tweets {
  import opened Wrappers
  import opened Seqs
  import opened Records
  import opened Ownership

  const ContentRequired := ApiError(400, "Content is required")
  const TweetMissing := ApiError(500, "Tweet does not exist")

  /** `createTweet`: 400 without content; the tweet is owned by the caller. */
  function CreateTweet(s: Db, caller: Id, content: Option<string>, newId: Id): (r: Result<(Db, Tweet)>)
    ensures !Truthy(content) ==> r == Err(ContentRequired)
    ensures Truthy(content) ==>
      && r.Ok?
      && r.value.1 == Tweet(newId, caller, content.value)
      && r.value.0 == s.(tweets := s.tweets + [r.value.1])
  {
    if !Truthy(content) then Err(ContentRequired)
    else
      var t := Tweet(newId, caller, content.value);
      Ok((s.(tweets := s.tweets + [t]), t))
  }

  /** A tweet that cannot be found answers 500; a tweet someone else wrote
      answers 401. */
  function OwnedTweet(s: Db, caller: Id, tweetId: Id): (r: Result<nat>)
    ensures FindTweet(s.tweets, tweetId).None? ==> r == Err(TweetMissing) && StatusOf(r.failure) == 500
    ensures FindTweet(s.tweets, tweetId).Some? ==>
      var i := FindTweet(s.tweets, tweetId).value;
      && (s.tweets[i].owner != caller ==> r == Err(Unauthorized))
      && (s.tweets[i].owner == caller ==> r == Ok(i))
    ensures r.Ok? ==> r.value < |s.tweets| && s.tweets[r.value].id == tweetId
  {
    match FindTweet(s.tweets, tweetId)
    case None => Err(TweetMissing)
    case Some(i) =>
      match VerifyOwner(caller, s.tweets[i].owner)
      case Some(e) => Err(e)
      case None => Ok(i)
  }

  /** `updateTweet`: 400 without content (before the lookup), then 500 for
      a missing tweet, then 401; only `content` changes. */
  function UpdateTweet(s: Db, caller: Id, tweetId: Id, content: Option<string>): (r: Result<(Db, Tweet)>)
    ensures !Truthy(content) ==> r == Err(ContentRequired)
    ensures Truthy(content) && OwnedTweet(s, caller, tweetId).Err? ==> r == Err(OwnedTweet(s, caller, tweetId).failure)
    ensures Truthy(content) && OwnedTweet(s, caller, tweetId).Ok? ==>
      var i := OwnedTweet(s, caller, tweetId).value;
      && r.Ok?
      && r.value.1 == s.tweets[i].(content := content.value)
      && r.value.0 == s.(tweets := s.tweets[i := r.value.1])
  {
    if !Truthy(content) then Err(ContentRequired)
    else
      var i :- OwnedTweet(s, caller, tweetId);
      var t := s.tweets[i].(content := content.value);
      Ok((s.(tweets := s.tweets[i := t]), t))
  }

  /** `deleteTweet`: 500 for a missing tweet, then 401, then the first tweet
      with the id is removed and nothing else. */
  function DeleteTweet(s: Db, caller: Id, tweetId: Id): (r: Result<Db>)
    ensures OwnedTweet(s, caller, tweetId).Err? ==> r == Err(OwnedTweet(s, caller, tweetId).failure)
    ensures OwnedTweet(s, caller, tweetId).Ok? ==>
      r == Ok(s.(tweets := RemoveAt(s.tweets, OwnedTweet(s, caller, tweetId).value)))
  {
    var i :- OwnedTweet(s, caller, tweetId);
    Ok(s.(tweets := RemoveAt(s.tweets, i)))
  }

  /** Whatever goes wrong with a tweet write, the status is 400, 401 or
      500, and never 404. */
  lemma TweetFailureStatuses(s: Db, caller: Id, tweetId: Id, content: Option<string>)
    ensures UpdateTweet(s, caller, tweetId, content).Err? ==>
      StatusOf(UpdateTweet(s, caller, tweetId, content).failure) in {400, 401, 500}
    ensures DeleteTweet(s, caller, tweetId).Err? ==>
      StatusOf(DeleteTweet(s, caller, tweetId).failure) in {401, 500}
  {
  }

  /** Deleting a tweet takes exactly one tweet of its author away and leaves
      every other collection, likes included, as it was. */
  lemma DeleteTweetRemovesOne(s: Db, caller: Id, tweetId: Id)
    requires DeleteTweet(s, caller, tweetId).Ok?
    ensures var s1 := DeleteTweet(s, caller, tweetId).value;
      && |s1.tweets| + 1 == |s.tweets|
      && |TweetsBy(s1.tweets, caller)| + 1 == |TweetsBy(s.tweets, caller)|
      && s1.(tweets := s.tweets) == s
  {
    var i := OwnedTweet(s, caller, tweetId).value;
    CountRemoveAt(s.tweets, i, (t: Tweet) => t.owner == caller);
  }

  /** Updating a tweet twice with the same content is updating it once. */
  lemma UpdateTweetIdempotent(s: Db, caller: Id, tweetId: Id, content: Option<string>)
    requires UpdateTweet(s, caller, tweetId, content).Ok?
    ensures var s1 := UpdateTweet(s, caller, tweetId, content).value.0;
      UpdateTweet(s1, caller, tweetId, content) == UpdateTweet(s, caller, tweetId, content)
  {
    var i := OwnedTweet(s, caller, tweetId).value;
    var r := UpdateTweet(s, caller, tweetId, content).value;
    IndexWhereAt(r.0.tweets, (t: Tweet) => t.id == tweetId, i);
    assert r.0.tweets[i := r.1] == r.0.tweets;
  }

  // ---- getUserTweets ----

  function TweetsBy(tweets: seq<Tweet>, userId: Id): (r: seq<Tweet>)
    ensures forall t :: t in r <==> t in tweets && t.owner == userId
  {
    Filter(tweets, (t: Tweet) => t.owner == userId)
  }

  datatype TweetView = TweetView(id: Id, content: string, likesCount: nat, owner: Option<Author>)

  /** `getUserTweets`: every tweet of `userId`, in collection order, with
      the number of likes on it; not paged. */
  function GetUserTweets(s: Db, userId: Id): (r: seq<TweetView>)
    ensures var ts := TweetsBy(s.tweets, userId);
      && |r| == |ts|
      && forall k :: 0 <= k < |r| ==>
           && r[k].id == ts[k].id && r[k].content == ts[k].content
           && r[k].likesCount == LikesOn(s.likes, OnTweet(ts[k].id))
           && r[k].owner == AuthorOf(s.users, userId)
  {
    var ts := TweetsBy(s.tweets, userId);
    assert forall k :: 0 <= k < |ts| ==> ts[k] in ts;
    seq(|ts|, k requires 0 <= k < |ts| =>
      TweetView(ts[k].id, ts[k].content, LikesOn(s.likes, OnTweet(ts[k].id)), AuthorOf(s.users, ts[k].owner)))
  }

  /** A new tweet appears last in its author's listing, with no likes yet
      when no like points at its id. */
  lemma CreatedTweetListedLast(s: Db, caller: Id, content: Option<string>, newId: Id)
    requires CreateTweet(s, caller, content, newId).Ok?
    requires !exists l :: l in s.likes && l.target == OnTweet(newId)
    ensures var s1 := CreateTweet(s, caller, content, newId).value.0;
      var listed := GetUserTweets(s1, caller);
      && |listed| == |GetUserTweets(s, caller)| + 1
      && listed[|listed| - 1].id == newId
      && listed[|listed| - 1].likesCount == 0
  {
    var t := CreateTweet(s, caller, content, newId).value.1;
    FilterAppend(s.tweets, [t], (x: Tweet) => x.owner == caller);
    CountPositive(s.likes, (l: Like) => l.target == OnTweet(newId));
  }
}

=== FILE: users.dfy ===
/** The user controller: registration, the refresh-token session cycle
    (login, logout, refresh), password and account changes, profile images,
    and the channel profile.

    Signing and verifying tokens, hashing and checking passwords, and the
    media service are outside the model: what they answer comes in as
    parameters (the token strings a login or refresh issues, the verdict of
    verifying a refresh token, whether a password matched, the URL an upload
    produced, whether a delete was acknowledged). */
module Users {
  import opened Wrappers
  import opened Seqs
  import opened Records
  import opened Text
  import opened Assets

  const FieldsRequired := ApiError(400, "All the fields are required")
  const UsernameTaken := ApiError(409, "User with given username already exists")
  const UserMissing := ApiError(404, "User does not exist")
  const WrongPassword := ApiError(401, "Incorrect password")
  const TokenIssueFailed := ApiError(500, "Error while generating access and refresh tokens")
  const UnauthorizedRequest := ApiError(401, "Unauthorized request")
  const WrongOldPassword := ApiError(400, "Incorrect old password")
  const NoAccountChange := ApiError(400, "At least one field needs to be given to change")
  const NoImage := ApiError(400, "Atlest one image needs to be given to be updated")
  const BothDeleteFailed := ApiError(500, "Error while deleting previous files from cloudinary")
  const AvatarDeleteFailed := ApiError(500, "Error while deleting previous avatar file from cloudinary")
  const CoverDeleteFailed := ApiError(500, "Error while deleting previous Cover Image file from cloudinary")
  const HandleMissing := ApiError(400, "Username is missing")
  const ChannelMissing := ApiError(404, "Channel does not exist")
  const SignupFailed := ApiError(500, "Something went wrong while signing up the user.")

  /** Reading a field of `undefined` or `null`. */
  const NullDereference := Thrown("TypeError")

  /** A document the schema refuses to create. */
  const SchemaRejects := Thrown("ValidationError")

  /** Replaces the user at index `i`, keeping its id. */
  function SetUser(s: Db, i: nat, u: User): (r: Db)
    requires i < |s.users| && u.id == s.users[i].id
    ensures r == s.(users := s.users[i := u])
    ensures FindUser(r.users, s.users[i].id) == FindUser(s.users, s.users[i].id)
  {
    var r := s.(users := s.users[i := u]);
    FindUserSameIds(s.users, r.users, s.users[i].id);
    r
  }

  lemma SetUserKeepsLookups(s: Db, i: nat, u: User, id: Id)
    requires i < |s.users| && u.id == s.users[i].id
    ensures FindUser(SetUser(s, i, u).users, id) == FindUser(s.users, id)
  {
    FindUserSameIds(s.users, SetUser(s, i, u).users, id);
  }

  // ---- generateAccessAndRefreshTokens ----

  datatype Tokens = Tokens(accessToken: string, refreshToken: string)

  /** Stores `issued.refreshToken` as the user's one refresh token and hands
      both tokens back; a user that cannot be found makes it fail with 500. */
  function IssueTokens(s: Db, userId: Id, issued: Tokens): (r: Result<(Db, Tokens)>)
    ensures FindUser(s.users, userId).None? ==> r == Err(TokenIssueFailed)
    ensures FindUser(s.users, userId).Some? ==>
      var i := FindUser(s.users, userId).value;
      && r == Ok((s.(users := s.users[i := s.users[i].(refreshToken := Some(issued.refreshToken))]), issued))
  {
    match FindUser(s.users, userId)
    case None => Err(TokenIssueFailed)
    case Some(i) => Ok((SetUser(s, i, s.users[i].(refreshToken := Some(issued.refreshToken))), issued))
  }

  /** After tokens are issued the user holds exactly the new refresh token,
      and no other user changes. */
  lemma IssuedTokenStored(s: Db, userId: Id, issued: Tokens)
    requires IssueTokens(s, userId, issued).Ok?
    ensures var s1 := IssueTokens(s, userId, issued).value.0;
      var i := FindUser(s.users, userId).value;
      && FindUser(s1.users, userId) == Some(i)
      && s1.users[i].refreshToken == Some(issued.refreshToken)
      && s1.users[i].(refreshToken := s.users[i].refreshToken) == s.users[i]
      && (forall j :: 0 <= j < |s.users| && j != i ==> s1.users[j] == s.users[j])
      && s1.(users := s.users) == s
  {
    var i := FindUser(s.users, userId).value;
    SetUserKeepsLookups(s, i, s.users[i].(refreshToken := Some(issued.refreshToken)), userId);
  }

  // ---- registerUser ----

  /** The four body fields of a registration, each absent or sent. */
  datatype Registration = Registration(
    username: Option<string>,
    email: Option<string>,
    password: Option<string>,
    fullName: Option<string>)

  /** `field?.trim() == ""`: sent, and nothing but white space. An absent
      field is not blank. */
  predicate Blank(f: Option<string>)
  {
    f.Some? && Trim(f.value) == ""
  }

  predicate AnyBlank(g: Registration)
  {
    Blank(g.username) || Blank(g.email) || Blank(g.password) || Blank(g.fullName)
  }

  predicate UsernameInUse(users: seq<User>, name: string)
  {
    exists u :: u in users && u.username == name
  }

  /** `registerUser`. The uploads' URLs come in as `avatarUrl` and
      `coverUrl` (`None` when no file was sent or the upload failed). 400
      when a sent field is blank; 409 when a user already has exactly the
      given username; an absent username fails on `toLowerCase`, and another
      absent field is refused by the schema. The stored username is the given
      one in lower case; a missing image is stored as "". The answer is the
      created user read back by id without password and refresh token. */
  function RegisterUser(s: Db, g: Registration, avatarUrl: Option<string>, coverUrl: Option<string>, newId: Id)
    : (r: Result<(Db, PublicUser)>)
    ensures AnyBlank(g) ==> r == Err(FieldsRequired)
    ensures !AnyBlank(g) && g.username.Some? && UsernameInUse(s.users, g.username.value) ==> r == Err(UsernameTaken)
    ensures !AnyBlank(g) && g.username.None? ==> r == Err(NullDereference)
    ensures r.Ok? <==>
      && !AnyBlank(g)
      && g.username.Some? && g.email.Some? && g.password.Some? && g.fullName.Some?
      && !UsernameInUse(s.users, g.username.value)
    ensures r.Ok? ==>
      var u := User(newId, ToLower(g.username.value), g.email.value, g.fullName.value,
                    OrElse(avatarUrl, ""), OrElse(coverUrl, ""), g.password.value, None, [], None);
      && r.value.0 == s.(users := s.users + [u])
      && r.value.1.id == newId
      && (FindUser(s.users, newId).None? ==> r.value.1 == PublicView(u))
    ensures r.Err? ==> StatusOf(r.failure) in {400, 409, 500}
  {
    if AnyBlank(g) then Err(FieldsRequired)
    else if g.username.Some? && UsernameInUse(s.users, g.username.value) then Err(UsernameTaken)
    else if g.username.None? then Err(NullDereference)
    else if g.email.None? || g.password.None? || g.fullName.None? then Err(SchemaRejects)
    else
      var u := User(newId, ToLower(g.username.value), g.email.value, g.fullName.value,
                    OrElse(avatarUrl, ""), OrElse(coverUrl, ""), g.password.value, None, [], None);
      var users := s.users + [u];
      CreatedUserReadBack(s.users, u);
      match ViewById(users, newId)
      case None => Err(SignupFailed)
      case Some(created) => Ok((s.(users := users), created))
  }

  /** Reading back a user just appended finds a user with its id, and finds
      that very user when the id was fresh. */
  lemma CreatedUserReadBack(users: seq<User>, u: User)
    ensures ViewById(users + [u], u.id).Some?
    ensures ViewById(users + [u], u.id).value.id == u.id
    ensures FindUser(users, u.id).None? ==> ViewById(users + [u], u.id) == Some(PublicView(u))
  {
    var all := users + [u];
    assert all[|users|] == u;
    if FindUser(users, u.id).None? {
      IndexWhereAt(all, (x: User) => x.id == u.id, |users|);
    }
  }

  /** The duplicate check compares the name as given while the stored name
      is lowered: a name that differs from a stored one only in case passes
      the check, and a second user with the same stored username results.
      This holds provided the user schema neither lower-cases `username`
      nor indexes it as unique; that schema is not part of this model. */
  lemma CaseVariantPassesCheck(s: Db, g: Registration, j: nat, avatarUrl: Option<string>, coverUrl: Option<string>, newId: Id)
    requires !AnyBlank(g) && g.username.Some? && g.email.Some? && g.password.Some? && g.fullName.Some?
    requires !UsernameInUse(s.users, g.username.value)
    requires j < |s.users| && s.users[j].username == ToLower(g.username.value)
    ensures var r := RegisterUser(s, g, avatarUrl, coverUrl, newId);
      && r.Ok?
      && |r.value.0.users| == |s.users| + 1
      && r.value.0.users[j].username == r.value.0.users[|s.users|].username
  {
  }

  // ---- loginUser ----

  /** The first user whose username or email is `key`. */
  function FindLogin(users: seq<User>, key: string): Option<nat>
  {
    IndexWhere(users, (u: User) => u.username == key || u.email == key)
  }

  /** What a login answers: the database with the new refresh token stored,
      the user read back by id without password and refresh token, and the
      two tokens. */
  datatype LoggedIn = LoggedIn(db: Db, user: Option<PublicUser>, tokens: Tokens)

  /** `loginUser`. `passwordMatches` is the password check's answer and
      `issued` the tokens signed for the user. 400 for a missing field, 404
      for an unknown user, 401 for a wrong password; otherwise the user's
      refresh token becomes `issued.refreshToken`, and the user in the answer
      is the view the user had before logging in. */
  function LoginUser(s: Db, usernameOrEmail: Option<string>, password: Option<string>,
                     passwordMatches: bool, issued: Tokens): (r: Result<LoggedIn>)
    ensures !Truthy(usernameOrEmail) || !Truthy(password) ==> r == Err(FieldsRequired)
    ensures Truthy(usernameOrEmail) && Truthy(password) ==>
      && (FindLogin(s.users, usernameOrEmail.value).None? ==> r == Err(UserMissing))
      && (FindLogin(s.users, usernameOrEmail.value).Some? && !passwordMatches ==> r == Err(WrongPassword))
      && (FindLogin(s.users, usernameOrEmail.value).Some? && passwordMatches ==>
            var uid := s.users[FindLogin(s.users, usernameOrEmail.value).value].id;
            && r.Ok?
            && Ok((r.value.db, r.value.tokens)) == IssueTokens(s, uid, issued)
            && r.value.user.Some?
            && r.value.user == ViewById(s.users, uid))
  {
    if !Truthy(usernameOrEmail) || !Truthy(password) then Err(FieldsRequired)
    else
      match FindLogin(s.users, usernameOrEmail.value)
      case None => Err(UserMissing)
      case Some(i) =>
        if !passwordMatches then Err(WrongPassword)
        else
          var uid := s.users[i].id;
          match IssueTokens(s, uid, issued)
          case Err(e) => Err(e)
          case Ok((db, tokens)) => Ok(LoggedIn(db, ViewById(db.users, uid), tokens))
  }

  /** A login always succeeds once the user is found and the password
      matches, and leaves that user holding exactly the new refresh token. */
  lemma LoginStoresToken(s: Db, key: string, password: string, issued: Tokens)
    requires key != "" && password != ""
    requires FindLogin(s.users, key).Some?
    ensures var r := LoginUser(s, Some(key), Some(password), true, issued);
      var uid := s.users[FindLogin(s.users, key).value].id;
      && r.Ok?
      && r.value.tokens == issued
      && FindUser(r.value.db.users, uid).Some?
      && r.value.db.users[FindUser(r.value.db.users, uid).value].refreshToken == Some(issued.refreshToken)
  {
    var uid := s.users[FindLogin(s.users, key).value].id;
    assert FindUser(s.users, uid).Some? by {
      var k := FindLogin(s.users, key).value;
      assert s.users[k].id == uid;
    }
    IssuedTokenStored(s, uid, issued);
  }

  // ---- logoutUser ----

  /** `logoutUser`: the caller's stored refresh token is cleared; a caller
      who is not a user changes nothing. */
  function LogoutUser(s: Db, caller: Id): (r: Db)
    ensures FindUser(s.users, caller).None? ==> r == s
    ensures FindUser(s.users, caller).Some? ==>
      var i := FindUser(s.users, caller).value;
      && |r.users| == |s.users|
      && r.users[i].refreshToken.None?
      && r.users[i].(refreshToken := s.users[i].refreshToken) == s.users[i]
      && r == s.(users := s.users[i := r.users[i]])
  {
    match FindUser(s.users, caller)
    case None => s
    case Some(i) => SetUser(s, i, s.users[i].(refreshToken := None))
  }

  // ---- refreshAccessToken ----

  /** What verifying a refresh token answers: the library's error message,
      or the `_id` claim of the payload (`None` when it has none). */
  datatype JwtVerdict = Rejected(message: string) | Accepted(userId: Option<Id>)

  const NoToken := ApiError(401, "Unauthorized request")
  const InvalidToken := ApiError(401, "Invalid refresh token")
  const StaleToken := ApiError(401, "Refresh token is expired or used")

  /** Whatever the body throws is caught and thrown again as a 401 with its
      message, or with "Invalid refreshToken" when the message is empty. */
  function Rethrow401(f: Failure): (r: Failure)
    ensures StatusOf(r) == 401
  {
    var m := match f
      case ApiError(_, message) => message
      case Thrown(kind) => kind;
    ApiError(401, if m != "" then m else "Invalid refreshToken")
  }

  /** The body of the `try`: the incoming token (cookie first, then body),
      its verification, the user lookup, the comparison with the stored
      token, and the issue of a new pair. */
  function RefreshBody(s: Db, cookie: Option<string>, body: Option<string>, verdict: JwtVerdict, issued: Tokens)
    : (r: Result<(Db, Tokens)>)
  {
    var incoming := if Truthy(cookie) then cookie else body;
    if !Truthy(incoming) then Err(NoToken)
    else
      match verdict
      case Rejected(message) => Err(ApiError(500, message))
      case Accepted(userId) =>
        if userId.None? || FindUser(s.users, userId.value).None? then Err(InvalidToken)
        else
          var u := s.users[FindUser(s.users, userId.value).value];
          if u.refreshToken != Some(incoming.value) then Err(StaleToken)
          else IssueTokens(s, u.id, issued)
  }

  /** `refreshAccessToken`. Succeeds exactly when a token came in, it
      verifies to the id of an existing user, and it is that user's stored
      token; the user then holds the newly issued one. Every failure is a
      401. */
  function RefreshAccessToken(s: Db, cookie: Option<string>, body: Option<string>, verdict: JwtVerdict, issued: Tokens)
    : (r: Result<(Db, Tokens)>)
    ensures var incoming := if Truthy(cookie) then cookie else body;
      r.Ok? <==>
        && Truthy(incoming)
        && verdict.Accepted? && verdict.userId.Some?
        && FindUser(s.users, verdict.userId.value).Some?
        && s.users[FindUser(s.users, verdict.userId.value).value].refreshToken == Some(incoming.value)
    ensures r.Ok? ==> r == IssueTokens(s, verdict.userId.value, issued) && r.value.1 == issued
    ensures r.Err? ==> StatusOf(r.failure) == 401
    ensures r.Err? && verdict.Rejected? && verdict.message != "" && Truthy(if Truthy(cookie) then cookie else body) ==>
      r.failure.message == verdict.message
  {
    var b := RefreshBody(s, cookie, body, verdict, issued);
    if b.Err? then Err(Rethrow401(b.failure))
    else
      assert FindUser(s.users, s.users[FindUser(s.users, verdict.userId.value).value].id)
          == FindUser(s.users, verdict.userId.value);
      b
  }

  /** The session after logout: no refresh token of the user's is accepted
      any more, given that logout clears the stored token as modelled. If
      the driver dropped the `$set` of `undefined` instead, the old token
      would stay stored and still buy a refresh. */
  lemma LogoutEndsSession(s: Db, caller: Id, cookie: Option<string>, body: Option<string>, issued: Tokens)
    requires FindUser(s.users, caller).Some?
    ensures RefreshAccessToken(LogoutUser(s, caller), cookie, body, Accepted(Some(caller)), issued).Err?
  {
    var i := FindUser(s.users, caller).value;
    SetUserKeepsLookups(s, i, s.users[i].(refreshToken := None), caller);
  }

  /** A refresh rotates the token: the token just used is refused from then
      on, as long as the new token differs. Verifying the old token again
      either fails or names the same user, since the id is part of what the
      token signs. */
  lemma RotatedTokenRefused(s: Db, t: string, uid: Id, issued: Tokens, verdict2: JwtVerdict, issued2: Tokens)
    requires t != "" && issued.refreshToken != t
    requires RefreshAccessToken(s, Some(t), None, Accepted(Some(uid)), issued).Ok?
    requires verdict2.Accepted? ==> verdict2.userId == Some(uid)
    ensures var s1 := RefreshAccessToken(s, Some(t), None, Accepted(Some(uid)), issued).value.0;
      RefreshAccessToken(s1, Some(t), None, verdict2, issued2).Err?
  {
    var s1 := RefreshAccessToken(s, Some(t), None, Accepted(Some(uid)), issued).value.0;
    IssuedTokenStored(s, uid, issued);
  }

  /** After a login, the refresh token it issued buys a new pair. */
  lemma LoginThenRefresh(s: Db, key: string, password: string, issued: Tokens, issued2: Tokens)
    requires key != "" && password != "" && issued.refreshToken != ""
    requires FindLogin(s.users, key).Some?
    ensures var uid := s.users[FindLogin(s.users, key).value].id;
      var s1 := LoginUser(s, Some(key), Some(password), true, issued).value.db;
      RefreshAccessToken(s1, Some(issued.refreshToken), None, Accepted(Some(uid)), issued2).Ok?
  {
    LoginStoresToken(s, key, password, issued);
  }

  // ---- changePassword ----

  /** `changePassword`: 401 when the caller is not a user, 400 when the old
      password does not match, otherwise the password is replaced. */
  function ChangePassword(s: Db, caller: Id, oldPasswordMatches: bool, newPassword: string): (r: Result<Db>)
    ensures FindUser(s.users, caller).None? ==> r == Err(UnauthorizedRequest)
    ensures FindUser(s.users, caller).Some? && !oldPasswordMatches ==> r == Err(WrongOldPassword)
    ensures FindUser(s.users, caller).Some? && oldPasswordMatches ==>
      var i := FindUser(s.users, caller).value;
      && r.Ok?
      && |r.value.users| == |s.users|
      && r.value.users[i].password == newPassword
      && r.value.users[i].(password := s.users[i].password) == s.users[i]
      && r.value == s.(users := s.users[i := r.value.users[i]])
  {
    match FindUser(s.users, caller)
    case None => Err(UnauthorizedRequest)
    case Some(i) =>
      if !oldPasswordMatches then Err(WrongOldPassword)
      else Ok(SetUser(s, i, s.users[i].(password := newPassword)))
  }

  /** A password change revokes no session: a refresh that would succeed
      before the change succeeds after it, with the same outcome for the
      tokens. */
  lemma ChangePasswordKeepsSession(s: Db, caller: Id, newPassword: string,
                                   cookie: Option<string>, body: Option<string>, verdict: JwtVerdict, issued: Tokens)
    requires ChangePassword(s, caller, true, newPassword).Ok?
    ensures var s1 := ChangePassword(s, caller, true, newPassword).value;
      && (RefreshAccessToken(s1, cookie, body, verdict, issued).Ok? <==> RefreshAccessToken(s, cookie, body, verdict, issued).Ok?)
      && (RefreshAccessToken(s1, cookie, body, verdict, issued).Ok? ==>
            RefreshAccessToken(s1, cookie, body, verdict, issued).value.1 == issued)
  {
    var i := FindUser(s.users, caller).value;
    if verdict.Accepted? && verdict.userId.Some? {
      SetUserKeepsLookups(s, i, s.users[i].(password := newPassword), verdict.userId.value);
    }
  }

  // ---- updateAccountDetails ----

  /** `updateAccountDetails`: 400 when neither name nor email is given;
      each is replaced only by a truthy value. */
  function UpdateAccountDetails(s: Db, caller: Id, fullName: Option<string>, email: Option<string>): (r: Result<(Db, User)>)
    ensures !Truthy(fullName) && !Truthy(email) ==> r == Err(NoAccountChange)
    ensures (Truthy(fullName) || Truthy(email)) && FindUser(s.users, caller).None? ==> r == Err(NullDereference)
    ensures (Truthy(fullName) || Truthy(email)) && FindUser(s.users, caller).Some? ==>
      var i := FindUser(s.users, caller).value;
      var u := s.users[i];
      && r.Ok?
      && r.value.1.fullName == (if Truthy(fullName) then fullName.value else u.fullName)
      && r.value.1.email == (if Truthy(email) then email.value else u.email)
      && r.value.1.(fullName := u.fullName, email := u.email) == u
      && r.value.0 == s.(users := s.users[i := r.value.1])
  {
    if !Truthy(fullName) && !Truthy(email) then Err(NoAccountChange)
    else
      match FindUser(s.users, caller)
      case None => Err(NullDereference)
      case Some(i) =>
        var u := s.users[i].(fullName := OrElse(fullName, s.users[i].fullName), email := OrElse(email, s.users[i].email));
        Ok((SetUser(s, i, u), u))
  }

  /** Sending the same details again changes nothing further. */
  lemma UpdateAccountDetailsIdempotent(s: Db, caller: Id, fullName: Option<string>, email: Option<string>)
    requires UpdateAccountDetails(s, caller, fullName, email).Ok?
    ensures var (s1, u1) := UpdateAccountDetails(s, caller, fullName, email).value;
      UpdateAccountDetails(s1, caller, fullName, email) == Ok((s1, u1))
  {
    var i := FindUser(s.users, caller).value;
    var (s1, u1) := UpdateAccountDetails(s, caller, fullName, email).value;
    assert s1.users[i := u1] == s1.users;
  }

  // ---- updateUserImages ----

  /** The image part of the request: whether each file was sent, and for a
      sent file what its upload gave back (a URL, or `None` for a failed
      upload). */
  datatype ImageRequest = ImageRequest(avatarFile: bool, avatarUpload: Option<string>,
                                       coverFile: bool, coverUpload: Option<string>)

  /** The upload result the controller holds for each image: nothing when
      no file was sent. */
  function AvatarResult(q: ImageRequest): Option<string>
  {
    if q.avatarFile then q.avatarUpload else None
  }

  function CoverResult(q: ImageRequest): Option<string>
  {
    if q.coverFile then q.coverUpload else None
  }

  /** The previous images whose deletion is requested: an image's previous
      file is deleted exactly when its new upload succeeded. */
  function ImagesToDelete(u: User, q: ImageRequest): (r: seq<string>)
    ensures |r| == (if AvatarResult(q).Some? then 1 else 0) + (if CoverResult(q).Some? then 1 else 0)
    ensures AvatarResult(q).Some? ==> r[0] == u.avatar
    ensures CoverResult(q).Some? ==> r[|r| - 1] == u.coverImage
    ensures forall x :: x in r ==> (x == u.avatar && AvatarResult(q).Some?) || (x == u.coverImage && CoverResult(q).Some?)
  {
    var a := AvatarResult(q);
    var c := CoverResult(q);
    if a.Some? && c.Some? then [u.avatar, u.coverImage]
    else if a.Some? then [u.avatar]
    else if c.Some? then [u.coverImage]
    else []
  }

  /** The failure for a delete the media service did not acknowledge,
      depending on which images were being replaced. */
  function DeleteFailure(q: ImageRequest): Failure
  {
    var a := AvatarResult(q);
    var c := CoverResult(q);
    if a.Some? && c.Some? then BothDeleteFailed
    else if a.Some? then AvatarDeleteFailed
    else CoverDeleteFailed
  }

  datatype ImagesUpdated = ImagesUpdated(db: Db, user: PublicUser, deletedIds: seq<string>)

  /** `updateUserImages`. `deleteAcknowledged` is whether the media service
      answered the delete request. 401 without a user, 400 without any image
      file; a delete that is not acknowledged fails with the 500 that names
      the images concerned. Each stored URL becomes the new upload's URL when
      it is truthy and stays as it was otherwise; the answer is the updated
      user without password and refresh token. */
  function UpdateUserImages(s: Db, caller: Id, q: ImageRequest, deleteAcknowledged: bool): (r: Result<ImagesUpdated>)
    ensures FindUser(s.users, caller).None? ==> r == Err(UnauthorizedRequest)
    ensures FindUser(s.users, caller).Some? && !q.avatarFile && !q.coverFile ==> r == Err(NoImage)
    ensures FindUser(s.users, caller).Some? && (q.avatarFile || q.coverFile) ==>
      var i := FindUser(s.users, caller).value;
      var u := s.users[i];
      var doomed := ImagesToDelete(u, q);
      && (|doomed| > 0 && !deleteAcknowledged ==> r == Err(DeleteFailure(q)) && StatusOf(r.failure) == 500)
      && ((|doomed| == 0 || deleteAcknowledged) ==>
            && r.Ok?
            && |r.value.db.users| == |s.users|
            && var u' := r.value.db.users[i];
            && u'.avatar == OrElse(AvatarResult(q), u.avatar)
            && u'.coverImage == OrElse(CoverResult(q), u.coverImage)
            && u'.(avatar := u.avatar, coverImage := u.coverImage) == u
            && r.value.db == s.(users := s.users[i := u'])
            && r.value.user == PublicView(u')
            && r.value.deletedIds == PublicIds(doomed))
  {
    match FindUser(s.users, caller)
    case None => Err(UnauthorizedRequest)
    case Some(i) =>
      if !q.avatarFile && !q.coverFile then Err(NoImage)
      else
        var u := s.users[i];
        var doomed := ImagesToDelete(u, q);
        if |doomed| > 0 && !deleteAcknowledged then Err(DeleteFailure(q))
        else
          var u' := u.(avatar := OrElse(AvatarResult(q), u.avatar), coverImage := OrElse(CoverResult(q), u.coverImage));
          Ok(ImagesUpdated(SetUser(s, i, u'), PublicView(u'), PublicIds(doomed)))
  }

  /** When every upload that was attempted failed, nothing is deleted and
      the stored images stay as they were. */
  lemma FailedUploadsKeepImages(s: Db, caller: Id, q: ImageRequest, ack: bool)
    requires FindUser(s.users, caller).Some? && (q.avatarFile || q.coverFile)
    requires AvatarResult(q).None? && CoverResult(q).None?
    ensures var r := UpdateUserImages(s, caller, q, ack);
      && r.Ok? && r.value.deletedIds == [] && r.value.db == s
  {
    var i := FindUser(s.users, caller).value;
    assert s.users[i := s.users[i]] == s.users;
  }

  /** An avatar-only change deletes only the previous avatar and keeps the
      cover image. */
  lemma AvatarOnlyChange(s: Db, caller: Id, url: string)
    requires FindUser(s.users, caller).Some? && url != ""
    ensures var u := s.users[FindUser(s.users, caller).value];
      var r := UpdateUserImages(s, caller, ImageRequest(true, Some(url), false, None), true);
      && r.Ok?
      && r.value.deletedIds == [PublicId(u.avatar)]
      && r.value.user.avatar == url
      && r.value.user.coverImage == u.coverImage
  {
  }

  // ---- getUserChannelProfile ----

  datatype ChannelProfile = ChannelProfile(
    id: Id,
    fullName: string,
    username: string,
    subscribersCount: nat,
    channelsSubscribedToCount: nat,
    isSubscribed: bool,
    avatar: string,
    coverImage: string,
    email: string)

  function ProfileOf(s: Db, viewer: Id, u: User): (r: ChannelProfile)
    ensures r.id == u.id && r.username == u.username
    ensures r.subscribersCount == SubscribersOf(s.subscriptions, u.id)
    ensures r.channelsSubscribedToCount == SubscribedTo(s.subscriptions, u.id)
    ensures r.isSubscribed <==> IsSubscribed(s.subscriptions, viewer, u.id)
  {
    ChannelProfile(u.id, u.fullName, u.username, SubscribersOf(s.subscriptions, u.id),
                   SubscribedTo(s.subscriptions, u.id), IsSubscribed(s.subscriptions, viewer, u.id),
                   u.avatar, u.coverImage, u.email)
  }

  /** The stored username a handle is looked up by: trimmed, lower-cased. */
  function Handle(username: string): string
  {
    ToLower(Trim(username))
  }

  /** The first user whose stored username is `name`. */
  function FindHandle(users: seq<User>, name: string): Option<nat>
  {
    IndexWhere(users, (u: User) => u.username == name)
  }

  /** `getUserChannelProfile`: 400 for a blank handle, 404 when no user has
      the trimmed, lower-cased handle, otherwise the first such user's
      profile with the subscription figures. */
  function GetUserChannelProfile(s: Db, viewer: Id, username: string): (r: Result<ChannelProfile>)
    ensures Trim(username) == "" ==> r == Err(HandleMissing)
    ensures Trim(username) != "" ==>
      && (r.Ok? <==> exists u :: u in s.users && u.username == Handle(username))
      && (r.Err? ==> r == Err(ChannelMissing))
      && (r.Ok? ==> r.value.username == Handle(username))
      && (r.Ok? ==> FirstUnder(s, viewer, Handle(username), r.value))
  {
    if Trim(username) == "" then Err(HandleMissing)
    else ProfileByHandle(s, viewer, Handle(username))
  }

  /** `p` is the profile of the first user, in collection order, stored
      under `name` (`channel[0]` of the aggregation). */
  predicate FirstUnder(s: Db, viewer: Id, name: string, p: ChannelProfile)
  {
    exists i :: && 0 <= i < |s.users| && s.users[i].username == name
                && (forall j :: 0 <= j < i ==> s.users[j].username != name)
                && p == ProfileOf(s, viewer, s.users[i])
  }

  /** The profile of the first user stored under `name`. */
  function ProfileByHandle(s: Db, viewer: Id, name: string): (r: Result<ChannelProfile>)
    ensures r.Ok? <==> exists u :: u in s.users && u.username == name
    ensures r.Err? ==> r == Err(ChannelMissing)
    ensures r.Ok? ==> r.value.username == name && FirstUnder(s, viewer, name, r.value)
  {
    match FindHandle(s.users, name)
    case None => Err(ChannelMissing)
    case Some(i) =>
      assert s.users[i] in s.users;
      Ok(ProfileOf(s, viewer, s.users[i]))
  }

  /** Padding around the handle does not matter. */
  lemma HandleIgnoresPadding(s: Db, viewer: Id, username: string)
    ensures GetUserChannelProfile(s, viewer, Trim(username)) == GetUserChannelProfile(s, viewer, username)
  {
    PaddingKeepsHandle(username);
  }

  lemma PaddingKeepsHandle(username: string)
    ensures Handle(Trim(username)) == Handle(username)
    ensures Trim(Trim(username)) == "" <==> Trim(username) == ""
  {
    TrimIdempotent(username);
  }

  /** Letter case in the handle does not matter. */
  lemma HandleIgnoresCase(s: Db, viewer: Id, username: string)
    ensures GetUserChannelProfile(s, viewer, ToLower(username)) == GetUserChannelProfile(s, viewer, username)
  {
    LowerKeepsHandle(username);
  }

  lemma LowerKeepsHandle(username: string)
    ensures Handle(ToLower(username)) == Handle(username)
    ensures Trim(ToLower(username)) == "" <==> Trim(username) == ""
  {
    TrimOfLower(username);
    var t := Trim(username);
    ToLowerIdempotent(t);
    assert Trim(ToLower(username)) == ToLower(t);
    assert |ToLower(t)| == |t|;
  }

  /** Lower-casing and trimming commute: the white space trimmed is not
      affected by lower-casing. */
  lemma TrimOfLower(s: string)
    ensures Trim(ToLower(s)) == ToLower(Trim(s))
    ensures ToLower(ToLower(s)) == ToLower(s)
  {
    LowerTrimStart(s);
    var t := TrimStart(s);
    LowerTrimEnd(t);
  }

  lemma {:induction false} LowerTrimStart(s: string)
    ensures TrimStart(ToLower(s)) == ToLower(TrimStart(s))
    decreases |s|
  {
    if |s| > 0 {
      assert ToLower(s)[1..] == ToLower(s[1..]);
      assert IsSpace(s[0]) <==> IsSpace(ToLower(s)[0]);
      LowerTrimStart(s[1..]);
    }
  }

  lemma {:induction false} LowerTrimEnd(s: string)
    ensures TrimEnd(ToLower(s)) == ToLower(TrimEnd(s))
    decreases |s|
  {
    if |s| > 0 {
      assert ToLower(s)[..|s| - 1] == ToLower(s[..|s| - 1]);
      assert IsSpace(s[|s| - 1]) <==> IsSpace(ToLower(s)[|s| - 1]);
      LowerTrimEnd(s[..|s| - 1]);
    }
  }

  /** The profile's subscriber figures agree with the subscription
      listings. */
  lemma ProfileAgreesWithSubscriptions(s: Db, viewer: Id, username: string)
    requires GetUserChannelProfile(s, viewer, username).Ok?
    ensures var p := GetUserChannelProfile(s, viewer, username).value;
      && p.subscribersCount == Count(s.subscriptions, (x: Subscription) => x.channel == p.id)
      && p.channelsSubscribedToCount == Count(s.subscriptions, (x: Subscription) => x.subscriber == p.id)
      && (p.isSubscribed ==> p.subscribersCount >= 1)
  {
    var p := GetUserChannelProfile(s, viewer, username).value;
    if p.isSubscribed {
      SubscribedImpliesCounted(s.subscriptions, viewer, p.id);
    }
  }
}

=== FILE: videos.dfy ===
/** The video controller: publish toggle, field update, delete, the detail
    view with its view counting, and the paged listing. */
module Videos {
  import opened Wrappers
  import opened Seqs
  import opened Records
  import opened Paging
  import opened Ownership
  import opened Assets
  import opened Text

  const VideoNotFound := ApiError(404, "Video not found")
  const NothingToUpdate := ApiError(400, "Atlest one field needs to be given to be updated")
  const ThumbnailUploadFailed := ApiError(500, "Error while uploading new thumbnail to cloudinary")

  /** Reading a field of the `null` a failed `findById` returns. */
  const NullDereference := Thrown("TypeError")

  // ---- togglePublishStatus ----

  /** 404 when no video has the id, 401 unless the caller owns the first
      video with it, else that video is saved with `isPublished` negated and
      returned. */
  function TogglePublishStatus(s: Db, caller: Id, videoId: Id): (r: Result<(Db, Video)>)
    ensures FindVideo(s.videos, videoId).None? ==> r == Err(VideoNotFound)
    ensures FindVideo(s.videos, videoId).Some? ==>
      var i := FindVideo(s.videos, videoId).value;
      var v := s.videos[i];
      && (v.owner != caller ==> r == Err(Unauthorized))
      && (v.owner == caller ==>
            && r.Ok?
            && r.value.1.isPublished == !v.isPublished
            && r.value.1.(isPublished := v.isPublished) == v
            && r.value.0 == s.(videos := s.videos[i := r.value.1]))
  {
    match FindVideo(s.videos, videoId)
    case None => Err(VideoNotFound)
    case Some(i) =>
      var v := s.videos[i];
      match VerifyOwner(caller, v.owner)
      case Some(e) => Err(e)
      case None =>
        var v' := v.(isPublished := !v.isPublished);
        Ok((s.(videos := s.videos[i := v']), v'))
  }

  /** Toggling the publish flag twice gives back the original database. */
  lemma TogglePublishTwice(s: Db, caller: Id, videoId: Id)
    requires TogglePublishStatus(s, caller, videoId).Ok?
    ensures var s1 := TogglePublishStatus(s, caller, videoId).value.0;
      TogglePublishStatus(s1, caller, videoId) == Ok((s, s.videos[FindVideo(s.videos, videoId).value]))
  {
    var i := FindVideo(s.videos, videoId).value;
    var s1 := TogglePublishStatus(s, caller, videoId).value.0;
    assert forall j :: 0 <= j < |s.videos| ==> s1.videos[j].id == s.videos[j].id;
    assert FindVideo(s1.videos, videoId) == Some(i) by {
      var p := (v: Video) => v.id == videoId;
      assert p(s1.videos[i]);
      assert forall j :: 0 <= j < i ==> !p(s1.videos[j]);
    }
    assert s1.videos[i := s.videos[i]] == s.videos;
  }

  // ---- updateVideo ----

  /** The new field values an update request carries: `title` and
      `description` from the body, and whether a thumbnail file came with it. */
  datatype VideoEdit = VideoEdit(title: Option<string>, description: Option<string>, newThumbnail: bool)

  predicate GivesSomething(e: VideoEdit)
  {
    Truthy(e.title) || Truthy(e.description) || e.newThumbnail
  }

  /** A successful update: the new database, the saved video, and the public
      ids the media service was asked to delete. */
  datatype Updated = Updated(db: Db, video: Video, deletedIds: seq<string>)

  /** `upload` is what uploading the new thumbnail gave back: the URL of the
      uploaded asset, or `None` for the `null` a failed upload returns. It is
      only consulted when a thumbnail file was sent. */
  function UpdateVideo(s: Db, caller: Id, videoId: Id, e: VideoEdit, upload: Option<string>): (r: Result<Updated>)
    ensures !GivesSomething(e) ==> r == Err(NothingToUpdate)
    ensures GivesSomething(e) && FindVideo(s.videos, videoId).None? ==> r == Err(NullDereference)
    ensures GivesSomething(e) && FindVideo(s.videos, videoId).Some? ==>
      var i := FindVideo(s.videos, videoId).value;
      var v := s.videos[i];
      && (v.owner != caller ==> r == Err(Unauthorized))
      && (v.owner == caller && e.newThumbnail && upload.None? ==> r == Err(ThumbnailUploadFailed))
      && (v.owner == caller && (!e.newThumbnail || upload.Some?) ==>
            && r.Ok?
            && r.value.db == s.(videos := s.videos[i := r.value.video])
            && r.value.video.title == (if Truthy(e.title) then e.title.value else v.title)
            && r.value.video.description == (if Truthy(e.description) then e.description.value else v.description)
            && r.value.video.thumbnail == (if e.newThumbnail then upload.value else v.thumbnail)
            && r.value.deletedIds == (if e.newThumbnail then [PublicId(v.thumbnail)] else [])
            && r.value.video.(title := v.title, description := v.description, thumbnail := v.thumbnail) == v)
    ensures r.Err? ==> StatusOf(r.failure) in {400, 401, 500}
  {
    if !GivesSomething(e) then Err(NothingToUpdate)
    else
      match FindVideo(s.videos, videoId)
      case None => Err(NullDereference)
      case Some(i) =>
        var v := s.videos[i];
        match VerifyOwner(caller, v.owner)
        case Some(err) => Err(err)
        case None =>
          var edited := v.(title := OrElse(e.title, v.title), description := OrElse(e.description, v.description));
          if !e.newThumbnail then
            Ok(Updated(s.(videos := s.videos[i := edited]), edited, []))
          else if upload.None? then Err(ThumbnailUploadFailed)
          else
            var saved := edited.(thumbnail := upload.value);
            Ok(Updated(s.(videos := s.videos[i := saved]), saved, PublicIds([v.thumbnail])))
  }

  /** An update without a thumbnail, applied a second time, changes nothing
      more and deletes nothing. */
  lemma UpdateTextIdempotent(s: Db, caller: Id, videoId: Id, e: VideoEdit, upload: Option<string>)
    requires !e.newThumbnail
    requires UpdateVideo(s, caller, videoId, e, upload).Ok?
    ensures var u := UpdateVideo(s, caller, videoId, e, upload).value;
      UpdateVideo(u.db, caller, videoId, e, upload) == Ok(Updated(u.db, u.video, []))
  {
    var i := FindVideo(s.videos, videoId).value;
    var u := UpdateVideo(s, caller, videoId, e, upload).value;
    assert forall j :: 0 <= j < |s.videos| ==> u.db.videos[j].id == s.videos[j].id;
    assert FindVideo(u.db.videos, videoId) == Some(i) by {
      var p := (v: Video) => v.id == videoId;
      assert p(u.db.videos[i]);
      assert forall j :: 0 <= j < i ==> !p(u.db.videos[j]);
    }
    assert u.db.videos[i := u.video] == u.db.videos;
  }

  // ---- deleteVideo ----

  /** A successful delete: the new database and the public ids of the
      thumbnail and of the video file the media service was asked to delete. */
  datatype Deleted = Deleted(db: Db, deletedIds: seq<string>)

  /** 404 when no video has the id, 401 unless the caller owns it, else the
      video document is removed and its two assets are deleted. */
  function DeleteVideo(s: Db, caller: Id, videoId: Id): (r: Result<Deleted>)
    ensures FindVideo(s.videos, videoId).None? ==> r == Err(VideoNotFound)
    ensures FindVideo(s.videos, videoId).Some? ==>
      var i := FindVideo(s.videos, videoId).value;
      var v := s.videos[i];
      && (v.owner != caller ==> r == Err(Unauthorized))
      && (v.owner == caller ==>
            && r.Ok?
            && r.value.db == s.(videos := RemoveAt(s.videos, i))
            && r.value.deletedIds == [PublicId(v.thumbnail), PublicId(v.videoFile)])
  {
    match FindVideo(s.videos, videoId)
    case None => Err(VideoNotFound)
    case Some(i) =>
      var v := s.videos[i];
      match VerifyOwner(caller, v.owner)
      case Some(e) => Err(e)
      case None =>
        var ids := PublicIds([v.thumbnail]) + [PublicId(v.videoFile)];
        assert ids == [PublicId(v.thumbnail), PublicId(v.videoFile)] by { PublicIdsOne(v.thumbnail); }
        Ok(Deleted(s.(videos := RemoveAt(s.videos, i)), ids))
  }

  /** Deleting a video removes that one document and nothing else: the likes
      and comments that reference it stay behind, still counted. */
  lemma DeleteLeavesReferences(s: Db, caller: Id, videoId: Id)
    requires DeleteVideo(s, caller, videoId).Ok?
    ensures var d := DeleteVideo(s, caller, videoId).value.db;
      && |d.videos| == |s.videos| - 1
      && multiset(d.videos) == multiset(s.videos) - multiset{s.videos[FindVideo(s.videos, videoId).value]}
      && d.likes == s.likes && d.comments == s.comments
      && d.users == s.users && d.tweets == s.tweets
      && d.subscriptions == s.subscriptions && d.playlists == s.playlists
      && LikesOn(d.likes, OnVideo(videoId)) == LikesOn(s.likes, OnVideo(videoId))
  {
  }

  // ---- getVideoById ----

  /** The owner as the detail view shows it: the projected user fields and
      the two subscription figures. */
  datatype OwnerInfo = OwnerInfo(id: Id, fullName: string, avatar: string, subscribersCount: nat, isSubscribed: bool)

  datatype VideoDetail = VideoDetail(
    id: Id,
    videoFile: string,
    thumbnail: string,
    owner: Option<OwnerInfo>,
    title: string,
    description: string,
    views: nat,
    likesCount: nat)

  /** The owner lookup of the detail pipeline: the first user with the
      owner's id, with the subscriptions to that user counted and searched
      for the viewer. */
  function OwnerInfoOf(s: Db, viewer: Id, owner: Id): (r: Option<OwnerInfo>)
    ensures r.Some? <==> FindUser(s.users, owner).Some?
    ensures r.Some? ==>
      && r.value.id == owner
      && r.value.subscribersCount == SubscribersOf(s.subscriptions, owner)
      && (r.value.isSubscribed <==> IsSubscribed(s.subscriptions, viewer, owner))
  {
    match FindUser(s.users, owner)
    case None => None
    case Some(i) =>
      var u := s.users[i];
      Some(OwnerInfo(u.id, u.fullName, u.avatar, SubscribersOf(s.subscriptions, u.id),
                     IsSubscribed(s.subscriptions, viewer, u.id)))
  }

  function DetailOf(s: Db, viewer: Id, v: Video): (r: VideoDetail)
    ensures r.id == v.id && r.views == v.views
    ensures r.likesCount == LikesOn(s.likes, OnVideo(v.id))
    ensures r.owner == OwnerInfoOf(s, viewer, v.owner)
  {
    VideoDetail(v.id, v.videoFile, v.thumbnail, OwnerInfoOf(s, viewer, v.owner), v.title, v.description,
                v.views, LikesOn(s.likes, OnVideo(v.id)))
  }

  /** The aggregation result: one detail per video with the id (none when
      there is no such video), whether or not it is published. */
  function Details(s: Db, viewer: Id, videoId: Id): (r: seq<VideoDetail>)
    ensures var matching := Filter(s.videos, (v: Video) => v.id == videoId);
      && |r| == |matching|
      && forall k :: 0 <= k < |r| ==> r[k] == DetailOf(s, viewer, matching[k])
  {
    var matching := Filter(s.videos, (v: Video) => v.id == videoId);
    seq(|matching|, k requires 0 <= k < |matching| => DetailOf(s, viewer, matching[k]))
  }

  /** `$inc: { views: 1 }` on the first video with the id, if any. */
  function BumpViews(videos: seq<Video>, videoId: Id): (r: seq<Video>)
    ensures |r| == |videos|
    ensures forall j :: 0 <= j < |r| ==> r[j].(views := videos[j].views) == videos[j]
    ensures FindVideo(videos, videoId).None? ==> r == videos
    ensures FindVideo(videos, videoId).Some? ==>
      var i := FindVideo(videos, videoId).value;
      && r[i].views == videos[i].views + 1
      && forall j :: 0 <= j < |r| && j != i ==> r[j] == videos[j]
  {
    match FindVideo(videos, videoId)
    case None => videos
    case Some(i) => videos[i := videos[i].(views := videos[i].views + 1)]
  }

  /** The view bookkeeping after the lookup, as persisted. A viewer who is
      not a user makes it read a field of `null`. A first view (the id is not
      in the viewer's history) adds one view to the video and saves the
      history with the id in front. A repeat view reorders the history in
      memory only, so the database is left as it was. */
  function RecordView(s: Db, viewer: Id, videoId: Id): (r: Result<Db>)
    ensures FindUser(s.users, viewer).None? ==> r == Err(NullDereference)
    ensures FindUser(s.users, viewer).Some? ==>
      var i := FindUser(s.users, viewer).value;
      var u := s.users[i];
      && r.Ok?
      && (videoId in u.watchHistory ==> r.value == s)
      && (videoId !in u.watchHistory ==>
            r.value == s.(videos := BumpViews(s.videos, videoId),
                          users := s.users[i := u.(watchHistory := [videoId] + u.watchHistory)]))
  {
    match FindUser(s.users, viewer)
    case None => Err(NullDereference)
    case Some(i) =>
      var u := s.users[i];
      if videoId !in u.watchHistory then
        Ok(s.(videos := BumpViews(s.videos, videoId),
              users := s.users[i := u.(watchHistory := [videoId] + u.watchHistory)]))
      else Ok(s)
  }

  /** `getVideoById`: the detail list (views as they were before this
      request) and the database after the view was recorded. */
  function GetVideoById(s: Db, viewer: Id, videoId: Id): (r: Result<(Db, seq<VideoDetail>)>)
    ensures r.Ok? <==> FindUser(s.users, viewer).Some?
    ensures r.Err? ==> r.failure == NullDereference
    ensures r.Ok? ==>
      && r.value.0 == RecordView(s, viewer, videoId).value
      && r.value.1 == Details(s, viewer, videoId)
      && (forall d :: d in r.value.1 ==> d.id == videoId && d.likesCount == LikesOn(s.likes, OnVideo(videoId)))
  {
    var details := Details(s, viewer, videoId);
    var matching := Filter(s.videos, (v: Video) => v.id == videoId);
    assert forall k :: 0 <= k < |matching| ==> matching[k] in matching;
    var s' :- RecordView(s, viewer, videoId);
    Ok((s', details))
  }

  /** The viewer's user document after a recorded view. */
  lemma ViewerAfterView(s: Db, viewer: Id, videoId: Id)
    requires RecordView(s, viewer, videoId).Ok?
    ensures var i := FindUser(s.users, viewer).value;
      var s1 := RecordView(s, viewer, videoId).value;
      && |s1.users| == |s.users|
      && FindUser(s1.users, viewer) == Some(i)
      && videoId in s1.users[i].watchHistory
  {
    var i := FindUser(s.users, viewer).value;
    var s1 := RecordView(s, viewer, videoId).value;
    assert forall j :: 0 <= j < |s.users| ==> s1.users[j].id == s.users[j].id;
    var p := (u: User) => u.id == viewer;
    assert p(s1.users[i]);
    assert forall j :: 0 <= j < i ==> !p(s1.users[j]);
  }

  /** Viewing the same video again changes nothing: each (viewer, video)
      pair adds at most one view while the id stays in the history. */
  lemma SecondViewChangesNothing(s: Db, viewer: Id, videoId: Id)
    requires RecordView(s, viewer, videoId).Ok?
    ensures var s1 := RecordView(s, viewer, videoId).value;
      RecordView(s1, viewer, videoId) == Ok(s1)
  {
    ViewerAfterView(s, viewer, videoId);
  }

  /** A first view adds exactly one view to the first video with the id and
      leaves every other video alone; a repeat view adds none. */
  lemma ViewsRiseOnce(s: Db, viewer: Id, videoId: Id)
    requires RecordView(s, viewer, videoId).Ok?
    requires FindVideo(s.videos, videoId).Some?
    ensures var k := FindVideo(s.videos, videoId).value;
      var u := s.users[FindUser(s.users, viewer).value];
      var s1 := RecordView(s, viewer, videoId).value;
      && s1.videos[k].views == s.videos[k].views + (if videoId in u.watchHistory then 0 else 1)
      && forall j :: 0 <= j < |s.videos| && j != k ==> s1.videos[j] == s.videos[j]
  {
  }

  /** The persisted history never holds an id twice. */
  lemma HistoryStaysDuplicateFree(s: Db, viewer: Id, videoId: Id)
    requires RecordView(s, viewer, videoId).Ok?
    requires NoDuplicates(s.users[FindUser(s.users, viewer).value].watchHistory)
    ensures var i := FindUser(s.users, viewer).value;
      NoDuplicates(RecordView(s, viewer, videoId).value.users[i].watchHistory)
  {
    var i := FindUser(s.users, viewer).value;
    var h := s.users[i].watchHistory;
    if videoId !in h {
      var h' := [videoId] + h;
      forall a, b | 0 <= a < b < |h'| ensures h'[a] != h'[b] {
        assert h'[b] == h[b - 1];
        if a > 0 { assert h'[a] == h[a - 1]; } else { assert h[b - 1] in h; }
      }
    }
  }

  // ---- the intended view bookkeeping ----

  /** The repeat-view branch as its in-memory steps describe it: the id's
      first occurrence is taken out and the id is put in front. */
  function MoveToFront(h: seq<Id>, videoId: Id): (r: seq<Id>)
    requires videoId in h
    ensures |r| == |h| && r[0] == videoId
    ensures multiset(r) == multiset(h)
  {
    var k := IndexWhere(h, (x: Id) => x == videoId).value;
    [videoId] + RemoveAt(h, k)
  }

  /** The view bookkeeping with the reordered history of a repeat view
      saved, which the in-memory reorder evidently intends. */
  function RecordViewSaved(s: Db, viewer: Id, videoId: Id): (r: Result<Db>)
    ensures r.Ok? <==> FindUser(s.users, viewer).Some?
    ensures r.Ok? ==>
      var i := FindUser(s.users, viewer).value;
      var u := s.users[i];
      && |r.value.users| == |s.users|
      && |r.value.users[i].watchHistory| > 0 && r.value.users[i].watchHistory[0] == videoId
      && (videoId in u.watchHistory ==>
            r.value == s.(users := s.users[i := u.(watchHistory := MoveToFront(u.watchHistory, videoId))]))
      && (videoId !in u.watchHistory ==> r.value == RecordView(s, viewer, videoId).value)
  {
    match FindUser(s.users, viewer)
    case None => Err(NullDereference)
    case Some(i) =>
      var u := s.users[i];
      if videoId !in u.watchHistory then RecordView(s, viewer, videoId)
      else Ok(s.(users := s.users[i := u.(watchHistory := MoveToFront(u.watchHistory, videoId))]))
  }

  /** With the reorder saved, the history keeps the same ids. */
  lemma MoveToFrontKeepsIds(h: seq<Id>, videoId: Id)
    requires videoId in h
    ensures forall x :: x in MoveToFront(h, videoId) <==> x in h
  {
    var r := MoveToFront(h, videoId);
    assert multiset(r) == multiset(h);
    forall x ensures x in r <==> x in h {
      assert x in r <==> x in multiset(r);
    }
  }

  /** With the reorder saved, a duplicate-free history stays so. */
  lemma MoveToFrontNoDuplicates(h: seq<Id>, videoId: Id)
    requires videoId in h && NoDuplicates(h)
    ensures NoDuplicates(MoveToFront(h, videoId))
  {
    var k := IndexWhere(h, (x: Id) => x == videoId).value;
    var rest := RemoveAt(h, k);
    RemoveAtNoDuplicates(h, k);
    var r := [videoId] + rest;
    assert MoveToFront(h, videoId) == r;
    assert h[k] == videoId;
    forall a, b | 0 <= a < b < |r| ensures r[a] != r[b] {
      assert r[b] == rest[b - 1];
      if a > 0 {
        assert r[a] == rest[a - 1];
      }
    }
  }

  /** Under the as-written bookkeeping a repeat view leaves the saved
      history out of order: with history [1, 7], viewing 7 again keeps
      [1, 7], where the reorder puts 7 first. */
  lemma RepeatViewNotSaved()
    ensures var u := User(0, "u", "e", "n", "", "", "p", None, [1, 7], None);
      var s := Db([u], [], [], [], [], [], []);
      && RecordView(s, 0, 7) == Ok(s)
      && RecordViewSaved(s, 0, 7).value.users[0].watchHistory == [7, 1]
  {
    var u := User(0, "u", "e", "n", "", "", "p", None, [1, 7], None);
    var s := Db([u], [], [], [], [], [], []);
    assert FindUser(s.users, 0) == Some(0);
    var h: seq<Id> := [1, 7];
    IndexWhereAt(h, (x: Id) => x == 7, 1);
    assert RemoveAt(h, 1) == [1];
  }

  /** Every id in the viewer's history names a video. */
  predicate HistoryResolves(s: Db, viewer: Id)
  {
    FindUser(s.users, viewer).Some? &&
    forall x :: x in s.users[FindUser(s.users, viewer).value].watchHistory ==> FindVideo(s.videos, x).Some?
  }

  /** The detail view answering 404 when no video has the id, as its
      `if(!video)` check evidently intends, with the reorder saved. */
  function GetVideoByIdChecked(s: Db, viewer: Id, videoId: Id): (r: Result<(Db, seq<VideoDetail>)>)
    ensures FindVideo(s.videos, videoId).None? ==> r == Err(VideoNotFound)
    ensures FindVideo(s.videos, videoId).Some? ==> (r.Ok? <==> FindUser(s.users, viewer).Some?)
    ensures r.Ok? ==> |r.value.1| >= 1 && r.value.1 == Details(s, viewer, videoId)
    ensures r.Ok? ==> r.value.0 == RecordViewSaved(s, viewer, videoId).value
  {
    var details := Details(s, viewer, videoId);
    match FindVideo(s.videos, videoId)
    case None => Err(VideoNotFound)
    case Some(k) =>
      assert s.videos[k] in Filter(s.videos, (v: Video) => v.id == videoId);
      var s' :- RecordViewSaved(s, viewer, videoId);
      Ok((s', details))
  }

  /** With the check, a history whose ids all name videos keeps that
      property. */
  lemma CheckedViewKeepsHistoryResolved(s: Db, viewer: Id, videoId: Id)
    requires HistoryResolves(s, viewer)
    requires GetVideoByIdChecked(s, viewer, videoId).Ok?
    ensures HistoryResolves(GetVideoByIdChecked(s, viewer, videoId).value.0, viewer)
  {
    var u := s.users[FindUser(s.users, viewer).value];
    if videoId in u.watchHistory {
      RepeatViewKeepsResolved(s, viewer, videoId);
    } else {
      FirstViewKeepsResolved(s, viewer, videoId);
    }
  }

  /** A saved repeat view only reorders the history. */
  lemma RepeatViewKeepsResolved(s: Db, viewer: Id, videoId: Id)
    requires HistoryResolves(s, viewer)
    requires videoId in s.users[FindUser(s.users, viewer).value].watchHistory
    ensures RecordViewSaved(s, viewer, videoId).Ok?
    ensures HistoryResolves(RecordViewSaved(s, viewer, videoId).value, viewer)
  {
    var i := FindUser(s.users, viewer).value;
    var u := s.users[i];
    var s1 := s.(users := s.users[i := u.(watchHistory := MoveToFront(u.watchHistory, videoId))]);
    FindUserSameIds(s.users, s1.users, viewer);
    MoveToFrontKeepsIds(u.watchHistory, videoId);
  }

  /** A first view of an existing video puts a resolving id in front. */
  lemma FirstViewKeepsResolved(s: Db, viewer: Id, videoId: Id)
    requires HistoryResolves(s, viewer) && FindVideo(s.videos, videoId).Some?
    requires videoId !in s.users[FindUser(s.users, viewer).value].watchHistory
    ensures RecordViewSaved(s, viewer, videoId).Ok?
    ensures HistoryResolves(RecordViewSaved(s, viewer, videoId).value, viewer)
  {
    var i := FindUser(s.users, viewer).value;
    var u := s.users[i];
    var h := [videoId] + u.watchHistory;
    var s1 := s.(videos := BumpViews(s.videos, videoId), users := s.users[i := u.(watchHistory := h)]);
    assert RecordViewSaved(s, viewer, videoId).value == s1;
    FindUserSameIds(s.users, s1.users, viewer);
    forall x | x in h ensures FindVideo(s1.videos, x).Some? {
      FindVideoSameIds(s.videos, s1.videos, x);
    }
  }

  /** As written, a view of an id no video has still succeeds with an empty
      detail list and saves that id into the viewer's history. */
  lemma MissingVideoRecorded()
    ensures var u := User(0, "u", "e", "n", "", "", "p", None, [], None);
      var s := Db([u], [], [], [], [], [], []);
      && HistoryResolves(s, 0)
      && GetVideoById(s, 0, 9).Ok?
      && GetVideoById(s, 0, 9).value.1 == []
      && !HistoryResolves(GetVideoById(s, 0, 9).value.0, 0)
  {
    var u := User(0, "u", "e", "n", "", "", "p", None, [], None);
    var s := Db([u], [], [], [], [], [], []);
    assert FindUser(s.users, 0) == Some(0);
    var s1 := GetVideoById(s, 0, 9).value.0;
    assert FindUser(s1.users, 0) == Some(0);
    assert 9 in s1.users[0].watchHistory;
  }

  // ---- getVideos ----

  /** One `$search` hit: the matching video and its relevance score, both as
      the search index reports them. */
  datatype Hit = Hit(video: Video, score: real)

  predicate SortedByScore(hs: seq<Hit>)
  {
    forall a, b :: 0 <= a < b < |hs| ==> hs[a].score >= hs[b].score
  }

  function InsertByScore(h: Hit, hs: seq<Hit>): (r: seq<Hit>)
    requires SortedByScore(hs)
    ensures SortedByScore(r)
    ensures |r| == |hs| + 1
    ensures r[0] == h || (|hs| > 0 && r[0] == hs[0])
    decreases |hs|
  {
    if |hs| == 0 || h.score >= hs[0].score then
      var r := [h] + hs;
      assert forall b :: 1 <= b < |r| ==> r[b] == hs[b - 1];
      r
    else
      var rest := InsertByScore(h, hs[1..]);
      var r := [hs[0]] + rest;
      assert hs == [hs[0]] + hs[1..];
      assert rest[0].score <= hs[0].score;
      forall a, b | 0 <= a < b < |r| ensures r[a].score >= r[b].score {
        assert r[b] == rest[b - 1];
        if a > 0 {
          assert r[a] == rest[a - 1];
        } else if b > 1 {
          assert rest[0].score >= rest[b - 1].score;
        }
      }
      r
  }

  /** Inserting a hit adds exactly that hit. */
  lemma {:induction false} InsertByScorePermutes(h: Hit, hs: seq<Hit>)
    requires SortedByScore(hs)
    ensures multiset(InsertByScore(h, hs)) == multiset(hs) + multiset{h}
    decreases |hs|
  {
    if |hs| > 0 && h.score < hs[0].score {
      InsertByScorePermutes(h, hs[1..]);
      assert hs == [hs[0]] + hs[1..];
    }
  }

  /** `.sort({ score: -1 })`: hits by descending score; hits with equal
      scores keep the order the search reported them in. */
  function SortByScore(hs: seq<Hit>): (r: seq<Hit>)
    ensures SortedByScore(r)
    ensures multiset(r) == multiset(hs)
    ensures |r| == |hs|
    decreases |hs|
  {
    if |hs| == 0 then []
    else
      assert hs == [hs[0]] + hs[1..];
      var rest := SortByScore(hs[1..]);
      InsertByScorePermutes(hs[0], rest);
      InsertByScore(hs[0], rest)
  }

  /** The owner projection of a search result: every user with the owner's
      id (the lookup is not flattened). */
  datatype OwnerBrief = OwnerBrief(id: Id, fullName: string, avatar: string)

  datatype SearchItem = SearchItem(id: Id, title: string, thumbnail: string, views: nat,
                                   owner: seq<OwnerBrief>, score: real)

  function ItemOf(users: seq<User>, h: Hit): (r: SearchItem)
    ensures r.id == h.video.id && r.score == h.score
    ensures forall o :: o in r.owner ==> o.id == h.video.owner
  {
    var found := Filter(users, (u: User) => u.id == h.video.owner);
    assert forall k :: 0 <= k < |found| ==> found[k] in found;
    SearchItem(h.video.id, h.video.title, h.video.thumbnail, h.video.views,
               seq(|found|, k requires 0 <= k < |found| => OwnerBrief(found[k].id, found[k].fullName, found[k].avatar)),
               h.score)
  }

  function Items(users: seq<User>, hs: seq<Hit>): (r: seq<SearchItem>)
    ensures |r| == |hs|
    ensures forall k :: 0 <= k < |r| ==> r[k] == ItemOf(users, hs[k])
  {
    seq(|hs|, k requires 0 <= k < |hs| => ItemOf(users, hs[k]))
  }

  /** Each result carries a score no lower than the next one's. */
  predicate ScoresDescending(items: seq<SearchItem>)
  {
    forall a, b :: 0 <= a < b < |items| ==> items[a].score >= items[b].score
  }

  /** The search branch after the hits are in: sort by score, then the
      aggregation path's paging, then the projection. */
  function SearchPage(users: seq<User>, hits: seq<Hit>, page: int, limit: int): (r: Result<seq<SearchItem>>)
    ensures r.Ok? <==> Offset(page, limit) >= 0 && limit > 0
    ensures r.Err? ==> r.failure == BadPagination
    ensures r.Ok? ==> r.value == Items(users, Window(SortByScore(hits), Offset(page, limit), limit))
    ensures r.Ok? ==> |r.value| <= limit && ScoresDescending(r.value)
  {
    var sorted := SortByScore(hits);
    var w :- AggregatePage(sorted, page, limit);
    var items := Items(users, w);
    forall a, b | 0 <= a < b < |items| ensures items[a].score >= items[b].score {
      assert items[a].score == w[a].score && items[b].score == w[b].score;
      assert w[a] == sorted[Offset(page, limit) + a] && w[b] == sorted[Offset(page, limit) + b];
    }
    Ok(items)
  }

  /** The two shapes the listing answers with. */
  datatype Listing = Searched(items: seq<SearchItem>) | Plain(videos: seq<Video>)

  /** `getVideos`, defaults page 1 and limit 1 and an empty query. A query
      that is not blank after trimming runs the search, whose hits come in as
      `hits`, sorts them by score and pages them through the aggregation
      path; otherwise every video is paged through the `find()` path. */
  function GetVideos(s: Db, page: Option<int>, limit: Option<int>, query: Option<string>, hits: seq<Hit>)
    : (r: Result<Listing>)
    ensures var p := QueryInt(page, 1); var l := QueryInt(limit, 1);
      var q := if query.Some? then query.value else "";
      && (Trim(q) != "" ==>
            && (r.Ok? <==> Offset(p, l) >= 0 && l > 0)
            && (r.Ok? ==>
                  (&& r.value.Searched?
                   && |r.value.items| <= l
                   && ScoresDescending(r.value.items)
                   && r.value.items == Items(s.users, Window(SortByScore(hits), Offset(p, l), l)))))
      && (Trim(q) == "" ==>
            && (r.Ok? <==> Offset(p, l) >= 0)
            && (r.Ok? ==> r.value.Plain? && r.value.videos == FindPage(s.videos, p, l).value))
      && (r.Err? ==> r.failure == BadPagination)
  {
    var p := QueryInt(page, 1);
    var l := QueryInt(limit, 1);
    var q := if query.Some? then query.value else "";
    if Trim(q) != "" then
      var items :- SearchPage(s.users, hits, p, l);
      Ok(Searched(items))
    else
      var vs :- FindPage(s.videos, p, l);
      Ok(Plain(vs))
  }

  /** Every search result shown is one of the reported hits. */
  lemma SearchResultsAreHits(s: Db, page: Option<int>, limit: Option<int>, query: Option<string>, hits: seq<Hit>)
    requires var r := GetVideos(s, page, limit, query, hits); r.Ok? && r.value.Searched?
    ensures forall it :: it in GetVideos(s, page, limit, query, hits).value.items ==>
      exists h :: h in hits && it == ItemOf(s.users, h)
  {
    var p := QueryInt(page, 1);
    var l := QueryInt(limit, 1);
    var sorted := SortByScore(hits);
    var w := Window(sorted, Offset(p, l), l);
    var items := GetVideos(s, page, limit, query, hits).value.items;
    forall it | it in items ensures exists h :: h in hits && it == ItemOf(s.users, h) {
      var k :| 0 <= k < |items| && items[k] == it;
      assert w[k] in multiset(sorted);
      assert w[k] in hits;
    }
  }
}

=== FILE: wrappers.dfy ===
/** Option and the controllers' failure/result shapes.

    A controller either answers with a payload or throws. What it throws is
    either an `ApiError` it built itself (a status code and a message) or some
    other exception raised underneath it: a `TypeError` from reading a field
    of a missing document, or an error reported by the database driver. */
module Wrappers {

  datatype Option<+T> = None | Some(value: T)

  /** A thrown error, before the request wrapper turns it into a response. */
  datatype Failure =
    | ApiError(status: nat, message: string)
    | Thrown(kind: string)

  /** The status code the failure carries at the controller level; any
      exception that is not an `ApiError` has none and counts as 500. */
  function StatusOf(f: Failure): nat
  {
    match f
    case ApiError(status, _) => status
    case Thrown(_) => 500
  }

  datatype Result<+T> = Ok(value: T) | Err(failure: Failure) {

    predicate IsFailure() {
      Err?
    }

    function PropagateFailure<U>(): Result<U>
      requires Err?
    {
      Err(failure)
    }

    function Extract(): T
      requires Ok?
    {
      value
    }
  }

  /** A text field of a request body is truthy when it was sent and is not
      the empty string. */
  predicate Truthy(field: Option<string>)
  {
    field.Some? && field.value != ""
  }

  /** `field ? field : current` and `field || current` on a text field. */
  function OrElse(field: Option<string>, current: string): (r: string)
    ensures Truthy(field) ==> r == field.value
    ensures !Truthy(field) ==> r == current
  {
    if Truthy(field) then field.value else current
  }
}

/** The request wrapper every controller is registered through.

    It awaits the controller and, whatever it throws, answers with status 500
    and the error's message; the status an `ApiError` carries is not used on
    the wire. */
module Handler {
  import opened Wrappers

  datatype Response = Response(status: nat, success: bool)

  function Respond<T>(r: Result<T>, okStatus: nat): (resp: Response)
    ensures r.Ok? ==> resp == Response(okStatus, true)
    ensures r.Err? ==> resp == Response(500, false)
  {
    match r
    case Ok(_) => Response(okStatus, true)
    case Err(_) => Response(500, false)
  }

}
